=== FILE: README.md ===
# cmd-stack command templates in Dafny

cmd-stack stores shell commands that may contain placeholders. A placeholder is
a span `@{...}`:

- `@{}` (or `@{` with only whitespace before `}`) is a **Blank**, filled by the user.
- `@{int}` and `@{int[min, max]}` are **Int**, a random integer in the range.
- `@{string}` and `@{string[min, max]}` are **String**, a random alphanumeric string of a length in the range.
- `@{boolean}` is **Boolean**, `true` or `false` at random.

This project models the template engine of `logic/src/parameters` and the logic
around it:

- **Scanner and parser.** `parse_parameters` cuts a command into literal segments
  and placeholder spans. `parse_parameter` classifies each span by trying the
  Blank, String, Int and Boolean recognisers in that order (`scanner.dfy`,
  `parser.dfy`, `recognisers.dfy`).
- **Generators and populator.** Each parameter kind has a generator
  (`generator.dfy`). `populate_parameters` rebuilds the command: Blanks take
  user values in order, and every other parameter takes a generated value
  (`populator.dfy`). The mock-generator unit tests are reproduced exactly
  (`mock_vectors.dfy`).
- **Configuration.** The configuration record, its defaults and its read rule
  (`config.dfy`). The CLI's `config` command as a transition between
  configurations (`config_command.dfy`).
- **Command handlers.** The validity checks of add and update. The fuzzy search
  filter (`command_logic.dfy`).
- **CLI listings.** The column arithmetic and row cells of the CLI listings
  (`cli_prompter.dfy`, `param_utils.dfy`, `truncate.dfy`). The Go CLI's
  fixed-width rows and filter (`go_command.dfy`).
- **UI.** The blank-value bookkeeping of the command view
  (`command_display.dfy`, `param_viewer.dfy`). The tag tree of the side bar
  (`tag_tree.dfy`).

Modelling choices that run through the files:

- **Randomness** is a parameter. A `Source` maps a draw counter to a raw
  natural number. The k-th call `generate_range(lo, hi)` returns
  `lo + src(k) % (hi - lo + 1)`. Every value of the inclusive range is
  reachable (`Random.EveryValueIsDrawable`). The test `MockRng` is one such
  source: it cycles through its values (`Random.MockSource`).
- **Regexes** are written out as matchers. Each matcher is paired with a
  declarative description of the text it accepts, and lemmas prove both
  directions. `\s` and `str::trim` use the Unicode White_Space set. `\d` is
  read as the ASCII digits.
- **Integer widths** are explicit. `u16`, `u32` and `i32` are subset types.
  Where the source's arithmetic wraps, the as-written members write the wrap
  out (`Ints.WrappingMulU16`, `Ints.U32AsI32`). The rest of the model uses
  the corrected arithmetic that the Findings describe.
- **Strings.** Go strings are byte sequences. Rust strings are sequences of
  Unicode scalar values, which is what `chars().count()` counts. JavaScript
  strings are sequences of UTF-16 code units; the model reads them as
  sequences of characters (see "## Left out").
- **Terminal, prompts, database and UI events** are left out. What they
  supply becomes a parameter: the terminal width, the user's pick, the typed
  answers, the fuzzy score. Side effects are dropped.

## Model

| member | source | states |
|---|---|---|
| `Scanner.NextMatch` | logic/src/parameters/parser.rs:37 | A match found from a position starts with `@{` at or after it, ends with a `}` at least one character later, and lies inside the text |
| `Scanner.PlaceholderGivesMatch` | logic/src/parameters/parser.rs:37 | An `@{` with a `}` somewhere after it always yields a match |
| `Scanner.NoMatchMeansNoPlaceholder` | logic/src/parameters/parser.rs:37 | When the search finds nothing, the text holds no `@{` followed by a `}` |
| `Scanner.MatchGivesPlaceholder` | logic/src/parameters/parser.rs:37 | When the search finds something, the text holds a placeholder |
| `Scanner.Scan` | logic/src/parameters/parser.rs:41-60 | There is exactly one more literal segment than matched spans, the invariant asserted at line 60 |
| `Scanner.MatchAfterSegment` | logic/src/parameters/parser.rs:45 | The leftmost match of a segment free of `@{` followed by a placeholder is that placeholder |
| `Scanner.ScanCons` | logic/src/parameters/parser.rs:45-51 | Such a segment and placeholder are cut off first, and the scan continues on the rest |
| `Scanner.ScanWithoutPlaceholder` | logic/src/parameters/parser.rs:53-57 | A text without a placeholder scans to itself as the single segment, with no spans |
| `Scanner.ScanIsScanOf` | logic/src/parameters/parser.rs:45-57 | Segments and spans interleaved rebuild the command. No segment contains `@{`, and every span is `@{`, then no `}`, then `}` |
| `Scanner.ScanOfIsUnique` | logic/src/parameters/parser.rs:45-57 | Any cut with those properties is the scan: leftmost-first matching leaves no choice |
| `Scanner.ScanCharacterisation` | logic/src/parameters/parser.rs:45-57 | The scan equals a cut if and only if the cut has those properties |
| `Parser.ParseParameter` | logic/src/parameters/parser.rs:65-83 | A span containing a Blank is a Blank. Otherwise the String result wins if it is Ok, then the Int result, then Boolean. Every refusal is `InvalidParameter`, and accepted ranges are never inverted |
| `Parser.ParseAll` | logic/src/parameters/parser.rs:45-51 | The spans parse if and only if each span does, and then element by element. The first refusal ends the parse with `InvalidParameter` |
| `Parser.ParseParameters` | logic/src/parameters/parser.rs:33-63 | The result pairs the scan's segments with the classified spans, one segment more than parameters. It fails exactly when some span is refused |
| `Parser.ParseRoundTrip` | logic/src/parameters/parser.rs:45-57 | After a successful parse, putting the matched spans back between the segments rebuilds the command |
| `Parser.ParseCharacterisation` | logic/src/parameters/parser.rs:33-63 | The parse returns given segments and parameters if and only if they are a valid cut of the command whose spans classify as those parameters |
| `Parser.ParseFromScan` | logic/src/parameters/parser.rs:45-62 | The parse is fixed by the scan and the classification of its spans |
| `Parser.ParseWithoutPlaceholder` | logic/src/parameters/parser.rs:53-57 | Text without a placeholder parses to itself and no parameters |
| `Parser.OtherWordRefused` | logic/src/parameters/parser.rs:65-82 | A span with one `@`, no whitespace or `}` right after `@{`, a word that differs from both `string` and `int`, and not `@{boolean}` is refused with `InvalidParameter` |
| `Parser.UnknownTagExamples` | logic/src/parameters/parser.rs:65-82 | `@{uuid}` is refused, since the UUID recogniser is never tried, and so is `@{bool}` |
| `Parser.InvertedSpanRefused` | logic/src/parameters/parser.rs:74-82 | `@{int[1, 0]}` is refused as `InvalidParameter`: the Int recogniser's `InvalidMinMax` is discarded |
| `Parser.IntSpan` | logic/src/parameters/parser.rs:129-136 | `@{int}` parses as Int 5..10 under the default configuration |
| `Parser.StringSpan` | logic/src/parameters/parser.rs:138-145 | `@{string}` parses as String 5..10 under the default configuration |
| `Parser.BooleanSpan` | logic/src/parameters/parser.rs:147-154 | `@{boolean}` parses as Boolean |
| `Parser.ThreeParameterTestIgnoresKinds` | logic/src/parameters/parser.rs:108-126 | The checks the test makes hold for the real parse, and also for a result with every kind wrong, which the real parse is not |
| `Parser.NoParameterExample` | logic/src/parameters/parser.rs:90-102 | `cmd @ @email @wadsf @test {} @` has no placeholder and parses to one segment |
| `Parser.ThreeParameterExample` | logic/src/parameters/parser.rs:104-127 | `cmd @{boolean} @{int} @{string}` parses to segments `cmd `, ` `, ` `, `` and to Boolean, Int, String in that order |
| `Recognisers.BlankAtComplete` | logic/src/parameters/blank.rs:14 | Every `@{`, whitespace run, `}` laid out at a position is found by the matcher there |
| `Recognisers.BlankFromStr` | logic/src/parameters/blank.rs:13-23 | Accepted if and only if `@{`, a whitespace run and `}` occur anywhere in the text. A refusal is `InvalidParameter` |
| `Recognisers.BooleanFromStr` | logic/src/parameters/boolean.rs:12-17 | Accepted if and only if the text is exactly `@{boolean}` |
| `Recognisers.BooleanExamples` | logic/src/parameters/boolean.rs:35-50 | `@{boolean}` is accepted. `@{boolean[0, 1]}` and `@{int}` are refused |
| `Recognisers.UuidFromStr` | logic/src/parameters/uuid.rs:14-24 | Accepted if and only if `@{uuid}` occurs anywhere in the text |
| `Recognisers.UuidExamples` | logic/src/parameters/uuid.rs:38-49 | The pattern is unanchored and case-sensitive. `@{uuid[3,4]}` is refused |
| `Recognisers.NumeralEnd` | logic/src/parameters/int.rs:24 | The greedy `-?\d+` run ends at a non-digit, and what it covers is a numeral |
| `Recognisers.BracketAtComplete` | logic/src/parameters/int.rs:24 | A bracket group `[low,` whitespace `high]}` with numeral bounds is read back exactly by the matcher |
| `Recognisers.BoundedAtIff` | logic/src/parameters/int.rs:24 | The matcher accepts at a position exactly the texts `@{kw}` or `@{kw[low,` whitespace `high]}`, and reports their bounds |
| `Recognisers.FirstBounded` | logic/src/parameters/int.rs:29 | `captures` returns the leftmost position where the pattern matches, or nothing when it matches nowhere |
| `Recognisers.IntFromStr` | logic/src/parameters/int.rs:22-62 | No match gives `InvalidParameter`. Otherwise it uses the captured bounds or the configured ones: a bound outside `i32` is `TypeParsing` with its text, an inverted range is `InvalidMinMax`, anything else is that range |
| `Recognisers.StringFromStr` | logic/src/parameters/string.rs:22-62 | The same for String, with unsigned bounds, `u32` limits and the configured string lengths |
| `Recognisers.IntDefaultsExample` | logic/src/parameters/int.rs:78-85 | `@{int}` under the default configuration is Int 5..10 |
| `Recognisers.IntNegativeRangeExample` | logic/src/parameters/int.rs:87-93 | `@{int[-100, -99]}` is Int -100..-99 |
| `Recognisers.IntInvertedRangeExample` | logic/src/parameters/int.rs:116-118 | `@{int[1, 0]}` is refused with `InvalidMinMax(1, 0)` |
| `Recognisers.IntMalformedExamples` | logic/src/parameters/int.rs:120-138 | A missing bound, a missing `]` or another keyword is no Int placeholder: `InvalidParameter` |
| `Recognisers.StringDefaultsExample` | logic/src/parameters/string.rs:37-50 | `@{string}` under the default configuration is String 5..10 |
| `Recognisers.BooleanTextIsNoOtherKind` | logic/src/parameters/parser.rs:66-80 | `@{boolean}` passes the Blank, String and Int recognisers unaccepted, so the fixed order reaches Boolean |
| `Random.Draw` | logic/src/parameters/populator.rs:6-14 | `generate_range(low, high)` returns a value of the inclusive range |
| `Random.EveryValueIsDrawable` | logic/src/parameters/populator.rs:10-14 | Every value of the range is the outcome of some source, so no value is excluded |
| `Generator.GenerateInt` | logic/src/parameters/int.rs:65-69 | One draw. The text is a numeral whose value is the drawn integer, inside the range |
| `Generator.EveryFittingIntIsGenerated` | logic/src/parameters/int.rs:67 | Every integer of the range is rendered by some source |
| `Generator.GenerateBoolean` | logic/src/parameters/boolean.rs:20-28 | One draw in 0..1: 0 gives `false` and 1 gives `true`, both directions |
| `Generator.BothBooleansAreGenerated` | logic/src/parameters/boolean.rs:22-26 | Both words are produced by some source |
| `Generator.CharsetIsAlphanumeric` | logic/src/parameters/string.rs:67 | The 62 symbols are exactly the ASCII letters and digits |
| `Generator.RandomChars` | logic/src/parameters/string.rs:73-78 | The i-th symbol is the charset entry picked by the i-th draw in 0..61 |
| `Generator.RandomCharsAppend` | logic/src/parameters/string.rs:73-78 | Drawing a+b symbols is drawing a, then b more from the following draws |
| `Generator.GenerateString` | logic/src/parameters/string.rs:65-80 | The length is the first draw, inside the bounds. Then there is one draw per symbol, every symbol alphanumeric, 1 + length draws in all |
| `Generator.GenerateStringAsWritten` | logic/src/parameters/string.rs:69 | With both bounds cast to `i32` as written, it agrees with `GenerateString` when the maximum fits `i32` and returns None, standing for the panic of `gen_range` on an empty range, when only the maximum does not |
| `Generator.StringCastLosesLongLengths` | logic/src/parameters/string.rs:69 | `String(0, 2^31)` parses, but the as-written generator cannot produce it, while the intended one does |
| `Generator.GenerateValue` | logic/src/parameters/parser.rs:21-29 | Each kind's value fits its parameter, and the draws consumed are accounted for by the value. A Blank gives the empty string without drawing |
| `Parameters.CountBlanks` | logic/src/parameters/populator.rs:46-49 | The Blank count is at most the length, and zero exactly when no parameter is a Blank |
| `Parameters.BlankOrdinalStep` | ui/src/components/command-display/command-display.tsx:156-159 | Each Blank's ordinal is one more than the previous one's, as the `blankIndex++` counter advances |
| `Parameters.BlankOrdinalsDistinct` | ui/src/components/command-display/param-viewer.tsx:22-24 | Distinct Blanks have distinct ordinals, all below the Blank count |
| `Populator.Fill` | logic/src/parameters/populator.rs:35-61 | The values succeed if and only if enough blank values remain. A failure reports one past the values given and the Blank total |
| `Populator.FillBlankValues` | logic/src/parameters/populator.rs:40-44 | The k-th Blank from the left receives the k-th blank value |
| `Populator.FillGeneratedValues` | logic/src/parameters/populator.rs:56 | Every other parameter receives a value its generator can produce |
| `Populator.FillDraws` | logic/src/parameters/populator.rs:56 | Generation consumes exactly the draws the values account for, and none for a Blank |
| `Populator.Populate` | logic/src/parameters/populator.rs:17-65 | Given at least one parameter per gap (see "## Left out"), succeeds if and only if there are enough blank values, else `MissingBlankParamValues`. It returns one value per gap, the command is the segments interleaved with them, Blanks get their own value, and the others fit their parameter |
| `Populator.FillIgnoresSurplus` | logic/src/parameters/populator.rs:41 | Extra blank values beyond the Blanks change nothing |
| `Populator.PopulateIgnoresSurplus` | logic/src/parameters/populator.rs:33-44 | Surplus blank values leave the populated command and values unchanged |
| `Populator.PopulateFromFill` | logic/src/parameters/populator.rs:35-64 | With one parameter per gap, the result is the filled values interleaved with the segments |
| `MockVectors.FirstVectorValues` | logic/src/parameters/populator.rs:89-97 | With the mock values 0, 1, 2, 4 the generators produce `5`, `CEABCE` and `5` |
| `MockVectors.FirstVector` | logic/src/parameters/populator.rs:100-125 | `test_populate_parameters_1`: the values are `5`, `CEABCE`, `5` |
| `MockVectors.FirstVectorText` | logic/src/parameters/populator.rs:126 | The rebuilt command is `red-5 @nothing CEABCE 5` |
| `MockVectors.SecondVector` | logic/src/parameters/populator.rs:129-161 | `test_populate_parameters_2`: the values are `7`, `8`, `HCDEHCDEH`, `false` |
| `MockVectors.SecondVectorText` | logic/src/parameters/populator.rs:162 | The rebuilt command is `ls 7 8 HCDEHCDEH false` |
| `MockVectors.BlankVector` | logic/src/parameters/populator.rs:165-210 | `test_populate_parameters_blank_1`: the Blanks take `value1`, `value2` and `value3` in order, between `7` and `false` |
| `MockVectors.BlankVectorText` | logic/src/parameters/populator.rs:211 | The rebuilt command is `ls value1 7 value2 false value3` |
| `MockVectors.NoParameterVectors` | logic/src/parameters/populator.rs:214-246 | One segment gives that text and no values. No segment gives the empty text |
| `MockVectors.MissingBlankVector` | logic/src/parameters/populator.rs:248-265 | One Blank with no value is refused, reporting value 1 of 1 |
| `Decimal.RenderIntRoundTrip` | logic/src/parameters/int.rs:67 | `to_string` of an integer is a numeral that parses back to it |
| `Text.TrimEmptyIffAllWhitespace` | logic/src/command.rs:37 | `trim().is_empty()` holds exactly when every character is whitespace |
| `Text.ToLowerEqualsIff` | logic/src/config.rs:50 | Lower-casing equals a lower-case word exactly when the two agree letter by letter, ignoring case |
| `Text.JoinSplit` | ui/src/components/tag-tree.tsx:31-36 | Joining the parts of a split with the separator gives the text back |
| `Text.ContainsIffOccurs` | cli/dal/command.go:94-96 | The substring search succeeds exactly when the needle occurs at some offset |
| `Sequences.FilterSelectsKeptPositions` | logic/src/command.rs:68-103 | A filter's result is the input restricted to the accepted positions, in their original order |
| `Sequences.FilterKeepsAll` | cli/dal/command.go:91-101 | When every element is accepted, the filter returns its input |
| `Truncate.TruncateString` | cli/src/utils.rs:1-12 | A string that fits is kept. A longer one becomes a prefix followed by `...`, exactly the width long when the width is at least 3, and `...` alone below that |
| `Truncate.TruncateBound` | cli/src/utils.rs:3-8 | The result is never longer than the width, or than 3 for narrower widths |
| `Truncate.TruncateIdempotent` | cli/src/utils.rs:1-12 | Truncating twice is truncating once |
| `Truncate.TruncateExamples` | cli/src/utils.rs:19-32 | The outputs of the `must_truncate` and `fits` tests |
| `Config.DefaultIsValid` | logic/src/config.rs:26-34 | The defaults are All, 10 rows and most recently used first, with int range 5..10. They form a valid configuration |
| `Config.PrintStyleFromStr` | logic/src/config.rs:46-56 | `all` and `command` are recognised in any letter case. Anything else is `InvalidValue` |
| `Config.FromStored` | logic/src/config.rs:18-24 | A field the file sets is taken from it, and a missing one from the defaults |
| `Config.Read` | logic/src/config.rs:59-68 | An unreadable file reads as `{}`. An undecodable one gives the defaults. Otherwise the decoded fields are filled from the defaults |
| `Config.Stored` | logic/src/config.rs:70-75 | The written file sets every field |
| `Config.ReadAfterWrite` | logic/src/config.rs:59-75 | A written configuration reads back unchanged, and a file that sets nothing reads as the defaults |
| `ConfigCommand.HandleConfigCommand` | cli/src/handlers/config.rs:104-175 | Theme and style are stored as given, and a display limit of 0 is refused. A length or range needs at least one side, and a given length must be at least 1. An omitted side is kept, and min must not exceed max. Every accepted command keeps the configuration valid |
| `ConfigCommand.ResolveIntRange` | cli/src/handlers/config.rs:155-161 | As written, an omitted maximum falls back to the current minimum |
| `ConfigCommand.ResolveIntRangeIntended` | cli/src/handlers/config.rs:155-161 | As intended, an omitted side keeps its current value |
| `ConfigCommand.HandleIntRangeAsWritten` | cli/src/handlers/config.rs:148-172 | The as-written branch. No values gives `NoValuesGiven`. Otherwise it succeeds exactly when the as-written resolution is ordered, and stores it |
| `ConfigCommand.IntRangeMaxFallsBackToMin` | cli/src/handlers/config.rs:159-161 | From 5..10, `--min 3` gives 3..5 as written (3..10 intended), and `--min 7` is refused as written (7..10 intended) |
| `ConfigCommand.AsWrittenMinOnlyShrinks` | cli/src/handlers/config.rs:155-168 | As written, a lone minimum is accepted only at or below the current minimum, and collapses the maximum onto it |
| `ConfigCommand.IntendedRangeAcceptsOneSide` | cli/src/handlers/config.rs:148-172 | As intended, a lone side is accepted exactly when it does not cross the other side, which is kept |
| `CommandLogic.HandleAdd` | logic/src/command.rs:33-39 | Refused exactly when the command or the alias is blank after trimming. Otherwise the input goes to the database unchanged |
| `CommandLogic.HandleUpdate` | logic/src/command.rs:149-157 | The same check, with the id passed through |
| `CommandLogic.Search` | logic/src/command.rs:66-103 | A command is kept exactly when its alias, its command text or its tag scores above 50 against a given argument |
| `CommandLogic.NoArgumentsFindNothing` | logic/src/command.rs:74-101 | With no argument no command is found |
| `CommandLogic.UntaggedNeverMatchesTag` | logic/src/command.rs:90-97 | A command without a tag is never found through the tag argument alone |
| `CliPrompter.CheckSearchArgsExist` | cli/src/handlers/cli_prompter.rs:33-35 | True exactly when the command or the tag is given |
| `CliPrompter.NoSearchArgsFindNothing` | cli/src/handlers/cli_prompter.rs:29-35 | Without search arguments the search result is empty |
| `CliPrompter.SelectedIsShownAtPick` | cli/src/handlers/cli_prompter.rs:91-122 | The command the prompt returns for pick i is the command of row i of the cells handed to the table, under either print style: its text is the i-th commands-only entry, and its cells are the i-th row of the All listing |
| `CliPrompter.TagWidthAsWritten` | cli/src/handlers/cli_prompter.rs:146 | At least 8, and 5% of the width while `width * 5` fits `u16` |
| `CliPrompter.TagWidth` | cli/src/handlers/cli_prompter.rs:146 | The tag column is 5% of the width, and at least 8 |
| `CliPrompter.TagWidthMonotone` | cli/src/handlers/cli_prompter.rs:146 | A wider terminal never gets a narrower tag column |
| `CliPrompter.TagWidthOverflows` | cli/src/handlers/cli_prompter.rs:146 | As written it agrees up to 13107 columns, then drops from 655 to 8 at 13108 |
| `CliPrompter.PromptColumns` | cli/src/handlers/cli_prompter.rs:146-151 | The command column gets 75% of what the tag, the favourite column and 12 columns of padding leave, and the note gets the rest. Neither is negative, and on a wide terminal the columns fill the width exactly |
| `CliPrompter.RowCells` | cli/src/handlers/cli_prompter.rs:156-177 | A row is command, tag and note, each truncated to its column, then `*` for a favourite |
| `CliPrompter.RowCellsFit` | cli/src/handlers/cli_prompter.rs:142-178 | No cell is wider than its column, or than 3 for a column narrower than `...` |
| `CliPrompter.CommandsOnlyListing` | cli/src/handlers/cli_prompter.rs:132-138 | Under the commands-only style, each command's text is listed in order under `(Command)` |
| `CliPrompter.HeaderFieldsMatchCells` | cli/src/handlers/cli_prompter.rs:126-140 | Split on `\|`, the All header has four fields: command, tag, note and favourite, one per row cell and in the order the cells are laid out. The commands-only header is one field, matching entries that are one command text each. A check on the constant header text |
| `CliPrompter.BlankIndexesFrom` | cli/src/handlers/cli_prompter.rs:189-199 | `blank_index` takes the values 0, 1, 2, … at the successive Blanks, once per Blank |
| `CliPrompter.FillBlankParams` | cli/src/handlers/cli_prompter.rs:184-203 | One answer per Blank: the k-th answer is collected at the prompt numbered k + 1 |
| `CliPrompter.FilledBlanksPopulate` | cli/src/handlers/cli_prompter.rs:184-203 | The collected answers always populate the command, and each Blank receives the answer typed at its own prompt |
| `ParamUtils.SymbolWidthAsWritten` | cli/src/param/param_utils.rs:71 | At least 15, and 10% of the width while `width * 10` fits `u16` |
| `ParamUtils.RegexWidthAsWritten` | cli/src/param/param_utils.rs:72 | At least 30, and 60% of the width while `width * 60` fits `u16` |
| `ParamUtils.Columns` | cli/src/param/param_utils.rs:71-73 | Symbol gets 10% (at least 15) and regex 60% (at least 30). The note gets the non-negative rest after 12 columns of padding, filling the width when positive |
| `ParamUtils.ColumnsAsWritten` | cli/src/param/param_utils.rs:71-73 | The as-written widths, with the products wrapped |
| `ParamUtils.ColumnsMonotone` | cli/src/param/param_utils.rs:71-72 | A wider terminal never gets a narrower symbol or regex column |
| `ParamUtils.ColumnsOverflow` | cli/src/param/param_utils.rs:71-72 | As written it agrees up to 1092 columns. The regex column drops from 655 to 30 at 1093, and the symbol column from 655 to 15 at 6554 |
| `ParamUtils.RowCells` | cli/src/param/param_utils.rs:78-92 | A row is symbol, regex and note, each truncated to its column |
| `ParamUtils.ListParameters` | cli/src/param/param_utils.rs:19-37 | An empty list is `NoParams`. Otherwise there is one row per parameter, in order |
| `ParamUtils.ListedCellsFit` | cli/src/param/param_utils.rs:65-97 | Cells fit their columns, and a field that fits is shown verbatim |
| `ParamUtils.SelectedIsListedRow` | cli/src/param/param_utils.rs:19-63 | The parameter the prompt returns for pick i is the parameter of row i of the cells handed to the table |
| `GoCommand.Column` | cli/dal/command.go:31-53 | Exactly the column width. A field that fits is kept and padded with spaces, so a field exactly as long as the column stays verbatim. A longer one keeps width - 3 bytes and gets `...` |
| `GoCommand.Row` | cli/dal/command.go:20-56 | A row is four columns joined by ` \| ` |
| `GoCommand.RowLayout` | cli/dal/command.go:55 | Every row is 144 bytes, with the separators at offsets 25, 78 and 91 |
| `GoCommand.FittingFieldsAreReadable` | cli/dal/command.go:31-55 | Fields that fit can be read back from the row at their offsets |
| `GoCommand.ParseOption` | cli/dal/command.go:18 | Each of `all`, `command` and `alias` names its option, in both directions |
| `GoCommand.HeaderNamesEntryFields` | cli/dal/command.go:63-73 | Under `all` the header is the four column names joined by the separator the rows use, in row order. Under `command` or `alias` it names the one field each entry is. A check on the constant header text |
| `GoCommand.FormatCommands` | cli/dal/command.go:75-88 | Under a known option, one entry per command in order. Under an unknown one, nothing |
| `GoCommand.AllRowsHaveTableWidth` | cli/dal/command.go:79-80 | Under `all` every entry is a 144-byte row |
| `GoCommand.FilterCommands` | cli/dal/command.go:91-101 | A command is kept exactly when every non-empty filter is contained in its field or fuzzily matches it |
| `GoCommand.SubstringPasses` | cli/dal/command.go:94-96 | A filter that occurs in the field passes whatever the fuzzy matcher says |
| `GoCommand.EmptyFiltersKeepAll` | cli/dal/command.go:91-101 | With every filter empty, all commands are kept in order |
| `TagTree.Step` | ui/src/components/tag-tree.tsx:35-45 | The node for the prefix is present afterwards, and no existing node is replaced |
| `TagTree.InsertPathKeeps` | ui/src/components/tag-tree.tsx:34-47 | Inserting a path never replaces a node |
| `TagTree.InsertPathAdds` | ui/src/components/tag-tree.tsx:34-47 | Every prefix of the path becomes a node |
| `TagTree.InsertPathOnlyPrefixes` | ui/src/components/tag-tree.tsx:34-47 | Nothing but those prefixes is added |
| `TagTree.BuildTagTreeWellFormed` | ui/src/components/tag-tree.tsx:29-48 | Every node's id is its path joined with `/`, its name is its last segment, and its parent is present |
| `TagTree.BuildTagTreeNodes` | ui/src/components/tag-tree.tsx:29-48 | The nodes are exactly the non-empty prefixes of the tags' paths |
| `TagTree.NodeIffTagPrefix` | ui/src/components/tag-tree.tsx:31-37 | One path is a node exactly when it is such a prefix |
| `TagTree.UntaggedAddsNothing` | ui/src/components/tag-tree.tsx:30 | A command without a tag, or with an empty one, adds no node |
| `TagTree.ItemHasChildrenIffProperPrefix` | ui/src/components/tag-tree.tsx:50-65 | An item gets `children` exactly when its path is a proper prefix of some tag's path. Its id and name come from its path |
| `CommandDisplay.SetBlankParam` | ui/src/components/command-display/command-display.tsx:81-92 | Only the slot at the index changes. The length and every other slot stay, and an index out of range changes nothing |
| `CommandDisplay.SetBlankParamOverwrites` | ui/src/components/command-display/command-display.tsx:83-89 | A second write to a slot replaces the first, and rewriting a slot's own value is a no-op |
| `CommandDisplay.SetBlankParamCommutes` | ui/src/components/command-display/command-display.tsx:83-89 | Writes to different slots commute |
| `CommandDisplay.EmptyBlanks` | ui/src/components/command-display/command-display.tsx:121-125 | After a parse the blank array has one empty string per Blank |
| `CommandDisplay.EmptyBlanksHaveASlotPerBlank` | ui/src/components/command-display/command-display.tsx:134-143 | The array sent for generation has a slot, holding the empty string, for every Blank's ordinal |
| `CommandDisplay.MergeFrom` | ui/src/components/command-display/command-display.tsx:156-161 | The counter-driven map yields, at every position, the Blank's own slot or the generated value |
| `CommandDisplay.Merge` | ui/src/components/command-display/command-display.tsx:153-161 | It runs exactly when a command is selected and there is one generated value per parameter; clearing the command keeps the old state, so the first guard matters on its own. Position i then holds the blank value at i's ordinal for a Blank, else the generated value at i |
| `CommandDisplay.MergeAgreesWithPopulator` | ui/src/components/command-display/command-display.tsx:156-161 | The UI fills each Blank with the same value `populate_parameters` gives it |
| `CommandDisplay.MergeAfterResetHasNoGaps` | ui/src/components/command-display/command-display.tsx:153-161 | After a reset every position merges to a value, and every Blank to the empty string |
| `CommandDisplay.TagBadges` | ui/src/components/command-display/command-display.tsx:190-224 | No tag gives no badge. Otherwise there is one badge per `/`-separated part, and only the last one is `outline` |
| `CommandDisplay.TagBadgesSpellTag` | ui/src/components/command-display/command-display.tsx:190 | Joining the badge texts with `/` gives the tag back |
| `ParamViewer.FittingValueWithinBounds` | ui/src/components/command-display/param-viewer.tsx:56-60 | Any value that fits a String or Int parameter lies between the Min and Max its label prints: an Int's value, or a String's length |
| `ParamViewer.GeneratedValueWithinBounds` | ui/src/components/command-display/param-viewer.tsx:39-60 | The generated value a row shows lies within the bounds printed on that row |
| `ParamViewer.BlankLabel` | ui/src/components/command-display/param-viewer.tsx:89 | The label is `Blank @{n}`, with n the ordinal plus one |
| `ParamViewer.RowAt` | ui/src/components/command-display/param-viewer.tsx:20-43 | A Blank row reads the slot numbered by the Blanks before it. Any other row shows its parameter's generated value, or the empty string when there is none |
| `ParamViewer.EditRow` | ui/src/components/command-display/param-viewer.tsx:82-85 | An edit on a Blank row writes the input into that Blank's slot and keeps every other slot and the length. An edit on any other row changes nothing |
| `ParamViewer.EditShowsInOwnRowOnly` | ui/src/components/param-viewer.tsx:22-45 | An edit shows in its own row and leaves every other row as it was |
| `ParamViewer.RowsAgreeWithMerge` | ui/src/components/command-display/param-viewer.tsx:22-39 | Each row shows the value the merge sends for its position |

## Left out

- `ParameterError::InvalidRegex`: every pattern in the sources is a constant that compiles, so this error cannot occur.
- The database behind add, update, search and list. Search filters a given list, and add and update return what they would store.
- The handlers that only call the database: `handle_list_commands` and `handle_update_command_last_used_prop`.
- `index_blank_parameters`, `replace_parameters` and `generate_parameters` are not part of this model. The UI's calls to them appear only as the arrays it sends.
- The terminal is left out.
  - The width is a parameter, so the 150-column fallback when the size is unknown is not modelled.
  - The table renderer is left out. Only the cells handed to it are modelled, not the rendered lines.
- `CliPrompter.SelectedIsShownAtPick` proves that pick i returns the command of cell row i. The source offers the rendered table's lines (`table_str.lines()`, cli/src/handlers/cli_prompter.rs:180-181) and indexes the commands with the chosen line. When a command, tag or note holds a line break, the table lays that cell over several lines, so line i is no longer row i: later picks return the wrong command, and a pick near the end indexes past the vector (line 121). The model does not render lines, so it does not show this.
- `ParamUtils.SelectedIsListedRow` proves that pick i returns the parameter of cell row i. The same multi-line cell effect applies to the parameter table (`table_str.lines()`, cli/src/param/param_utils.rs:95-96), with the out-of-range index at line 62.
  - The `format_output` markup is left out.
- Prompts are left out. The user's pick and answers are parameters, and an aborted prompt (`InquireError`) is not modelled. `none_if_empty` belongs to the prompt and is left out.
- Configuration file paths and the write to disk are left out. `Config.ReadAfterWrite` takes a decoder that inverts the encoder as its premise.
- The `Config` record adds four fields that the `Config` struct in `logic/src/config.rs` does not declare: the `param_*` bounds and `application_theme`.
  - `int.rs`, `string.rs`, the config handler and the UI types read these fields, so the model includes them.
  - The int defaults 5..10 come from the Int test.
  - The string defaults 5..10 are taken to equal `StringParameter::default`.
- `UuidParameter::generate_random_value` is randomness with no range. `parse_parameter` never builds a UUID parameter.
- The distribution of `ThreadRng` is not modelled. A source can produce every value of the range, which is all the callers rely on.
- `MockRng` applies `value as i32` to its values. The model's sources use the small values of the tests, where the cast is the identity.
- Rust's `u16` multiplication panics on overflow in debug builds and wraps in release builds. The as-written members `CliPrompter.TagWidthAsWritten`, `ParamUtils.SymbolWidthAsWritten` and `ParamUtils.RegexWidthAsWritten` follow the release wrap. The listings use the corrected widths, as the lines below say.
- `ConfigCommand.HandleConfigCommand` resolves an omitted `--max` of the integer range to the current maximum, the corrected rule. The code as written (cli/src/handlers/config.rs:161) falls back to the current minimum, and is modelled by `ConfigCommand.HandleIntRangeAsWritten`. The two differ as the first Finding shows: from 5..10, `--min 3` stores 3..5, and `--min 7` is refused.
- `CliPrompter.PromptColumns` uses the corrected `CliPrompter.TagWidth`. So do `CliPrompter.RowCellsFit`, `CliPrompter.FormatInternalCommands` and `CliPrompter.SelectedIsShownAtPick`, which build on it. For terminals wider than 13107 columns the source's tag column is `CliPrompter.TagWidthAsWritten`, for example 8 instead of 655 at 13108.
- `ParamUtils.ListParameters` uses the corrected `ParamUtils.Columns`, and so do `ParamUtils.ListedCellsFit` and `ParamUtils.SelectedIsListedRow`. For terminals wider than 1092 columns the source's widths are `ParamUtils.ColumnsAsWritten`, for example a regex column of 30 instead of 655 at 1093.
- `Generator.GenerateValue` draws a String's length with the corrected `Generator.GenerateString`. For a maximum length above 2^31 - 1 the source casts it to a negative `i32`, and `gen_range` panics on the empty range. `Generator.GenerateStringAsWritten` returns None in that case.
- `Populator.Populate` requires at least one parameter per gap between segments. The source indexes `parameters[i]` for every gap (logic/src/parameters/populator.rs:39) and panics when there are fewer; the model excludes those calls instead of modelling the panic. Every caller passes the output of `parse_parameters`, which has exactly one parameter per gap (`Parser.ParseParameters`).
- `Populator.Fill` and `Populator.Populate` generate through `Generator.GenerateValue`. They therefore return Ok on a String parameter whose maximum length exceeds 2^31 - 1, where the source panics.
- JavaScript strings are UTF-16 code units and may hold lone surrogates, while the model's strings are sequences of characters. The UI operations modelled here split on and join with `/`, which is one code unit, and compare slots by index. Their results do not depend on the difference.
- The React components, their effects and their event wiring are left out. Each effect body is a function of the state it reads.
- The older `ui/src/components/param-viewer.tsx` selects and edits the same values as the newer viewer, so `ParamViewer.RowAt`'s shown value, `ParamViewer.EditRow`, `ParamViewer.EditShowsInOwnRowOnly` and `ParamViewer.RowsAgreeWithMerge` describe both. Its labels differ: a Blank row is labelled plain `Blank` (ui/src/components/blank-param.tsx:22), and any other row only with its `parameter.type` (ui/src/components/param.tsx:15), without Min and Max. `ParamViewer.BlankLabel`, `ParamViewer.FittingValueWithinBounds`, `ParamViewer.GeneratedValueWithinBounds` and the caption of `ParamViewer.RowAt` describe only the newer viewer.
- JavaScript specifics of the tag tree:
  - Sibling order is `Object.values` order: integer-like segments first in ascending numeric order, then the rest in insertion order. The model keys nodes by path and does not model order.
  - Segments named like `Object.prototype` members (for example `constructor`) would be taken as present by `!current[tagPart]`. The model treats every name as an ordinary key.
- The Go `Command` fields `Id` and `LastUsed`, and `Serialize`, play no part in the listing.
- `Text.ToLower` lower-cases ASCII letters only. No non-ASCII character lower-cases to a letter of `all` or `command`, so `Config.PrintStyleFromStr` accepts the same words as Rust's `to_lowercase`.
- `Recognisers.IntFromStr` and `Recognisers.StringFromStr` read `\d` as the ASCII digits, while the `regex` crate's `\d` also matches other Unicode decimal digits.
  - For such a bound the source captures it and reports `TypeParsing`.
  - The model finds no match there and may report `InvalidParameter`.
  - On the spans `parse_parameter` receives, both are discarded into `InvalidParameter`.
- `CommandLogic.Search` takes the fuzzy score (`SkimMatcherV2::fuzzy_match`) as a parameter. Only the threshold and the alias/command/tag disjunction are modelled.
- `GoCommand.FilterCommands` takes `fuzzy.MatchFold` as a parameter. Only the containment test and the conjunction over non-empty filters are modelled.
- `Config.FromStored` states its rule in its contract for the display limit and the integer minimum. The other fields follow the same rule in its body, and `Config.ReadAfterWrite` covers all of them together.
- `Recognisers.IntNegativeRangeExample` covers one of the four accepted ranges of the Int test (int.rs:87-112). The others, -100..100, 99..100 and 0..0, follow from `Recognisers.IntFromStr` and `Recognisers.BoundedAtIff` in the same way.

## Findings

| source | as written | input that shows it | evidently intended | confidence | as-written member | corrected member |
|---|---|---|---|---|---|---|
| cli/src/handlers/config.rs:159-161 | An omitted `--max` falls back to the current `param_int_range_min` | From 5..10, `config param-int-range --min 3` stores 3..5; `--min 7` is refused | An omitted side keeps its current value, as the string-length branch does (lines 134-136) | not executed | `ConfigCommand.IntRangeMaxFallsBackToMin` | `ConfigCommand.IntendedRangeAcceptsOneSide` |
| cli/src/handlers/cli_prompter.rs:146 | `width * 5` is computed in `u16` | A 13108-column terminal: the product wraps to 4 and the tag column is 8 instead of 655 | 5% of the width, growing with it | not executed | `CliPrompter.TagWidthOverflows` | `CliPrompter.TagWidthMonotone` |
| cli/src/param/param_utils.rs:71-72 | `width * 10` and `width * 60` are computed in `u16` | A 1093-column terminal: the regex column is 30 instead of 655 | 10% and 60% of the width, growing with it | not executed | `ParamUtils.ColumnsOverflow` | `ParamUtils.ColumnsMonotone` |
| logic/src/parameters/parser.rs:112-117 | The test's `matches!` expressions compute a boolean that is dropped, so the parameter kinds are never checked | A parse returning `[Blank, Blank, Blank]` with the same segments would pass the test | `assert!(matches!(…))` on each kind | not executed | `Parser.ThreeParameterTestIgnoresKinds` | `Parser.ThreeParameterExample` |
| logic/src/parameters/string.rs:69 | Both `u32` length bounds are cast to `i32` before the draw | `@{string[0, 2147483648]}` parses, but the maximum becomes negative, so `gen_range` gets an empty range and panics. The as-written member returns None for the panic | The length drawn from the full `u32` range | not executed | `Generator.StringCastLosesLongLengths` | `Generator.GenerateString` |

=== FILE: cli_prompter.dfy ===
/** The pure parts of the CLI's selection prompt
    (cli/src/handlers/cli_prompter.rs): the search-argument test, the
    guard against an empty list, the column widths of the command table,
    the cells of one table row, and the order in which Blank values are
    asked for. The terminal, the prompts and the table renderer are not
    modelled: the terminal width and the user's answers are parameters. */
module CliPrompter {
  import opened Wrappers
  import opened Ints
  import opened Decimal
  import opened Parameters
  import opened Scanner
  import opened Random
  import opened Populator
  import opened Text
  import CL = CommandLogic
  import C = Config
  import T = Truncate

  /** `check_search_args_exist`. */
  function CheckSearchArgsExist(command: Option<string>, tag: Option<string>): (r: bool)
    ensures r <==> !(command.None? && tag.None?)
  {
    command.Some? || tag.Some?
  }

  /** Without search arguments the search handler has nothing to match
      on: its result is empty whatever the listing. */
  lemma NoSearchArgsFindNothing(cmds: seq<CL.Command>, command: Option<string>, tag: Option<string>, score: CL.Scorer)
    requires !CheckSearchArgsExist(command, tag)
    ensures CL.Search(cmds, CL.SearchCommandArgs(None, command, tag), score) == []
  {
    CL.NoArgumentsFindNothing(cmds, score);
  }

  datatype PromptUserForCommandSelectionError = NoCommandsProvided

  /** `prompt_user_for_command_selection` with the user's pick as the
      parameter `choice` (the prompt only returns indexes of the list). */
  function SelectCommand(cmds: seq<CL.Command>, choice: nat): (r: Result<CL.Command, PromptUserForCommandSelectionError>)
    requires cmds == [] || choice < |cmds|
    ensures r.Err? <==> cmds == []
    ensures r.Ok? ==> r.value == cmds[choice]
  {
    if cmds == [] then Err(NoCommandsProvided) else Ok(cmds[choice])
  }

  /** The column widths of `format_internal_commands`. */
  datatype Columns = Columns(tag: int, favourite: int, command: int, note: int)

  const FAVOURITE_WIDTH: int := 5

  /** `tag_width` AS WRITTEN: `width * 5` is a `u16` product, which wraps
      for widths above 13107 in a release build. */
  function TagWidthAsWritten(width: u16): (r: int)
    ensures r >= 8
    ensures width * 5 < U16_LIMIT ==> r == Max(width * 5 / 100, 8)
  {
    Max(WrappingMulU16(width, 5) / 100, 8)
  }

  /** `tag_width` as intended: 5% of the width, at least 8. */
  function TagWidth(width: u16): (r: int)
    ensures r >= 8 && r >= width * 5 / 100
    ensures r == 8 || r == width * 5 / 100
  {
    Max(width * 5 / 100, 8)
  }

  /** The column widths for a terminal `width` columns wide. */
  function PromptColumns(width: u16): (r: Columns)
    // The tag column gets 5% of the width and never fewer than 8 columns.
    ensures r.tag == TagWidth(width)
    // What the tag, the favourite marker and 12 columns of padding leave
    // (never negative) is shared out: the command gets 75%, rounded down,
    // and the note the rest.
    ensures r.command >= 0 && r.note >= 0
    ensures r.command + r.note == Max(width - r.tag - FAVOURITE_WIDTH - 12, 0)
    ensures 4 * r.command <= 3 * (r.command + r.note) < 4 * r.command + 4
    // On a terminal wide enough, the columns and padding fill it exactly.
    ensures width >= r.tag + FAVOURITE_WIDTH + 12 ==> r.tag + r.favourite + r.command + r.note + 12 == width
  {
    var tag := TagWidth(width);
    var remaining := Max(width - tag - FAVOURITE_WIDTH - 12, 0);
    var command := remaining * 75 / 100;
    Columns(tag, FAVOURITE_WIDTH, command, remaining - command)
  }

  /** A wider terminal never gets a narrower tag column. */
  lemma TagWidthMonotone(w1: u16, w2: u16)
    requires w1 <= w2
    ensures TagWidth(w1) <= TagWidth(w2)
  {
    assert w1 * 5 <= w2 * 5;
  }

  /** The width as written agrees with the intended one up to 13107
      columns and breaks monotonicity right after: 13107 columns give a
      655-column tag, 13108 give 8. */
  lemma TagWidthOverflows()
    ensures forall w: u16 :: w <= 13107 ==> TagWidthAsWritten(w) == TagWidth(w)
    ensures TagWidthAsWritten(13107) == 655 && TagWidthAsWritten(13108) == 8
    ensures TagWidth(13108) == 655
  {
    assert WrappingMulU16(13108, 5) == 4;
  }

  /** The cells of one row of the command table: the command, tag and
      note, each cut to its column, and "*" for a favourite. */
  function RowCells(c: CL.Command, cols: Columns): (r: seq<string>)
    requires cols.tag >= 0 && cols.command >= 0 && cols.note >= 0
    ensures |r| == 4
    ensures r[0] == T.TruncateString(c.internal.command, cols.command)
    ensures r[1] == T.TruncateString(c.internal.tag.GetOr(""), cols.tag)
    ensures r[2] == T.TruncateString(c.internal.note.GetOr(""), cols.note)
    ensures r[3] == (if c.internal.favourite then "*" else "")
  {
    [ T.TruncateString(c.internal.command, cols.command),
      T.TruncateString(c.internal.tag.GetOr(""), cols.tag),
      T.TruncateString(c.internal.note.GetOr(""), cols.note),
      if c.internal.favourite then "*" else "" ]
  }

  /** No cell is wider than its column (or than 3, for a column narrower
      than "..."). */
  lemma RowCellsFit(c: CL.Command, width: u16)
    ensures var cols := PromptColumns(width);
      && |RowCells(c, cols)[0]| <= Max(cols.command, 3)
      && |RowCells(c, cols)[1]| <= cols.tag
      && |RowCells(c, cols)[2]| <= Max(cols.note, 3)
      && |RowCells(c, cols)[3]| <= 1
  {
    var cols := PromptColumns(width);
    T.TruncateBound(c.internal.command, cols.command);
    T.TruncateBound(c.internal.tag.GetOr(""), cols.tag);
    T.TruncateBound(c.internal.note.GetOr(""), cols.note);
  }

  /** `format_commands_for_printing` under the commands-only style: each
      command's text, in input order, under the "(Command)" header. */
  function CommandsOnlyListing(cmds: seq<CL.Command>): (r: (seq<string>, string))
    ensures |r.0| == |cmds| && r.1 == "(Command)"
    ensures forall i :: 0 <= i < |cmds| ==> r.0[i] == cmds[i].internal.command
    decreases |cmds|
  {
    if |cmds| == 0 then ([], "(Command)")
    else ([cmds[0].internal.command] + CommandsOnlyListing(cmds[1..]).0, "(Command)")
  }

  /** The header `format_commands_for_printing` shows above the listing
      of each print style. */
  function ListingHeader(style: C.PrintStyle): (r: string)
    ensures style == C.All ==> r == "(Command | Tag | Note | Favourite [*])"
    ensures style == C.Command ==> r == "(Command)"
  {
    match style
    case All => "(Command | Tag | Note | Favourite [*])"
    case Command => "(Command)"
  }

  /** The header names one field per cell of a row: split on '|', the All
      header has the four fields command, tag, note and favourite, in the
      order `RowCells` lays them out, and the commands-only header has the
      one field its entries show. This and the helpers below only check
      the constant header text against the row layout. */
  lemma HeaderFieldsMatchCells(c: CL.Command, cols: Columns)
    requires cols.tag >= 0 && cols.command >= 0 && cols.note >= 0
    ensures Split(ListingHeader(C.All), '|') == ["(Command ", " Tag ", " Note ", " Favourite [*])"]
    ensures |Split(ListingHeader(C.All), '|')| == |RowCells(c, cols)|
    ensures Split(ListingHeader(C.Command), '|') == [ListingHeader(C.Command)]
    ensures CommandsOnlyListing([c]).0 == [c.internal.command]
  {
    FourFields(ListingHeader(C.All), "(Command ", " Tag ", " Note ", " Favourite [*])");
    OneField(ListingHeader(C.Command));
  }

  /** The All header is its four fields joined by '|'. */
  lemma FourFields(h: string, a: string, b: string, d: string, e: string)
    requires h == "(Command | Tag | Note | Favourite [*])"
    requires a == "(Command " && b == " Tag " && d == " Note " && e == " Favourite [*])"
    ensures Split(h, '|') == [a, b, d, e]
  {
    HeaderJoin(h, a, b, d, e);
    NoBar(a); NoBar(b); NoBar(d); NoBar(e);
    FourPieces(a, b, d, e);
  }

  lemma HeaderJoin(h: string, a: string, b: string, d: string, e: string)
    requires h == "(Command | Tag | Note | Favourite [*])"
    requires a == "(Command " && b == " Tag " && d == " Note " && e == " Favourite [*])"
    ensures h == a + ['|'] + (b + ['|'] + (d + ['|'] + e))
  {
  }

  lemma NoBar(f: string)
    requires f == "(Command " || f == " Tag " || f == " Note " || f == " Favourite [*])"
    ensures '|' !in f
  {
  }

  /** Four separator-free pieces joined by the separator split back. */
  lemma FourPieces(a: string, b: string, d: string, e: string)
    requires '|' !in a && '|' !in b && '|' !in d && '|' !in e
    ensures Split(a + ['|'] + (b + ['|'] + (d + ['|'] + e)), '|') == [a, b, d, e]
  {
    SplitWithoutSep(e, '|');
    SplitAfterSep(d, e, '|');
    SplitAfterSep(b, d + ['|'] + e, '|');
    SplitAfterSep(a, b + ['|'] + (d + ['|'] + e), '|');
  }

  lemma OneField(h: string)
    requires h == "(Command)"
    ensures Split(h, '|') == [h]
  {
    SplitWithoutSep(h, '|');
  }

  /** `format_internal_commands`: the row cells of every command, in input
      order, for a terminal `width` columns wide. */
  function FormatInternalCommands(cmds: seq<CL.Command>, width: u16): (r: seq<seq<string>>)
    ensures |r| == |cmds|
    ensures forall i :: 0 <= i < |cmds| ==> r[i] == RowCells(cmds[i], PromptColumns(width))
  {
    seq(|cmds|, i requires 0 <= i < |cmds| => RowCells(cmds[i], PromptColumns(width)))
  }

  /** The command the prompt returns is the one listed on the line the
      user picked, under either print style. */
  lemma SelectedIsShownAtPick(cmds: seq<CL.Command>, choice: nat, width: u16)
    requires choice < |cmds|
    ensures SelectCommand(cmds, choice).Ok?
    ensures SelectCommand(cmds, choice).value.internal.command == CommandsOnlyListing(cmds).0[choice]
    ensures RowCells(SelectCommand(cmds, choice).value, PromptColumns(width)) == FormatInternalCommands(cmds, width)[choice]
  {
  }

  /** The prompt shown for the Blank with the given ordinal:
      "<bold>Fill in @{n}:</bold>", with n counted from 1. */
  function FillPrompt(ordinal: nat): string {
    "<bold>Fill in @{" + RenderNat(ordinal + 1) + "}:</bold>"
  }

  /** The walk of `fill_blank_params` from parameter `i` on, with
      `blank_index` at `ordinal`: the value `blank_index` has at each
      Blank met, in order. */
  function BlankIndexesFrom(params: seq<Parameter>, i: nat, ordinal: nat): (r: seq<nat>)
    requires i <= |params| && ordinal == BlankOrdinal(params, i)
    ensures |r| == CountBlanks(params) - ordinal
    ensures forall j :: 0 <= j < |r| ==> r[j] == ordinal + j
    decreases |params| - i
  {
    BlankOrdinalMonotone(params, i, |params|);
    assert params[..|params|] == params;
    if i == |params| then []
    else
      BlankOrdinalStep(params, i);
      if params[i].Blank? then [ordinal] + BlankIndexesFrom(params, i + 1, ordinal + 1)
      else BlankIndexesFrom(params, i + 1, ordinal)
  }

  /** `fill_blank_params`: the prompts shown and the values collected.
      `answer(n)` is what the user types at the prompt for `blank_index`
      n. There is exactly one value per Blank: the `k`-th answer for the
      `k`-th Blank, asked with the prompt numbered k + 1. */
  function FillBlankParams(params: seq<Parameter>, answer: nat -> string): (r: (seq<string>, seq<string>))
    ensures |r.1| == CountBlanks(params) && |r.0| == |r.1|
    ensures forall k :: 0 <= k < |r.1| ==> r.1[k] == answer(k) && r.0[k] == FillPrompt(k)
  {
    assert params[..0] == [];
    var indexes := BlankIndexesFrom(params, 0, 0);
    (seq(|indexes|, j requires 0 <= j < |indexes| => FillPrompt(indexes[j])),
     seq(|indexes|, j requires 0 <= j < |indexes| => answer(indexes[j])))
  }

  /** The collected values are what the populator needs: with them, a
      command's parameters always populate, and each Blank receives the
      answer typed at its own prompt. */
  lemma FilledBlanksPopulate(segs: seq<string>, params: seq<Parameter>, answer: nat -> string, src: Source, i: nat)
    requires |segs| == |params| + 1
    requires forall j :: 0 <= j < |params| ==> WellFormed(params[j])
    requires i < |params| && params[i].Blank?
    ensures Populate(segs, params, FillBlankParams(params, answer).1, src).Ok?
    ensures Populate(segs, params, FillBlankParams(params, answer).1, src).value.1[i] == answer(BlankOrdinal(params, i))
  {
    assert params[..|segs| - 1] == params;
    BlankOrdinalStep(params, i);
    BlankOrdinalMonotone(params, i + 1, |params|);
  }
}

=== FILE: command_display.dfy ===
/** The blank-value bookkeeping of the command view
    (ui/src/components/command-display/command-display.tsx): the array of
    user-typed Blank values, its reset after a parse, the merge of those
    values with the generated ones, and the split of a tag into badges.
    React state, effects and the Tauri calls around them are not modelled;
    each effect body is a function of the state it reads. */
module CommandDisplay {
  import opened Wrappers
  import opened Text
  import opened Parameters
  import opened Scanner
  import opened Random
  import opened Populator

  /** `setBlankParam(index, value)`: a `map` over the array that replaces
      the element whose position equals `index`. */
  function SetBlankParam(values: seq<string>, index: int, value: string): (r: seq<string>)
    ensures |r| == |values|
    ensures 0 <= index < |values| ==> r[index] == value
    ensures forall i :: 0 <= i < |values| && i != index ==> r[i] == values[i]
    decreases |values|
  {
    if |values| == 0 then []
    else [if index == 0 then value else values[0]] + SetBlankParam(values[1..], index - 1, value)
  }

  /** Writing the same slot twice keeps only the second value; writing a
      slot's own value back, or writing outside the array, changes
      nothing. */
  lemma SetBlankParamOverwrites(values: seq<string>, index: int, a: string, b: string)
    ensures SetBlankParam(SetBlankParam(values, index, a), index, b) == SetBlankParam(values, index, b)
    ensures 0 <= index < |values| ==> SetBlankParam(values, index, values[index]) == values
    ensures !(0 <= index < |values|) ==> SetBlankParam(values, index, a) == values
  {
    var once, twice := SetBlankParam(values, index, b), SetBlankParam(SetBlankParam(values, index, a), index, b);
    assert forall i :: 0 <= i < |values| ==> twice[i] == once[i];
    if 0 <= index < |values| {
      var same := SetBlankParam(values, index, values[index]);
      assert forall i :: 0 <= i < |values| ==> same[i] == values[i];
    } else {
      var none := SetBlankParam(values, index, a);
      assert forall i :: 0 <= i < |values| ==> none[i] == values[i];
    }
  }

  /** Writes to different slots commute. */
  lemma SetBlankParamCommutes(values: seq<string>, i: int, j: int, a: string, b: string)
    requires i != j
    ensures SetBlankParam(SetBlankParam(values, i, a), j, b) == SetBlankParam(SetBlankParam(values, j, b), i, a)
  {
    var x, y := SetBlankParam(SetBlankParam(values, i, a), j, b), SetBlankParam(SetBlankParam(values, j, b), i, a);
    assert forall k :: 0 <= k < |values| ==> x[k] == y[k];
  }

  /** `Array(n).fill('')` with `n` the number of Blank parameters: the
      array set after every parse, and the array sent with every generation
      request. */
  function EmptyBlanks(params: seq<Parameter>): (r: seq<string>)
    ensures |r| == CountBlanks(params)
    ensures forall i :: 0 <= i < |r| ==> r[i] == ""
  {
    Repeat("", CountBlanks(params))
  }

  /** After a reset every Blank has a slot of its own, holding "". */
  lemma EmptyBlanksHaveASlotPerBlank(params: seq<Parameter>, i: nat)
    requires i < |params| && params[i].Blank?
    ensures BlankOrdinal(params, i) < |EmptyBlanks(params)|
    ensures EmptyBlanks(params)[BlankOrdinal(params, i)] == ""
  {
    BlankOrdinalMonotone(params, i + 1, |params|);
    BlankOrdinalStep(params, i);
    assert params[..|params|] == params;
  }

  /** The body of the `paramValues` map from position `i` on, with the
      running `blankIndex` counter at `ordinal`. An entry read past the end
      of the blank array is JavaScript `undefined` (None). */
  function MergeFrom(params: seq<Parameter>, blanks: seq<string>, generated: seq<string>, i: nat, ordinal: nat)
    : (r: seq<Option<string>>)
    requires |generated| == |params| && i <= |params|
    requires ordinal == BlankOrdinal(params, i)
    ensures |r| == |params| - i
    ensures forall j :: i <= j < |params| ==> r[j - i] == MergedAt(params, blanks, generated, j)
    decreases |params| - i
  {
    if i == |params| then []
    else
      BlankOrdinalStep(params, i);
      var rest := MergeFrom(params, blanks, generated, i + 1, if params[i].Blank? then ordinal + 1 else ordinal);
      var r := [if params[i].Blank? then Lookup(blanks, ordinal) else Some(generated[i])] + rest;
      assert forall j :: 0 < j < |r| ==> r[j] == rest[j - 1];
      r
  }

  /** What the merge holds at position `j`: the Blank's own slot of the
      blank array, or the generated value. */
  function MergedAt(params: seq<Parameter>, blanks: seq<string>, generated: seq<string>, j: nat): Option<string>
    requires |generated| == |params| && j < |params|
  {
    if params[j].Blank? then Lookup(blanks, BlankOrdinal(params, j)) else Some(generated[j])
  }

  /** The effect that builds `paramValues`. It runs only while a command is
      selected (`hasCommand`) and there is one generated value per
      parameter; otherwise nothing is built (None). Clearing the command
      leaves the old parameters and values in place, so the first guard
      is not implied by the second. */
  function Merge(hasCommand: bool, params: seq<Parameter>, blanks: seq<string>, generated: seq<string>)
    : (r: Option<seq<Option<string>>>)
    ensures r.Some? <==> hasCommand && |generated| == |params|
    ensures r.Some? ==> |r.value| == |params|
    ensures r.Some? ==> forall i :: 0 <= i < |params| && params[i].Blank? ==>
      r.value[i] == Lookup(blanks, BlankOrdinal(params, i))
    ensures r.Some? ==> forall i :: 0 <= i < |params| && !params[i].Blank? ==> r.value[i] == Some(generated[i])
  {
    if hasCommand && |generated| == |params| then
      assert params[..0] == [];
      var m := MergeFrom(params, blanks, generated, 0, 0);
      assert forall i :: 0 <= i < |params| ==> m[i] == MergedAt(params, blanks, generated, i) by {
        forall i | 0 <= i < |params| ensures m[i] == MergedAt(params, blanks, generated, i) {
          assert m[i - 0] == MergedAt(params, blanks, generated, i);
        }
      }
      Some(m)
    else None
  }

  /** With a command selected, the UI fills Blanks in the same order as
      `populate_parameters`: given the same blank values, every Blank
      position of the merge holds the value the populator put there. */
  lemma MergeAgreesWithPopulator(segs: seq<string>, params: seq<Parameter>, blanks: seq<string>, src: Source,
                                 generated: seq<string>, i: nat)
    requires |segs| == |params| + 1 && |generated| == |params|
    requires forall j :: 0 <= j < |params| ==> WellFormed(params[j])
    requires Populate(segs, params, blanks, src).Ok?
    requires i < |params| && params[i].Blank?
    ensures Merge(true, params, blanks, generated).value[i] == Some(Populate(segs, params, blanks, src).value.1[i])
  {
  }

  /** With a freshly reset blank array every Blank position merges to ""
      rather than `undefined`. */
  lemma MergeAfterResetHasNoGaps(params: seq<Parameter>, generated: seq<string>, i: nat)
    requires |generated| == |params| && i < |params|
    ensures Merge(true, params, EmptyBlanks(params), generated).value[i].Some?
    ensures params[i].Blank? ==> Merge(true, params, EmptyBlanks(params), generated).value[i] == Some("")
  {
    if params[i].Blank? {
      EmptyBlanksHaveASlotPerBlank(params, i);
    }
  }

  /** How a badge of the tag path is drawn. */
  datatype Variant = Outline | Secondary

  /** `tagParts` and the badge variants: the tag split on '/', every part
      but the last drawn `secondary`, the last `outline`. A missing or
      empty tag draws nothing. */
  function TagBadges(tag: Option<string>): (r: seq<(string, Variant)>)
    ensures tag.None? || tag == Some("") ==> r == []
    ensures tag.Some? && tag.value != "" ==> |r| == |Split(tag.value, '/')| && |r| >= 1
    ensures forall i :: 0 <= i < |r| ==> (r[i].1 == Outline <==> i == |r| - 1)
    ensures forall i :: 0 <= i < |r| ==> '/' !in r[i].0
  {
    if tag.None? || tag.value == "" then []
    else
      var parts := Split(tag.value, '/');
      seq(|parts|, i requires 0 <= i < |parts| => (parts[i], if i == |parts| - 1 then Outline else Secondary))
  }

  /** The badges spell the tag: joining their texts with '/' gives it
      back. */
  lemma TagBadgesSpellTag(tag: string)
    requires tag != ""
    ensures Join(seq(|TagBadges(Some(tag))|, i requires 0 <= i < |TagBadges(Some(tag))| => TagBadges(Some(tag))[i].0), '/') == tag
  {
    var parts := Split(tag, '/');
    var names := seq(|TagBadges(Some(tag))|, i requires 0 <= i < |TagBadges(Some(tag))| => TagBadges(Some(tag))[i].0);
    assert names == parts;
    JoinSplit(tag, '/');
  }
}

=== FILE: command_logic.dfy ===
/** The command handlers of logic/src/command.rs without the database:
    the input check that guards adding and updating a command, and the
    filter `handle_search_command` applies to the listed commands. The
    fuzzy scorer (`SkimMatcherV2::fuzzy_match`) is a parameter: `score(text,
    pattern)` is its result, None when the pattern does not match. */
module CommandLogic {
  import opened Wrappers
  import opened Text
  import opened Sequences

  /** `InternalCommand`: the properties the user edits. */
  datatype InternalCommand = InternalCommand(
    alias: string, command: string, tag: Option<string>, note: Option<string>, favourite: bool)

  /** `Command`: a stored command. */
  datatype Command = Command(id: nat, lastUsed: nat, internal: InternalCommand)

  /** The one error add and update raise (`CommandLogicError::InvalidCommand`);
      the database errors are not modelled. */
  datatype CommandLogicError = InvalidCommand

  datatype SearchCommandArgs = SearchCommandArgs(alias: Option<string>, command: Option<string>, tag: Option<string>)

  type Scorer = (string, string) -> Option<int>

  /** The threshold a fuzzy score must exceed. */
  const MIN_THRESHOLD: int := 50

  /** An input passes when neither its command text nor its alias is empty
      after trimming. */
  predicate ValidInput(c: InternalCommand) {
    |Trim(c.command)| > 0 && |Trim(c.alias)| > 0
  }

  /** `handle_add_command` up to the database call: the command to insert,
      or `InvalidCommand` before any insert. */
  function HandleAdd(c: InternalCommand): (r: Result<InternalCommand, CommandLogicError>)
    ensures r.Err? <==> AllWhitespace(c.command) || AllWhitespace(c.alias)
    ensures r.Ok? ==> r.value == c
  {
    TrimEmptyIffAllWhitespace(c.command);
    TrimEmptyIffAllWhitespace(c.alias);
    if !ValidInput(c) then Err(InvalidCommand) else Ok(c)
  }

  /** `handle_update_command` up to the database call: the id and the new
      properties to store, or `InvalidCommand` before any update. */
  function HandleUpdate(id: int, c: InternalCommand): (r: Result<(int, InternalCommand), CommandLogicError>)
    ensures r.Err? <==> AllWhitespace(c.command) || AllWhitespace(c.alias)
    ensures r.Ok? ==> r.value == (id, c)
  {
    TrimEmptyIffAllWhitespace(c.command);
    TrimEmptyIffAllWhitespace(c.alias);
    if !ValidInput(c) then Err(InvalidCommand) else Ok((id, c))
  }

  /** One field test of the filter: the argument is given, the field is
      present, and the fuzzy score exceeds the threshold. */
  predicate FieldMatches(arg: Option<string>, field: Option<string>, score: Scorer) {
    match arg
    case None => false
    case Some(a) =>
      match field
      case None => false
      case Some(text) =>
        match score(text, a)
        case None => false
        case Some(s) => s > MIN_THRESHOLD
  }

  /** The closure passed to `filter`: alias, command text or tag. */
  predicate Matches(c: Command, args: SearchCommandArgs, score: Scorer) {
    || FieldMatches(args.alias, Some(c.internal.alias), score)
    || FieldMatches(args.command, Some(c.internal.command), score)
    || FieldMatches(args.tag, c.internal.tag, score)
  }

  /** `handle_search_command` after the listing: the commands the closure
      keeps, in listing order. */
  function Search(cmds: seq<Command>, args: SearchCommandArgs, score: Scorer): (r: seq<Command>)
    ensures forall j :: 0 <= j < |r| ==> r[j] in cmds && Matches(r[j], args, score)
    ensures forall i :: 0 <= i < |cmds| && Matches(cmds[i], args, score) ==> cmds[i] in r
  {
    Filter(cmds, c => Matches(c, args, score))
  }

  /** With no search argument nothing matches, so the result is empty. */
  lemma NoArgumentsFindNothing(cmds: seq<Command>, score: Scorer)
    ensures Search(cmds, SearchCommandArgs(None, None, None), score) == []
  {
    assert forall c :: !Matches(c, SearchCommandArgs(None, None, None), score);
  }

  /** A command without a tag is never found through the tag argument
      alone. */
  lemma UntaggedNeverMatchesTag(c: Command, t: string, score: Scorer)
    requires c.internal.tag.None?
    ensures !Matches(c, SearchCommandArgs(None, None, Some(t)), score)
  {
  }
}

=== FILE: config.dfy ===
/** The application configuration (logic/src/config.rs): its record, its
    defaults, the print-style parser and the rule that turns an unreadable
    or unparseable file into the defaults. The record also carries the
    parameter bounds and theme that the recognisers, the CLI handler and the
    UI settings type read. */
module Config {
  import opened Wrappers
  import opened Text
  import opened Ints

  /** How the CLI lists commands. */
  datatype PrintStyle = All | Command

  datatype ApplicationTheme = System | Dark | Light

  datatype Config = Config(
    cliPrintStyle: PrintStyle,
    cliDisplayLimit: u32,
    cliDisplayByMostRecentlyUsed: bool,
    paramStringLengthMin: u32,
    paramStringLengthMax: u32,
    paramIntRangeMin: i32,
    paramIntRangeMax: i32,
    applicationTheme: ApplicationTheme)

  datatype ConfigError = InvalidValue

  /** `Config::default()`. */
  function Default(): Config {
    Config(All, 10, true, 5, 10, 5, 10, System)
  }

  /** The invariant every configuration the application writes keeps: a
      positive display limit, positive string lengths, and non-inverted
      string and integer ranges. */
  predicate Valid(c: Config) {
    && c.cliDisplayLimit >= 1
    && 1 <= c.paramStringLengthMin <= c.paramStringLengthMax
    && c.paramIntRangeMin <= c.paramIntRangeMax
  }

  /** The defaults are a valid configuration, with the documented values:
      print everything, ten rows, most recently used first, and parameter
      bounds 5..10. */
  lemma DefaultIsValid()
    ensures Valid(Default())
    ensures Default().cliPrintStyle == All && Default().cliDisplayLimit == 10
    ensures Default().cliDisplayByMostRecentlyUsed
    ensures Default().paramIntRangeMin == 5 && Default().paramIntRangeMax == 10
  {
  }

  /** `PrintStyle::from_str`: the input is lower-cased first, so the words
      are recognised in any letter case; anything else is `InvalidValue`. */
  function PrintStyleFromStr(s: string): (r: Result<PrintStyle, ConfigError>)
    ensures r == Ok(All) <==> EqualsIgnoringCase(s, "all")
    ensures r == Ok(Command) <==> EqualsIgnoringCase(s, "command")
    ensures r.Err? <==> !EqualsIgnoringCase(s, "all") && !EqualsIgnoringCase(s, "command")
    ensures r.Err? ==> r.error == InvalidValue
  {
    ToLowerEqualsIff(s, "all");
    ToLowerEqualsIff(s, "command");
    var lower := ToLower(s);
    if lower == "all" then Ok(All)
    else if lower == "command" then Ok(Command)
    else Err(InvalidValue)
  }

  /** The fields a configuration file actually sets; serde fills the rest
      from the defaults (`#[serde(default)]`). */
  datatype StoredConfig = StoredConfig(
    cliPrintStyle: Option<PrintStyle>,
    cliDisplayLimit: Option<u32>,
    cliDisplayByMostRecentlyUsed: Option<bool>,
    paramStringLengthMin: Option<u32>,
    paramStringLengthMax: Option<u32>,
    paramIntRangeMin: Option<i32>,
    paramIntRangeMax: Option<i32>,
    applicationTheme: Option<ApplicationTheme>)

  /** What "{}" decodes to: a file that sets nothing. */
  const NothingStored := StoredConfig(None, None, None, None, None, None, None, None)

  /** Fills every field the file leaves out from `Config::default()`. */
  function FromStored(st: StoredConfig): (c: Config)
    ensures st.cliDisplayLimit.Some? ==> c.cliDisplayLimit == st.cliDisplayLimit.value
    ensures st.cliDisplayLimit.None? ==> c.cliDisplayLimit == Default().cliDisplayLimit
    ensures st.paramIntRangeMin.Some? ==> c.paramIntRangeMin == st.paramIntRangeMin.value
    ensures st.paramIntRangeMin.None? ==> c.paramIntRangeMin == Default().paramIntRangeMin
  {
    var d := Default();
    Config(
      st.cliPrintStyle.GetOr(d.cliPrintStyle),
      st.cliDisplayLimit.GetOr(d.cliDisplayLimit),
      st.cliDisplayByMostRecentlyUsed.GetOr(d.cliDisplayByMostRecentlyUsed),
      st.paramStringLengthMin.GetOr(d.paramStringLengthMin),
      st.paramStringLengthMax.GetOr(d.paramStringLengthMax),
      st.paramIntRangeMin.GetOr(d.paramIntRangeMin),
      st.paramIntRangeMax.GetOr(d.paramIntRangeMax),
      st.applicationTheme.GetOr(d.applicationTheme))
  }

  /** `Config::read` without the file system: `content` is the file text
      (None when it cannot be read, which is read as "{}") and `decode` is
      the JSON decoder (None on a parse error, which falls back to the
      defaults). */
  function Read(content: Option<string>, decode: string -> Option<StoredConfig>): (c: Config)
    ensures decode(content.GetOr("{}")).None? ==> c == Default()
    ensures content.None? && decode("{}") == Some(NothingStored) ==> c == Default()
    ensures decode(content.GetOr("{}")).Some? ==> c == FromStored(decode(content.GetOr("{}")).value)
  {
    var text := content.GetOr("{}");
    match decode(text)
    case None => Default()
    case Some(st) => FromStored(st)
  }

  /** What `Config::write` serialises: every field set. */
  function Stored(c: Config): (st: StoredConfig)
    ensures st.cliPrintStyle == Some(c.cliPrintStyle) && st.cliDisplayLimit == Some(c.cliDisplayLimit)
    ensures st.cliDisplayByMostRecentlyUsed == Some(c.cliDisplayByMostRecentlyUsed)
    ensures st.paramStringLengthMin == Some(c.paramStringLengthMin) && st.paramStringLengthMax == Some(c.paramStringLengthMax)
    ensures st.paramIntRangeMin == Some(c.paramIntRangeMin) && st.paramIntRangeMax == Some(c.paramIntRangeMax)
    ensures st.applicationTheme == Some(c.applicationTheme)
  {
    StoredConfig(Some(c.cliPrintStyle), Some(c.cliDisplayLimit), Some(c.cliDisplayByMostRecentlyUsed),
                 Some(c.paramStringLengthMin), Some(c.paramStringLengthMax),
                 Some(c.paramIntRangeMin), Some(c.paramIntRangeMax), Some(c.applicationTheme))
  }

  /** A written configuration reads back unchanged, provided the decoder
      inverts the encoder on it; a file that sets nothing reads as the
      defaults. */
  lemma ReadAfterWrite(c: Config, text: string, decode: string -> Option<StoredConfig>)
    requires decode(text) == Some(Stored(c))
    ensures Read(Some(text), decode) == c
    ensures FromStored(NothingStored) == Default()
  {
  }
}

=== FILE: config_command.dfy ===
/** `handle_config_command` (cli/src/handlers/config.rs) as a transition
    from the current configuration to the next one, or to the validation
    error the CLI reports. Writing the result to disk is not modelled. */
module ConfigCommand {
  import opened Wrappers
  import opened Ints
  import C = Config

  /** The CLI's own print-style argument; `CommandsOnly` is the variant the
      configuration calls `Command`. */
  datatype CliPrintStyle = All | CommandsOnly

  datatype ConfigArgs =
    | Theme(theme: C.ApplicationTheme)
    | PrintStyle(style: CliPrintStyle)
    | DisplayLimit(value: u32)
    | ParamStringLength(minLength: Option<u32>, maxLength: Option<u32>)
    | ParamIntRange(minValue: Option<i32>, maxValue: Option<i32>)

  /** Why a value was refused (the CLI prints a message per case). */
  datatype Reason = NoValuesGiven | BelowOne | MinAboveMax(min: int, max: int)

  datatype ConfigError = InvalidValue(reason: Reason)

  function StyleOf(s: CliPrintStyle): C.PrintStyle {
    match s
    case All => C.All
    case CommandsOnly => C.Command
  }

  /** The `#[validate(range(min = 1))]` check on an optional argument: an
      absent value passes, a present one must be at least 1. */
  predicate AtLeastOneIfGiven(v: Option<u32>) {
    v.None? || v.value >= 1
  }

  /** The integer range a `param-int-range` command asks for, AS WRITTEN:
      an omitted maximum falls back to the current MINIMUM. */
  function ResolveIntRange(c: C.Config, min: Option<i32>, max: Option<i32>): (r: (i32, i32))
    ensures min.Some? ==> r.0 == min.value
    ensures min.None? ==> r.0 == c.paramIntRangeMin
    ensures max.Some? ==> r.1 == max.value
    ensures max.None? ==> r.1 == c.paramIntRangeMin
  {
    (min.GetOr(c.paramIntRangeMin), max.GetOr(c.paramIntRangeMin))
  }

  /** The integer range the command evidently means: a side that is left
      out keeps its current value, as for string lengths. */
  function ResolveIntRangeIntended(c: C.Config, min: Option<i32>, max: Option<i32>): (r: (i32, i32))
    ensures min.None? ==> r.0 == c.paramIntRangeMin
    ensures max.None? ==> r.1 == c.paramIntRangeMax
    ensures min.Some? ==> r.0 == min.value
    ensures max.Some? ==> r.1 == max.value
  {
    (min.GetOr(c.paramIntRangeMin), max.GetOr(c.paramIntRangeMax))
  }

  /** The `param-int-range` branch AS WRITTEN, with the range resolved by
      `ResolveIntRange`. */
  function HandleIntRangeAsWritten(c: C.Config, min: Option<i32>, max: Option<i32>): (r: Result<C.Config, ConfigError>)
    ensures min.None? && max.None? ==> r == Err(InvalidValue(NoValuesGiven))
    ensures r.Ok? <==> (min.Some? || max.Some?) && ResolveIntRange(c, min, max).0 <= ResolveIntRange(c, min, max).1
    ensures r.Ok? ==> r.value == c.(paramIntRangeMin := ResolveIntRange(c, min, max).0,
                                    paramIntRangeMax := ResolveIntRange(c, min, max).1)
  {
    if min.None? && max.None? then Err(InvalidValue(NoValuesGiven))
    else
      var (lo, hi) := ResolveIntRange(c, min, max);
      if lo > hi then Err(InvalidValue(MinAboveMax(lo, hi)))
      else Ok(c.(paramIntRangeMin := lo, paramIntRangeMax := hi))
  }

  /** One configuration command applied to the current configuration. */
  function HandleConfigCommand(c: C.Config, args: ConfigArgs): (r: Result<C.Config, ConfigError>)
    // Theme and print style are stored as given.
    ensures args.Theme? ==> r == Ok(c.(applicationTheme := args.theme))
    ensures args.PrintStyle? ==> r == Ok(c.(cliPrintStyle := StyleOf(args.style)))
    // A display limit of 0 is refused; any other value is stored.
    ensures args.DisplayLimit? ==> (r.Ok? <==> args.value >= 1)
    ensures args.DisplayLimit? && r.Ok? ==> r.value == c.(cliDisplayLimit := args.value)
    // String lengths: at least one side, each given side at least 1, an
    // omitted side taken from the current configuration, min <= max.
    ensures args.ParamStringLength? ==>
      (r.Ok? <==>
        && (args.minLength.Some? || args.maxLength.Some?)
        && AtLeastOneIfGiven(args.minLength) && AtLeastOneIfGiven(args.maxLength)
        && args.minLength.GetOr(c.paramStringLengthMin) <= args.maxLength.GetOr(c.paramStringLengthMax))
    ensures args.ParamStringLength? && r.Ok? ==>
      r.value == c.(paramStringLengthMin := args.minLength.GetOr(c.paramStringLengthMin),
                    paramStringLengthMax := args.maxLength.GetOr(c.paramStringLengthMax))
    ensures args.ParamStringLength? && args.minLength.None? && args.maxLength.None? ==>
      r == Err(InvalidValue(NoValuesGiven))
    // Integer range: at least one side, negative values allowed, an
    // omitted side kept (see `HandleIntRangeAsWritten` for the code as
    // written), min <= max after resolution.
    ensures args.ParamIntRange? ==>
      (r.Ok? <==>
        && (args.minValue.Some? || args.maxValue.Some?)
        && args.minValue.GetOr(c.paramIntRangeMin) <= args.maxValue.GetOr(c.paramIntRangeMax))
    ensures args.ParamIntRange? && r.Ok? ==>
      r.value == c.(paramIntRangeMin := args.minValue.GetOr(c.paramIntRangeMin),
                    paramIntRangeMax := args.maxValue.GetOr(c.paramIntRangeMax))
    ensures args.ParamIntRange? && args.minValue.None? && args.maxValue.None? ==>
      r == Err(InvalidValue(NoValuesGiven))
    // Every accepted command keeps the configuration valid.
    ensures C.Valid(c) && r.Ok? ==> C.Valid(r.value)
  {
    match args
    case Theme(t) => Ok(c.(applicationTheme := t))
    case PrintStyle(s) => Ok(c.(cliPrintStyle := StyleOf(s)))
    case DisplayLimit(v) =>
      if v < 1 then Err(InvalidValue(BelowOne))
      else Ok(c.(cliDisplayLimit := v))
    case ParamStringLength(min, max) =>
      if min.None? && max.None? then Err(InvalidValue(NoValuesGiven))
      else if !AtLeastOneIfGiven(min) || !AtLeastOneIfGiven(max) then Err(InvalidValue(BelowOne))
      else
        var lo := min.GetOr(c.paramStringLengthMin);
        var hi := max.GetOr(c.paramStringLengthMax);
        if lo > hi then Err(InvalidValue(MinAboveMax(lo, hi)))
        else Ok(c.(paramStringLengthMin := lo, paramStringLengthMax := hi))
    case ParamIntRange(min, max) =>
      if min.None? && max.None? then Err(InvalidValue(NoValuesGiven))
      else
        var (lo, hi) := ResolveIntRangeIntended(c, min, max);
        if lo > hi then Err(InvalidValue(MinAboveMax(lo, hi)))
        else Ok(c.(paramIntRangeMin := lo, paramIntRangeMax := hi))
  }

  /** The as-written fallback in action. From the default range 5..10,
      `--min 3` alone yields 3..5 instead of 3..10, and `--min 7` alone is
      refused although 7 <= 10; the intended handler gives 3..10 and
      7..10. */
  lemma IntRangeMaxFallsBackToMin()
    ensures HandleIntRangeAsWritten(C.Default(), Some(3), None)
      == Ok(C.Default().(paramIntRangeMin := 3, paramIntRangeMax := 5))
    ensures HandleIntRangeAsWritten(C.Default(), Some(7), None).Err?
    ensures HandleConfigCommand(C.Default(), ParamIntRange(Some(3), None))
      == Ok(C.Default().(paramIntRangeMin := 3))
    ensures HandleConfigCommand(C.Default(), ParamIntRange(Some(7), None))
      == Ok(C.Default().(paramIntRangeMin := 7))
  {
  }

  /** With the intended fallback, giving one side of a valid range fails
      exactly when that side crosses the other, current, side; the other
      side is kept. */
  lemma IntendedRangeAcceptsOneSide(c: C.Config, m: i32)
    requires C.Valid(c)
    ensures HandleConfigCommand(c, ParamIntRange(Some(m), None)).Ok? <==> m <= c.paramIntRangeMax
    ensures HandleConfigCommand(c, ParamIntRange(None, Some(m))).Ok? <==> c.paramIntRangeMin <= m
    ensures m <= c.paramIntRangeMax ==>
      HandleConfigCommand(c, ParamIntRange(Some(m), None)).value.paramIntRangeMax == c.paramIntRangeMax
  {
  }

  /** As written, giving only the minimum is accepted exactly when it is at
      most the current minimum, and it then collapses the maximum onto the
      current minimum. */
  lemma AsWrittenMinOnlyShrinks(c: C.Config, m: i32)
    ensures HandleIntRangeAsWritten(c, Some(m), None).Ok? <==> m <= c.paramIntRangeMin
    ensures m <= c.paramIntRangeMin ==>
      HandleIntRangeAsWritten(c, Some(m), None).value.paramIntRangeMax == c.paramIntRangeMin
  {
  }
}

=== FILE: decimal.dfy ===
/** Base-10 numerals: the `-?\d+` literals the recognisers capture, the
    values Rust's `str::parse` gives them, and the `to_string` rendering of
    a generated integer. */
module Decimal {
  import opened Text

  function DigitValue(c: char): nat
    requires IsDigit(c)
  {
    c as int - '0' as int
  }

  function DigitChar(d: nat): (c: char)
    requires d < 10
    ensures IsDigit(c) && DigitValue(c) == d
  {
    ('0' as int + d) as char
  }

  /** The value of a string of ASCII digits; leading zeros are allowed,
      as Rust's `parse` allows them. */
  function DigitsValue(ds: string): nat
    requires AllDigits(ds)
    decreases |ds|
  {
    if |ds| == 0 then 0
    else DigitsValue(ds[..|ds| - 1]) * 10 + DigitValue(ds[|ds| - 1])
  }

  /** `-?\d+` when `signed`, `\d+` otherwise. */
  predicate IsNumeral(s: string, signed: bool) {
    if signed && |s| > 0 && s[0] == '-' then |s| > 1 && AllDigits(s[1..])
    else |s| > 0 && AllDigits(s)
  }

  /** The integer a numeral denotes. */
  function NumeralValue(s: string, signed: bool): int
    requires IsNumeral(s, signed)
  {
    if signed && s[0] == '-' then -(DigitsValue(s[1..]) as int) else DigitsValue(s)
  }

  /** The canonical decimal rendering of a natural number (no leading zero). */
  function RenderNat(n: nat): (r: string)
    ensures |r| > 0 && AllDigits(r)
    ensures |r| > 1 ==> r[0] != '0'
    decreases n
  {
    if n < 10 then [DigitChar(n)] else RenderNat(n / 10) + [DigitChar(n % 10)]
  }

  /** Rust's `i32::to_string`: a '-' for negative values, then the digits. */
  function RenderInt(i: int): string {
    if i < 0 then "-" + RenderNat(-i) else RenderNat(i)
  }

  lemma {:induction false} DigitsValueOfRender(n: nat)
    ensures DigitsValue(RenderNat(n)) == n
    decreases n
  {
    if n >= 10 {
      DigitsValueOfRender(n / 10);
      var r := RenderNat(n);
      assert r[..|r| - 1] == RenderNat(n / 10);
    }
  }

  /** The rendering of an integer is a numeral that parses back to it. */
  lemma RenderIntRoundTrip(i: int)
    ensures IsNumeral(RenderInt(i), true)
    ensures NumeralValue(RenderInt(i), true) == i
  {
    if i < 0 {
      assert RenderInt(i)[1..] == RenderNat(-i);
      DigitsValueOfRender(-i);
    } else {
      DigitsValueOfRender(i);
    }
  }
}

=== FILE: generator.dfy ===
/** `generate_random_value` of each parameter kind (int.rs, string.rs,
    boolean.rs and the Blank arm of parser.rs under logic/src/parameters).
    Every generator takes the random source and the number of draws made so
    far, and returns the text together with the new draw count. */
module Generator {
  import opened Wrappers
  import opened Ints
  import opened Decimal
  import opened Random
  import opened Parameters

  // ---------------------------------------------------------------- Int

  /** `IntParameter::generate_random_value`: one draw in `[min, max]`,
      rendered with `to_string`. */
  function GenerateInt(min: i32, max: i32, src: Source, k: nat): (r: (string, nat))
    requires min <= max
    ensures r.1 == k + 1
    ensures IsNumeral(r.0, true) && min <= NumeralValue(r.0, true) <= max
    ensures NumeralValue(r.0, true) == Draw(src, k, min, max)
  {
    var v := Draw(src, k, min, max);
    RenderIntRoundTrip(v);
    (RenderInt(v), k + 1)
  }

  // ------------------------------------------------------------- Boolean

  /** `BooleanParameter::generate_random_value`: one draw in `[0, 1]`; 0
      gives "false", 1 gives "true". */
  function GenerateBoolean(src: Source, k: nat): (r: (string, nat))
    ensures r.1 == k + 1
    ensures r.0 == "false" <==> Draw(src, k, 0, 1) == 0
    ensures r.0 == "true" <==> Draw(src, k, 0, 1) == 1
  {
    if Draw(src, k, 0, 1) == 0 then ("false", k + 1) else ("true", k + 1)
  }

  // -------------------------------------------------------------- String

  /** `n` consecutive code points from `first`. */
  function Run(first: char, n: nat): (r: string)
    requires first as int + n <= 0x80
    ensures |r| == n
    ensures forall i :: 0 <= i < n ==> r[i] as int == first as int + i
  {
    seq(n, i requires 0 <= i < n => (first as int + i) as char)
  }

  /** The 62 symbols a generated string is made of, in the order of the
      source's literal: `A`-`Z`, then `a`-`z`, then `0`-`9`. */
  const CHARSET: string := Run('A', 26) + Run('a', 26) + Run('0', 10)

  predicate IsAlphanumeric(c: char) {
    ('A' <= c <= 'Z') || ('a' <= c <= 'z') || ('0' <= c <= '9')
  }

  /** The symbol set is exactly the ASCII letters and digits. */
  lemma CharsetIsAlphanumeric()
    ensures |CHARSET| == 62
    ensures forall i :: 0 <= i < |CHARSET| ==> IsAlphanumeric(CHARSET[i])
    ensures forall c :: IsAlphanumeric(c) ==> c in CHARSET
  {
    var upper, lower, digits := Run('A', 26), Run('a', 26), Run('0', 10);
    assert CHARSET == upper + lower + digits;
    forall i | 0 <= i < |CHARSET| ensures IsAlphanumeric(CHARSET[i]) {
      if i < 26 {
        assert CHARSET[i] == upper[i];
      } else if i < 52 {
        assert CHARSET[i] == lower[i - 26];
      } else {
        assert CHARSET[i] == digits[i - 52];
      }
    }
    forall c | IsAlphanumeric(c) ensures c in CHARSET {
      if 'A' <= c <= 'Z' {
        assert CHARSET[c as int - 'A' as int] == upper[c as int - 'A' as int] == c;
      } else if 'a' <= c <= 'z' {
        assert CHARSET[26 + c as int - 'a' as int] == lower[c as int - 'a' as int] == c;
      } else {
        assert CHARSET[52 + c as int - '0' as int] == digits[c as int - '0' as int] == c;
      }
    }
  }

  /** `n` symbols drawn one after the other from draw `k` on, each with a
      draw in `[0, 61]`. */
  function RandomChars(src: Source, k: nat, n: nat): (r: string)
    ensures |r| == n
    ensures forall i :: 0 <= i < n ==> r[i] == CHARSET[Draw(src, k + i, 0, 61)]
    decreases n
  {
    if n == 0 then ""
    else [CHARSET[Draw(src, k, 0, 61)]] + RandomChars(src, k + 1, n - 1)
  }

  /** The first 26 symbols are the capitals in order. */
  lemma CharsetSymbols()
    ensures forall i :: 0 <= i < 26 ==> CHARSET[i] as int == 'A' as int + i
  {
    var upper := Run('A', 26);
    forall i | 0 <= i < 26 ensures CHARSET[i] as int == 'A' as int + i {
      assert CHARSET[i] == upper[i];
    }
  }

  /** Drawing `a + b` symbols is drawing `a`, then `b` more. */
  lemma RandomCharsAppend(src: Source, k: nat, a: nat, b: nat)
    ensures RandomChars(src, k, a + b) == RandomChars(src, k, a) + RandomChars(src, k + a, b)
  {
    var whole, front, back := RandomChars(src, k, a + b), RandomChars(src, k, a), RandomChars(src, k + a, b);
    forall i | a <= i < a + b ensures whole[i] == (front + back)[i] {
      assert back[i - a] == CHARSET[Draw(src, k + a + (i - a), 0, 61)];
    }
  }

  /** `StringParameter::generate_random_value` as evidently intended: the
      length is one draw in `[minLength, maxLength]`, then each symbol takes
      one draw, so the generator consumes `1 + length` draws. */
  function GenerateString(minLength: u32, maxLength: u32, src: Source, k: nat): (r: (string, nat))
    requires minLength <= maxLength
    ensures minLength <= |r.0| <= maxLength
    ensures |r.0| == Draw(src, k, minLength, maxLength)
    ensures r.1 == k + 1 + |r.0|
    ensures r.0 == RandomChars(src, k + 1, |r.0|)
    ensures forall i :: 0 <= i < |r.0| ==> r.0[i] in CHARSET && IsAlphanumeric(r.0[i])
  {
    CharsetIsAlphanumeric();
    var n := Draw(src, k, minLength, maxLength);
    (RandomChars(src, k + 1, n), k + 1 + n)
  }

  /** `StringParameter::generate_random_value` AS WRITTEN: both bounds are
      cast with `as i32` before the draw. A bound of 2^31 or more turns
      negative; `gen_range` panics on the empty range that results when only
      the maximum wraps, and a negative length cast to `usize` asks for about
      2^64 symbols. Both outcomes are `None`: no value is produced. */
  function GenerateStringAsWritten(minLength: u32, maxLength: u32, src: Source, k: nat): (r: Option<(string, nat)>)
    requires minLength <= maxLength
    ensures maxLength <= I32_MAX ==> r == Some(GenerateString(minLength, maxLength, src, k))
    ensures minLength <= I32_MAX < maxLength ==> r.None?
  {
    var low, high := U32AsI32(minLength), U32AsI32(maxLength);
    if low > high then None
    else
      var n := Draw(src, k, low, high);
      if n < 0 then None
      else Some((RandomChars(src, k + 1, n), k + 1 + n))
  }

  /** The cast in action: `@{string[0, 2147483648]}` parses, but no value
      can be generated for it, while the intended generator yields a string
      of the drawn length. */
  lemma StringCastLosesLongLengths(src: Source, k: nat)
    ensures GenerateStringAsWritten(0, 0x8000_0000, src, k).None?
    ensures 0 <= |GenerateString(0, 0x8000_0000, src, k).0| <= 0x8000_0000
  {
  }

  // ----------------------------------------------------------- dispatch

  /** The value a non-Blank parameter's generator may produce. */
  predicate Fits(p: Parameter, v: string) {
    match p
    case Int(min, max) => IsNumeral(v, true) && min <= NumeralValue(v, true) <= max
    case String(minLength, maxLength) =>
      minLength <= |v| <= maxLength && forall i :: 0 <= i < |v| ==> IsAlphanumeric(v[i])
    case Boolean => v == "true" || v == "false"
    case Blank => v == ""
  }

  /** The number of draws a generator consumes for a given value. */
  function DrawsFor(p: Parameter, v: string): nat {
    match p
    case Int(_, _) => 1
    case String(_, _) => 1 + |v|
    case Boolean => 1
    case Blank => 0
  }

  /** `SerializableParameter::generate_random_value`; a Blank generates the
      empty string without drawing. */
  function GenerateValue(p: Parameter, src: Source, k: nat): (r: (string, nat))
    requires WellFormed(p)
    ensures Fits(p, r.0)
    ensures r.1 == k + DrawsFor(p, r.0)
  {
    match p
    case Int(min, max) => GenerateInt(min, max, src, k)
    case String(minLength, maxLength) => GenerateString(minLength, maxLength, src, k)
    case Boolean => GenerateBoolean(src, k)
    case Blank => ("", k)
  }

  /** Any value that fits a parameter can be generated: the generator's
      range is exactly what `Fits` describes (shown here for Int and
      Boolean, whose values are one draw). */
  lemma EveryFittingIntIsGenerated(min: i32, max: i32, v: int, k: nat)
    requires min <= v <= max
    ensures GenerateInt(min, max, Constant(v - min), k).0 == RenderInt(v)
  {
    EveryValueIsDrawable(k, min, max, v);
  }

  lemma BothBooleansAreGenerated(k: nat)
    ensures GenerateBoolean(Constant(0), k).0 == "false"
    ensures GenerateBoolean(Constant(1), k).0 == "true"
  {
  }
}

=== FILE: go_command.dfy ===
/** The command listing of the Go CLI (cli/dal/command.go): the fixed-width
    table row of a command, the header and the per-option listing, and the
    search filter. Go strings are byte sequences and `len` counts bytes, so
    every string here is a `seq<byte>`; literals are written through
    `Ascii`. The fuzzy matcher (`fuzzy.MatchFold`) is a parameter. */
module GoCommand {
  import opened Wrappers
  import opened Ints
  import opened Text
  import opened Sequences

  type Bytes = seq<byte>

  /** The bytes of an ASCII literal. */
  function Ascii(s: string): (r: Bytes)
    requires forall i :: 0 <= i < |s| ==> s[i] as int < 0x80
    ensures |r| == |s|
    ensures forall i :: 0 <= i < |s| ==> r[i] == s[i] as int
  {
    seq(|s|, i requires 0 <= i < |s| => s[i] as int)
  }

  /** The stored command as the Go CLI sees it; `Id` and `LastUsed` play
      no part in the listing. */
  datatype Command = Command(alias: Bytes, command: Bytes, tags: Bytes, note: Bytes)

  const MAX_ALIAS: nat := 25
  const MAX_COMMAND: nat := 50
  const MAX_TAGS: nat := 10
  const MAX_NOTE: nat := 50

  /** One column of `Command.String`: a field longer than `max` bytes is
      cut to `max - 3` bytes and "..." is appended; any other field is
      padded with spaces to `max` bytes. */
  function Column(s: Bytes, max: nat): (r: Bytes)
    requires max >= 3
    ensures |r| == max
    // A field no longer than the column is kept verbatim, then padding.
    ensures |s| <= max ==> r[..|s|] == s && forall i :: |s| <= i < max ==> r[i] == ' ' as int
    // A longer field keeps its first max - 3 bytes, then the marker.
    ensures |s| > max ==> r[..max - 3] == s[..max - 3] && r[max - 3..] == Ascii("...")
  {
    if |s| > max then s[..max - 3] + Ascii("...")
    else s + Repeat(' ' as int, max - |s|)
  }

  const SEPARATOR: Bytes := Ascii(" | ")

  /** `Command.String`: the four columns joined by " | ". */
  function Row(c: Command): (r: Bytes)
    ensures |r| == MAX_ALIAS + MAX_COMMAND + MAX_TAGS + MAX_NOTE + 3 * |SEPARATOR|
  {
    Column(c.alias, MAX_ALIAS) + SEPARATOR + Column(c.command, MAX_COMMAND) + SEPARATOR
      + Column(c.tags, MAX_TAGS) + SEPARATOR + Column(c.note, MAX_NOTE)
  }

  /** Every row is 144 bytes, the columns sit at fixed offsets, and the
      separators between them at 25, 78 and 91. */
  lemma RowLayout(c: Command)
    ensures |Row(c)| == 144
    ensures Row(c)[0..25] == Column(c.alias, MAX_ALIAS)
    ensures Row(c)[25..28] == SEPARATOR && Row(c)[28..78] == Column(c.command, MAX_COMMAND)
    ensures Row(c)[78..81] == SEPARATOR && Row(c)[81..91] == Column(c.tags, MAX_TAGS)
    ensures Row(c)[91..94] == SEPARATOR && Row(c)[94..144] == Column(c.note, MAX_NOTE)
  {
    var a, b, t, n := Column(c.alias, MAX_ALIAS), Column(c.command, MAX_COMMAND), Column(c.tags, MAX_TAGS), Column(c.note, MAX_NOTE);
    var r := Row(c);
    assert r == a + SEPARATOR + b + SEPARATOR + t + SEPARATOR + n;
    assert r[0..25] == a;
    assert r[25..28] == SEPARATOR;
    assert r[28..78] == b;
    assert r[78..81] == SEPARATOR;
    assert r[81..91] == t;
    assert r[91..94] == SEPARATOR;
    assert r[94..144] == n;
  }

  /** A field that fits its column can be read back from the row: the
      row starts with the alias, and each field follows at its offset. */
  lemma FittingFieldsAreReadable(c: Command)
    requires |c.alias| <= MAX_ALIAS && |c.command| <= MAX_COMMAND
    requires |c.tags| <= MAX_TAGS && |c.note| <= MAX_NOTE
    ensures Row(c)[..|c.alias|] == c.alias
    ensures Row(c)[28..28 + |c.command|] == c.command
    ensures Row(c)[81..81 + |c.tags|] == c.tags
    ensures Row(c)[94..94 + |c.note|] == c.note
  {
    RowLayout(c);
    var r := Row(c);
    assert r[..|c.alias|] == r[0..25][..|c.alias|];
    assert r[28..28 + |c.command|] == r[28..78][..|c.command|];
    assert r[81..81 + |c.tags|] == r[81..91][..|c.tags|];
    assert r[94..94 + |c.note|] == r[94..144][..|c.note|];
  }

  /** `CmdPrintingOptions`. */
  datatype PrintOption = All | CommandOnly | AliasOnly

  /** The option a printing-option string names, if any. */
  function ParseOption(s: Bytes): (r: Option<PrintOption>)
    ensures r == Some(All) <==> s == Ascii("all")
    ensures r == Some(CommandOnly) <==> s == Ascii("command")
    ensures r == Some(AliasOnly) <==> s == Ascii("alias")
  {
    if s == Ascii("all") then Some(All)
    else if s == Ascii("command") then Some(CommandOnly)
    else if s == Ascii("alias") then Some(AliasOnly)
    else None
  }

  /** `GetPrintedValues`: the table header for an option; "" for any
      string that names no option. */
  function GetPrintedValues(option: Bytes): (r: Bytes)
    ensures ParseOption(option).None? ==> r == []
    ensures ParseOption(option) == Some(All) ==> r == Ascii("Alias | Command | Tags | Note")
    ensures ParseOption(option) == Some(CommandOnly) ==> r == Ascii("Command")
    ensures ParseOption(option) == Some(AliasOnly) ==> r == Ascii("Alias")
  {
    match ParseOption(option)
    case None => []
    case Some(All) => Ascii("Alias | Command | Tags | Note")
    case Some(CommandOnly) => Ascii("Command")
    case Some(AliasOnly) => Ascii("Alias")
  }

  /** What one command contributes to the listing under a known option. */
  function Entry(c: Command, o: PrintOption): Bytes {
    match o
    case All => Row(c)
    case CommandOnly => c.command
    case AliasOnly => c.alias
  }

  /** The header names the fields of an entry in order: under `all` it is
      the four column names joined by the separator the rows use (the
      columns `RowLayout` places), and under `command` or `alias` it names
      the one field each entry is. A check on the constant header text. */
  lemma HeaderNamesEntryFields(c: Command)
    ensures GetPrintedValues(Ascii("all")) ==
      Ascii("Alias") + SEPARATOR + Ascii("Command") + SEPARATOR + Ascii("Tags") + SEPARATOR + Ascii("Note")
    ensures GetPrintedValues(Ascii("command")) == Ascii("Command") && Entry(c, CommandOnly) == c.command
    ensures GetPrintedValues(Ascii("alias")) == Ascii("Alias") && Entry(c, AliasOnly) == c.alias
  {
    AllHeaderJoin(Ascii("Alias | Command | Tags | Note"), Ascii("Alias"), Ascii("Command"), Ascii("Tags"), Ascii("Note"));
  }

  lemma AllHeaderJoin(h: Bytes, a: Bytes, b: Bytes, t: Bytes, n: Bytes)
    requires h == Ascii("Alias | Command | Tags | Note")
    requires a == Ascii("Alias") && b == Ascii("Command") && t == Ascii("Tags") && n == Ascii("Note")
    ensures h == a + SEPARATOR + b + SEPARATOR + t + SEPARATOR + n
  {
    var x, y, z, w, sep := "Alias", "Command", "Tags", "Note", " | ";
    assert "Alias | Command | Tags | Note" == x + sep + y + sep + z + sep + w;
    AsciiConcat(x, sep);
    AsciiConcat(x + sep, y);
    AsciiConcat(x + sep + y, sep);
    AsciiConcat(x + sep + y + sep, z);
    AsciiConcat(x + sep + y + sep + z, sep);
    AsciiConcat(x + sep + y + sep + z + sep, w);
  }

  /** Encoding distributes over concatenation. */
  lemma AsciiConcat(x: string, y: string)
    requires forall i :: 0 <= i < |x| ==> x[i] as int < 0x80
    requires forall i :: 0 <= i < |y| ==> y[i] as int < 0x80
    ensures Ascii(x + y) == Ascii(x) + Ascii(y)
  {
  }

  /** `FormatCommands`: one entry per command, in order, under a known
      option; nothing at all under an unknown one. */
  function FormatCommands(cmds: seq<Command>, option: Bytes): (r: seq<Bytes>)
    ensures ParseOption(option).None? ==> r == []
    ensures ParseOption(option).Some? ==> |r| == |cmds|
    ensures ParseOption(option).Some? ==> forall i :: 0 <= i < |cmds| ==> r[i] == Entry(cmds[i], ParseOption(option).value)
    decreases |cmds|
  {
    if |cmds| == 0 then []
    else
      match ParseOption(option)
      case None => []
      case Some(o) => [Entry(cmds[0], o)] + FormatCommands(cmds[1..], option)
  }

  /** Under "all" every listed line is a 144-byte row. */
  lemma AllRowsHaveTableWidth(cmds: seq<Command>, i: nat)
    requires i < |cmds|
    ensures |FormatCommands(cmds, Ascii("all"))[i]| == 144
  {
    RowLayout(cmds[i]);
  }

  /** The search filters of the Go CLI: an empty field filters nothing. */
  datatype SearchFilters = SearchFilters(command: Bytes, alias: Bytes, tag: Bytes)

  type Matcher = (Bytes, Bytes) -> bool

  /** One field test: an empty filter accepts everything; otherwise the
      field must contain the filter or fuzzily match it. */
  predicate FieldPasses(filter: Bytes, field: Bytes, fuzzy: Matcher) {
    filter == [] || Contains(field, filter) || fuzzy(filter, field)
  }

  /** The condition of the loop body: all three field tests. */
  predicate Passes(c: Command, f: SearchFilters, fuzzy: Matcher) {
    && FieldPasses(f.command, c.command, fuzzy)
    && FieldPasses(f.alias, c.alias, fuzzy)
    && FieldPasses(f.tag, c.tags, fuzzy)
  }

  /** `FilterCommandsBySearchFilters`: the commands passing every given
      filter, in order. */
  function FilterCommands(cmds: seq<Command>, f: SearchFilters, fuzzy: Matcher): (r: seq<Command>)
    ensures forall j :: 0 <= j < |r| ==> r[j] in cmds && Passes(r[j], f, fuzzy)
    ensures forall i :: 0 <= i < |cmds| && Passes(cmds[i], f, fuzzy) ==> cmds[i] in r
  {
    Filter(cmds, c => Passes(c, f, fuzzy))
  }

  /** A filter field that occurs in the command's field always passes,
      whatever the fuzzy matcher says. */
  lemma SubstringPasses(filter: Bytes, field: Bytes, fuzzy: Matcher, at: nat)
    requires at + |filter| <= |field| && field[at..at + |filter|] == filter
    ensures FieldPasses(filter, field, fuzzy)
  {
    assert OccursAt(filter, field, at);
    ContainsIffOccurs(field, filter);
  }

  /** With all filters empty every command is kept, in order. */
  lemma EmptyFiltersKeepAll(cmds: seq<Command>, fuzzy: Matcher)
    ensures FilterCommands(cmds, SearchFilters([], [], []), fuzzy) == cmds
  {
    FilterKeepsAll(cmds, c => Passes(c, SearchFilters([], [], []), fuzzy));
  }
}

=== FILE: ints.dfy ===
/** Fixed-width integer types of the Rust and Go sources, as subset types of
    `int`, and the two wrapping operations the sources perform implicitly. */
module Ints {

  const U16_LIMIT: int := 0x1_0000
  const U32_LIMIT: int := 0x1_0000_0000
  const I32_MIN: int := -0x8000_0000
  const I32_MAX: int := 0x7FFF_FFFF

  type u16 = x: int | 0 <= x < U16_LIMIT
  type u32 = x: int | 0 <= x < U32_LIMIT
  type i32 = x: int | I32_MIN <= x <= I32_MAX
  type byte = x: int | 0 <= x < 0x100

  /** Rust `x as i32` for an `x: u32`: the same bits read as two's complement. */
  function U32AsI32(x: u32): (r: i32)
    ensures x <= I32_MAX ==> r == x
    ensures x > I32_MAX ==> r == x - U32_LIMIT && r < 0
  {
    if x <= I32_MAX then x else x - U32_LIMIT
  }

  /** A non-negative value reduced to 16 bits, as a release build stores an
      overflowing `u16` result. */
  function WrapU16(x: nat): (r: u16)
    ensures x < U16_LIMIT ==> r == x
    ensures x >= U16_LIMIT ==> r < x
  {
    x % U16_LIMIT
  }

  /** A `u16` product as a release build computes it: modulo 2^16. */
  function WrappingMulU16(a: u16, b: u16): (r: u16)
    ensures a * b < U16_LIMIT ==> r == a * b
    ensures a * b >= U16_LIMIT ==> r < a * b
  {
    WrapU16(a * b)
  }

  /** The larger of two integers (Rust's `std::cmp::max`). */
  function Max(a: int, b: int): (r: int)
    ensures r >= a && r >= b && (r == a || r == b)
  {
    if a >= b then a else b
  }
}

=== FILE: mock_vectors.dfy ===
/** The exact outputs of the populator tests (logic/src/parameters/
    populator.rs), which drive the generators with the cycling `MockRng`. */
module MockVectors {
  import opened Wrappers
  import opened Decimal
  import opened Parameters
  import opened Random
  import opened Generator
  import opened Scanner
  import opened Populator

  /** With raw values 0, 1, 2, 4: Int(5, 10) draws 5; String(5, 10) draws
      length 6 and the symbols C, E, A, B, C, E; the next Int draws 5
      again. */
  lemma FirstVectorValues(src: Source)
    requires src == MockSource([0, 1, 2, 4])
    ensures GenerateValue(Int(5, 10), src, 0) == ("5", 1)
    ensures GenerateValue(String(5, 10), src, 1) == ("CEABCE", 8)
    ensures GenerateValue(Int(5, 10), src, 8) == ("5", 9)
  {
    assert RenderInt(5) == "5";
    assert src(1) == 1 && src(2) == 2 && src(3) == 4 && src(4) == 0 && src(5) == 1 && src(6) == 2 && src(7) == 4;
    assert src(8) == 0;
    var cs := RandomChars(src, 2, 6);
    assert cs == "CEABCE";
  }

  /** `test_populate_parameters_1`. */
  lemma FirstVector(src: Source)
    requires src == MockSource([0, 1, 2, 4])
    ensures Populate(["red-", " @nothing ", " ", ""], [Int(5, 10), String(5, 10), Int(5, 10)], [], src)
         == Ok(("red-5 @nothing CEABCE 5", ["5", "CEABCE", "5"]))
  {
    var ps := [Int(5, 10), String(5, 10), Int(5, 10)];
    FirstVectorValues(src);
    assert ps[..3] == ps;
    var p2: seq<Parameter> := [Int(5, 10)];
    var p1: seq<Parameter> := [String(5, 10)] + p2;
    assert [Int(5, 10)] + p1 == ps;
    assert Fill([], [], 0, src, 9, 0) == Ok(([], 9));
    FillConsGenerated(Int(5, 10), [], [], 0, src, 8, 0);
    assert GenerateValue(Int(5, 10), src, 8).0 == "5";
    assert Fill([Int(5, 10)] + [], [], 0, src, 8, 0) == Ok((["5"] + [], 9));
    assert [Int(5, 10)] + [] == p2;
    assert ["5"] + [] == ["5"];
    assert Fill(p2, [], 0, src, 8, 0) == Ok((["5"], 9));
    FillConsGenerated(String(5, 10), p2, [], 0, src, 1, 0);
    assert GenerateValue(String(5, 10), src, 1) == ("CEABCE", 8);
    assert ["CEABCE"] + ["5"] == ["CEABCE", "5"];
    assert Fill(p1, [], 0, src, 1, 0) == Ok((["CEABCE", "5"], 9));
    FillConsGenerated(Int(5, 10), p1, [], 0, src, 0, 0);
    assert GenerateValue(Int(5, 10), src, 0) == ("5", 1);
    assert ["5"] + ["CEABCE", "5"] == ["5", "CEABCE", "5"];
    assert Fill(ps, [], 0, src, 0, 0) == Ok((["5", "CEABCE", "5"], 9));
    var segs := ["red-", " @nothing ", " ", ""];
    var vs := ["5", "CEABCE", "5"];
    PopulateFromFill(segs, ps, [], src, vs, 9);
    FirstVectorText(segs, vs);
  }

  lemma FirstVectorText(segs: seq<string>, vs: seq<string>)
    requires segs == ["red-", " @nothing ", " ", ""] && vs == ["5", "CEABCE", "5"]
    ensures Interleave(segs, vs) == "red-5 @nothing CEABCE 5"
  {
    InterleaveThree("red-", " @nothing ", " ", "", "5", "CEABCE", "5");
  }

  /** The raw values of the second mock, one per draw counter used. */
  lemma SecondSource(src: Source)
    requires src == MockSource([2, 3, 4, 7])
    ensures src(0) == 2 && src(1) == 3 && src(2) == 4
    ensures src(3) == 7 && src(4) == 2 && src(5) == 3 && src(6) == 4
    ensures src(7) == 7 && src(8) == 2 && src(9) == 3 && src(10) == 4
    ensures src(11) == 7 && src(12) == 2
  {
  }

  /** Four symbols per cycle of the second mock. */
  lemma SecondCycle(src: Source, k: nat)
    requires src(k) == 7 && src(k + 1) == 2 && src(k + 2) == 3 && src(k + 3) == 4
    ensures RandomChars(src, k, 4) == "HCDE"
  {
    CharsetSymbols();
  }

  /** With raw values 2, 3, 4, 7: the Ints draw 7 and 8; the String draws
      length 9 and the symbols H, C, D, E, H, C, D, E, H; the Boolean draws
      2, even, so "false". */
  lemma SecondVectorInts(src: Source)
    requires src == MockSource([2, 3, 4, 7])
    ensures GenerateValue(Int(5, 10), src, 0) == ("7", 1)
    ensures GenerateValue(Int(5, 10), src, 1) == ("8", 2)
    ensures GenerateValue(Boolean, src, 12) == ("false", 13)
  {
    SecondSource(src);
    assert RenderInt(7) == "7" && RenderInt(8) == "8";
  }

  lemma SecondVectorString(src: Source)
    requires src == MockSource([2, 3, 4, 7])
    ensures GenerateValue(String(5, 10), src, 2) == ("HCDEHCDEH", 12)
  {
    SecondSource(src);
    SecondCycle(src, 3);
    SecondCycle(src, 7);
    CharsetSymbols();
    assert RandomChars(src, 11, 1) == "H";
    RandomCharsAppend(src, 7, 4, 1);
    RandomCharsAppend(src, 3, 4, 5);
    assert "HCDE" + ("HCDE" + "H") == "HCDEHCDEH";
  }

  /** The last two parameters of the second vector, from draw 2 on. */
  lemma SecondFillTail(src: Source)
    requires src == MockSource([2, 3, 4, 7])
    ensures Fill([String(5, 10), Boolean], [], 0, src, 2, 0) == Ok((["HCDEHCDEH", "false"], 13))
  {
    SecondVectorInts(src);
    SecondVectorString(src);
    var p3: seq<Parameter> := [Boolean];
    assert Fill([], [], 0, src, 13, 0) == Ok(([], 13));
    FillConsGenerated(Boolean, [], [], 0, src, 12, 0);
    assert [Boolean] + [] == p3 && ["false"] + [] == ["false"];
    assert Fill(p3, [], 0, src, 12, 0) == Ok((["false"], 13));
    FillConsGenerated(String(5, 10), p3, [], 0, src, 2, 0);
    assert ["HCDEHCDEH"] + ["false"] == ["HCDEHCDEH", "false"];
    assert [String(5, 10)] + p3 == [String(5, 10), Boolean];
  }

  /** All four parameters of the second vector. */
  lemma SecondFill(src: Source)
    requires src == MockSource([2, 3, 4, 7])
    ensures Fill([Int(5, 10), Int(5, 10), String(5, 10), Boolean], [], 0, src, 0, 0)
         == Ok((["7", "8", "HCDEHCDEH", "false"], 13))
  {
    SecondVectorInts(src);
    SecondFillTail(src);
    var p2: seq<Parameter> := [String(5, 10), Boolean];
    var p1: seq<Parameter> := [Int(5, 10)] + p2;
    FillConsGenerated(Int(5, 10), p2, [], 0, src, 1, 0);
    assert ["8"] + ["HCDEHCDEH", "false"] == ["8", "HCDEHCDEH", "false"];
    assert Fill(p1, [], 0, src, 1, 0) == Ok((["8", "HCDEHCDEH", "false"], 13));
    FillConsGenerated(Int(5, 10), p1, [], 0, src, 0, 0);
    assert ["7"] + ["8", "HCDEHCDEH", "false"] == ["7", "8", "HCDEHCDEH", "false"];
    assert [Int(5, 10)] + p1 == [Int(5, 10), Int(5, 10), String(5, 10), Boolean];
  }

  /** `test_populate_parameters_2`. */
  lemma SecondVector(src: Source)
    requires src == MockSource([2, 3, 4, 7])
    ensures Populate(["ls ", " ", " ", " ", ""], [Int(5, 10), Int(5, 10), String(5, 10), Boolean], [], src)
         == Ok(("ls 7 8 HCDEHCDEH false", ["7", "8", "HCDEHCDEH", "false"]))
  {
    var segs := ["ls ", " ", " ", " ", ""];
    var ps := [Int(5, 10), Int(5, 10), String(5, 10), Boolean];
    var vs := ["7", "8", "HCDEHCDEH", "false"];
    SecondFill(src);
    assert CountBlanks(ps) == 0;
    PopulateFromFill(segs, ps, [], src, vs, 13);
    SecondVectorText(segs, vs);
  }

  lemma SecondVectorText(segs: seq<string>, vs: seq<string>)
    requires segs == ["ls ", " ", " ", " ", ""] && vs == ["7", "8", "HCDEHCDEH", "false"]
    ensures Interleave(segs, vs) == "ls 7 8 HCDEHCDEH false"
  {
    InterleaveFour("ls ", " ", " ", " ", "", "7", "8", "HCDEHCDEH", "false");
  }

  /** With raw values 2, 0: the Int draws 7 and the Boolean draws 0, so
      "false". */
  lemma BlankVectorValues(src: Source)
    requires src == MockSource([2, 0])
    ensures GenerateValue(Int(5, 10), src, 0) == ("7", 1)
    ensures GenerateValue(Boolean, src, 1) == ("false", 2)
  {
    assert src(0) == 2 && src(1) == 0;
    assert RenderInt(7) == "7";
  }

  /** The last three parameters of the blank vector, with two blank values
      already taken. */
  lemma BlankFillTail(src: Source, blanks: seq<string>)
    requires src == MockSource([2, 0]) && blanks == ["value1", "value2", "value3"]
    ensures Fill([Blank, Boolean, Blank], blanks, 1, src, 1, 3) == Ok((["value2", "false", "value3"], 2))
  {
    BlankVectorValues(src);
    var p4: seq<Parameter> := [Blank];
    var p3: seq<Parameter> := [Boolean] + p4;
    assert Fill([], blanks, 3, src, 2, 3) == Ok(([], 2));
    FillConsBlank([], blanks, 2, src, 2, 3);
    assert [Blank] + [] == p4 && ["value3"] + [] == ["value3"];
    assert Fill(p4, blanks, 2, src, 2, 3) == Ok((["value3"], 2));
    FillConsGenerated(Boolean, p4, blanks, 2, src, 1, 3);
    assert ["false"] + ["value3"] == ["false", "value3"];
    assert Fill(p3, blanks, 2, src, 1, 3) == Ok((["false", "value3"], 2));
    FillConsBlank(p3, blanks, 1, src, 1, 3);
    assert ["value2"] + ["false", "value3"] == ["value2", "false", "value3"];
    assert [Blank] + p3 == [Blank, Boolean, Blank];
  }

  lemma BlankFill(src: Source, blanks: seq<string>)
    requires src == MockSource([2, 0]) && blanks == ["value1", "value2", "value3"]
    ensures Fill([Blank, Int(5, 10), Blank, Boolean, Blank], blanks, 0, src, 0, 3)
         == Ok((["value1", "7", "value2", "false", "value3"], 2))
  {
    BlankVectorValues(src);
    BlankFillTail(src, blanks);
    var p2: seq<Parameter> := [Blank, Boolean, Blank];
    var p1: seq<Parameter> := [Int(5, 10)] + p2;
    FillConsGenerated(Int(5, 10), p2, blanks, 1, src, 0, 3);
    assert ["7"] + ["value2", "false", "value3"] == ["7", "value2", "false", "value3"];
    assert Fill(p1, blanks, 1, src, 0, 3) == Ok((["7", "value2", "false", "value3"], 2));
    FillConsBlank(p1, blanks, 0, src, 0, 3);
    assert ["value1"] + ["7", "value2", "false", "value3"] == ["value1", "7", "value2", "false", "value3"];
    assert [Blank] + p1 == [Blank, Int(5, 10), Blank, Boolean, Blank];
  }

  /** `test_populate_parameters_blank_1`: the Blanks take the
      given values in order, the others are generated. */
  lemma BlankVector(src: Source)
    requires src == MockSource([2, 0])
    ensures Populate(["ls ", " ", " ", " ", " ", ""], [Blank, Int(5, 10), Blank, Boolean, Blank],
                     ["value1", "value2", "value3"], src)
         == Ok(("ls value1 7 value2 false value3", ["value1", "7", "value2", "false", "value3"]))
  {
    var segs := ["ls ", " ", " ", " ", " ", ""];
    var ps := [Blank, Int(5, 10), Blank, Boolean, Blank];
    var blanks := ["value1", "value2", "value3"];
    var vs := ["value1", "7", "value2", "false", "value3"];
    BlankFill(src, blanks);
    BlankCount(ps);
    PopulateFromFill(segs, ps, blanks, src, vs, 2);
    BlankVectorText(segs, vs);
  }

  lemma BlankCount(ps: seq<Parameter>)
    requires ps == [Blank, Int(5, 10), Blank, Boolean, Blank]
    ensures CountBlanks(ps) == 3
  {
    CountBlanksCons(Blank, []);
    CountBlanksCons(Boolean, [Blank]);
    CountBlanksCons(Blank, [Boolean, Blank]);
    CountBlanksCons(Int(5, 10), [Blank, Boolean, Blank]);
    CountBlanksCons(Blank, [Int(5, 10), Blank, Boolean, Blank]);
    assert [Blank] + [] == [Blank];
    assert [Boolean] + [Blank] == [Boolean, Blank];
    assert [Blank] + [Boolean, Blank] == [Blank, Boolean, Blank];
    assert [Int(5, 10)] + [Blank, Boolean, Blank] == [Int(5, 10), Blank, Boolean, Blank];
    assert [Blank] + [Int(5, 10), Blank, Boolean, Blank] == ps;
  }

  lemma BlankVectorText(segs: seq<string>, vs: seq<string>)
    requires segs == ["ls ", " ", " ", " ", " ", ""] && vs == ["value1", "7", "value2", "false", "value3"]
    ensures Interleave(segs, vs) == "ls value1 7 value2 false value3"
  {
    InterleaveFive("ls ", " ", " ", " ", " ", "", "value1", "7", "value2", "false", "value3");
  }

  /** `test_populate_parameters_blank_missing`: one Blank and
      no values is an error that names one needed value. */
  lemma MissingBlankVector(src: Source)
    ensures Populate(["ls ", ""], [Blank], [], src) == Err(MissingBlankParamValues(1, 1))
  {
    assert [Blank][..1] == [Blank] && [Blank][..0] == [];
  }

  /** `test_populate_parameters_no_parameters` and `test_populate_parameters_empty`. */
  lemma NoParameterVectors(src: Source)
    ensures Populate(["some string"], [], [], src) == Ok(("some string", []))
    ensures Populate([], [], [], src) == Ok(("", []))
  {
  }
}

=== FILE: param_utils.dfy ===
/** The parameter listing of the CLI (cli/src/param/param_utils.rs): the
    guard against an empty list, the column widths of the parameter table
    and the cells of one row. The terminal and the prompt are not
    modelled: the terminal width and the user's pick are parameters. */
module ParamUtils {
  import opened Wrappers
  import opened Ints
  import T = Truncate

  /** A stored parameter as the listing reads it: its symbol, its regex
      and its optional note. */
  datatype StoredParameter = StoredParameter(symbol: string, regex: string, note: Option<string>)

  /** `ParamUtilError`; the prompt's own failure is not modelled. */
  datatype ParamUtilError = NoParams

  /** The column widths of `format_params_for_printing`. */
  datatype ParamColumns = ParamColumns(symbol: int, regex: int, note: int)

  /** `symbol_width` AS WRITTEN: `width * 10` is a `u16` product, which
      wraps for widths above 6553 in a release build. */
  function SymbolWidthAsWritten(width: u16): (r: int)
    ensures r >= 15
    ensures width * 10 < U16_LIMIT ==> r == Max(width * 10 / 100, 15)
  {
    Max(WrappingMulU16(width, 10) / 100, 15)
  }

  /** `regex_width` AS WRITTEN: `width * 60` is a `u16` product, which
      wraps for widths above 1092 in a release build. */
  function RegexWidthAsWritten(width: u16): (r: int)
    ensures r >= 30
    ensures width * 60 < U16_LIMIT ==> r == Max(width * 60 / 100, 30)
  {
    Max(WrappingMulU16(width, 60) / 100, 30)
  }

  /** The column widths as intended, for a terminal `width` columns wide. */
  function Columns(width: u16): (r: ParamColumns)
    // The symbol gets 10% of the width and at least 15 columns; the
    // regex 60% and at least 30.
    ensures r.symbol >= 15 && r.symbol >= width * 10 / 100 && (r.symbol == 15 || r.symbol == width * 10 / 100)
    ensures r.regex >= 30 && r.regex >= width * 60 / 100 && (r.regex == 30 || r.regex == width * 60 / 100)
    // The note gets what the other two and 12 columns of padding leave,
    // never a negative width.
    ensures r.note >= 0 && r.note >= width - r.symbol - r.regex - 12
    ensures r.note == 0 || r.symbol + r.regex + r.note + 12 == width
  {
    var symbol := Max(width * 10 / 100, 15);
    var regex := Max(width * 60 / 100, 30);
    ParamColumns(symbol, regex, Max(width - symbol - regex - 12, 0))
  }

  /** The column widths as written: the two products wrap. */
  function ColumnsAsWritten(width: u16): (r: ParamColumns)
    ensures r.symbol == SymbolWidthAsWritten(width) && r.regex == RegexWidthAsWritten(width)
    ensures r.note == Max(width - r.symbol - r.regex - 12, 0)
  {
    var symbol := SymbolWidthAsWritten(width);
    var regex := RegexWidthAsWritten(width);
    ParamColumns(symbol, regex, Max(width - symbol - regex - 12, 0))
  }

  /** A wider terminal never gets a narrower symbol or regex column. */
  lemma ColumnsMonotone(w1: u16, w2: u16)
    requires w1 <= w2
    ensures Columns(w1).symbol <= Columns(w2).symbol
    ensures Columns(w1).regex <= Columns(w2).regex
  {
    assert w1 * 10 <= w2 * 10;
    assert w1 * 60 <= w2 * 60;
  }

  /** The widths as written agree with the intended ones up to 1092
      columns. At 1093 the regex column drops from 655 to 30 columns, and
      at 6554 the symbol column drops from 655 to 15. */
  lemma ColumnsOverflow()
    ensures forall w: u16 :: w <= 1092 ==> ColumnsAsWritten(w) == Columns(w)
    ensures ColumnsAsWritten(1092).regex == 655 && ColumnsAsWritten(1093).regex == 30
    ensures Columns(1093).regex == 655
    ensures ColumnsAsWritten(6553).symbol == 655 && ColumnsAsWritten(6554).symbol == 15
    ensures Columns(6554).symbol == 655
  {
    assert WrappingMulU16(1093, 60) == 44;
    assert WrappingMulU16(6554, 10) == 4;
  }

  /** The cells of one row: symbol, regex and note, each cut to its
      column. */
  function RowCells(p: StoredParameter, cols: ParamColumns): (r: seq<string>)
    requires cols.symbol >= 0 && cols.regex >= 0 && cols.note >= 0
    ensures |r| == 3
    ensures r[0] == T.TruncateString(p.symbol, cols.symbol)
    ensures r[1] == T.TruncateString(p.regex, cols.regex)
    ensures r[2] == T.TruncateString(p.note.GetOr(""), cols.note)
  {
    [ T.TruncateString(p.symbol, cols.symbol),
      T.TruncateString(p.regex, cols.regex),
      T.TruncateString(p.note.GetOr(""), cols.note) ]
  }

  /** `list_parameters` up to the prompt: the rows of the table, one per
      parameter, in order; `NoParams` for an empty list. */
  function ListParameters(params: seq<StoredParameter>, width: u16): (r: Result<seq<seq<string>>, ParamUtilError>)
    ensures r.Err? <==> params == []
    ensures r.Ok? ==> |r.value| == |params|
    ensures r.Ok? ==> forall i :: 0 <= i < |params| ==> r.value[i] == RowCells(params[i], Columns(width))
  {
    if params == [] then Err(NoParams)
    else Ok(seq(|params|, i requires 0 <= i < |params| => RowCells(params[i], Columns(width))))
  }

  /** The parameter the prompt returns is the one whose row the user
      picked. */
  lemma SelectedIsListedRow(params: seq<StoredParameter>, width: u16, choice: nat)
    requires choice < |params|
    ensures SelectParameter(params, choice).Ok? && ListParameters(params, width).Ok?
    ensures ListParameters(params, width).value[choice] == RowCells(SelectParameter(params, choice).value, Columns(width))
  {
  }

  /** No cell of the table is wider than its column (or than 3 for a note
      column narrower than "..."), and a parameter whose fields fit is
      shown verbatim. */
  lemma ListedCellsFit(params: seq<StoredParameter>, width: u16, i: nat)
    requires i < |params|
    ensures var cols := Columns(width);
      var row := ListParameters(params, width).value[i];
      && |row[0]| <= cols.symbol && |row[1]| <= cols.regex && |row[2]| <= Max(cols.note, 3)
      && (|params[i].symbol| <= cols.symbol ==> row[0] == params[i].symbol)
      && (|params[i].regex| <= cols.regex ==> row[1] == params[i].regex)
  {
    var cols := Columns(width);
    T.TruncateBound(params[i].symbol, cols.symbol);
    T.TruncateBound(params[i].regex, cols.regex);
    T.TruncateBound(params[i].note.GetOr(""), cols.note);
  }

  /** `select_parameters` with the user's pick as the parameter `choice`
      (the prompt only returns indexes of the list). */
  function SelectParameter(params: seq<StoredParameter>, choice: nat): (r: Result<StoredParameter, ParamUtilError>)
    requires params == [] || choice < |params|
    ensures r.Err? <==> params == []
    ensures r.Ok? ==> r.value == params[choice]
  {
    if params == [] then Err(NoParams) else Ok(params[choice])
  }
}

=== FILE: param_viewer.dfy ===
/** The parameter list of the command view
    (ui/src/components/command-display/param-viewer.tsx) and its older
    twin (ui/src/components/param-viewer.tsx), which selects the same
    values: one row per parameter, a Blank row bound to its slot in the
    blank array, any other row showing its generated value. */
module ParamViewer {
  import opened Wrappers
  import opened Decimal
  import opened Parameters
  import opened CommandDisplay
  import opened Random
  import opened Generator

  /** What one row shows. A Blank row carries the slot it reads and writes
      (`blankIndex`), its label and the slot's content (`undefined` when
      the array is too short); any other row carries the parameter, the
      bounds it prints and the generated value. */
  datatype Row =
    | BlankRow(ordinal: nat, caption: string, content: Option<string>)
    | ValueRow(parameter: Parameter, bounds: Option<(int, int)>, shown: string)

  /** The "(Min: .., Max: ..)" part of a label: only String and Int print
      bounds. */
  function Bounds(p: Parameter): (r: Option<(int, int)>)
    ensures r.Some? <==> p.String? || p.Int?
    ensures p.Int? ==> r == Some((p.min as int, p.max as int))
    ensures p.String? ==> r == Some((p.minLength as int, p.maxLength as int))
  {
    match p
    case Int(min, max) => Some((min as int, max as int))
    case String(minLength, maxLength) => Some((minLength as int, maxLength as int))
    case _ => None
  }

  /** The bounds a label prints hold of every value that fits the
      parameter, and so of every generated value: an Int's value and a
      String's length lie between the printed Min and Max. */
  lemma FittingValueWithinBounds(p: Parameter, v: string)
    requires Fits(p, v) && Bounds(p).Some?
    ensures p.Int? ==> Bounds(p).value.0 <= NumeralValue(v, true) <= Bounds(p).value.1
    ensures p.String? ==> Bounds(p).value.0 <= |v| <= Bounds(p).value.1
  {
  }

  /** A generated value lies within the bounds its row prints. */
  lemma GeneratedValueWithinBounds(p: Parameter, src: Source, k: nat)
    requires WellFormed(p) && Bounds(p).Some?
    ensures p.Int? ==> Bounds(p).value.0 <= NumeralValue(GenerateValue(p, src, k).0, true) <= Bounds(p).value.1
    ensures p.String? ==> Bounds(p).value.0 <= |GenerateValue(p, src, k).0| <= Bounds(p).value.1
  {
    FittingValueWithinBounds(p, GenerateValue(p, src, k).0);
  }

  /** The label of the Blank with the given ordinal: `Blank @{n}`, with
      `n` counted from 1. */
  function BlankLabel(ordinal: nat): (r: string)
    ensures |r| >= 10 && r[..8] == "Blank @{" && r[|r| - 1] == '}'
    ensures IsNumeral(r[8..|r| - 1], false) && NumeralValue(r[8..|r| - 1], false) == ordinal + 1
  {
    var n := RenderNat(ordinal + 1);
    RenderIntRoundTrip(ordinal + 1);
    var r := "Blank @{" + n + "}";
    assert r[8..|r| - 1] == n;
    r
  }

  /** The row at position `index`. `blankIndex` is the number of Blank
      parameters in `parameters.slice(0, index)`. */
  function RowAt(params: seq<Parameter>, index: nat, generated: seq<string>, blanks: seq<string>): (r: Row)
    requires index < |params|
    ensures r.BlankRow? <==> params[index].Blank?
    ensures r.BlankRow? ==> r.ordinal == CountBlanks(params[..index]) && r.caption == BlankLabel(r.ordinal)
    ensures r.BlankRow? ==> r.content == Lookup(blanks, r.ordinal)
    ensures r.ValueRow? ==> r.parameter == params[index] && r.bounds == Bounds(params[index])
    ensures r.ValueRow? ==> r.shown == Lookup(generated, index).GetOr("")
  {
    if params[index].Blank? then
      var ordinal := CountBlanks(params[..index]);
      BlankRow(ordinal, BlankLabel(ordinal), Lookup(blanks, ordinal))
    else
      ValueRow(params[index], Bounds(params[index]), Lookup(generated, index).GetOr(""))
  }

  /** An edit typed into a row: `setBlankParam(blankIndex, input)`. Rows
      that are not Blank are read-only and change nothing. */
  function EditRow(params: seq<Parameter>, index: nat, generated: seq<string>, blanks: seq<string>, input: string)
    : (r: seq<string>)
    requires index < |params|
    ensures |r| == |blanks|
    // A Blank row writes its own slot; every other slot is kept.
    ensures params[index].Blank? && BlankOrdinal(params, index) < |blanks| ==> r[BlankOrdinal(params, index)] == input
    ensures forall j :: 0 <= j < |blanks| && !(params[index].Blank? && j == BlankOrdinal(params, index)) ==> r[j] == blanks[j]
  {
    match RowAt(params, index, generated, blanks)
    case BlankRow(ordinal, _, _) => SetBlankParam(blanks, ordinal, input)
    case ValueRow(_, _, _) => blanks
  }

  /** Writing through a Blank row shows the input in that row and in no
      other: every other row, Blank or not, is drawn exactly as before,
      because distinct Blanks have distinct slots. */
  lemma EditShowsInOwnRowOnly(params: seq<Parameter>, index: nat, generated: seq<string>, blanks: seq<string>,
                              input: string, other: nat)
    requires index < |params| && other < |params| && other != index
    requires params[index].Blank? && BlankOrdinal(params, index) < |blanks|
    ensures RowAt(params, index, generated, EditRow(params, index, generated, blanks, input)).content == Some(input)
    ensures RowAt(params, other, generated, EditRow(params, index, generated, blanks, input))
         == RowAt(params, other, generated, blanks)
  {
    if params[other].Blank? {
      if index < other {
        BlankOrdinalsDistinct(params, index, other);
      } else {
        BlankOrdinalsDistinct(params, other, index);
      }
    }
  }

  /** The rows show what the merge sends: a Blank row's content is the
      merged value at its position, and another row shows the merged
      generated value. */
  lemma RowsAgreeWithMerge(params: seq<Parameter>, generated: seq<string>, blanks: seq<string>, index: nat)
    requires |generated| == |params| && index < |params|
    ensures RowAt(params, index, generated, blanks).BlankRow? ==>
      Merge(true, params, blanks, generated).value[index] == RowAt(params, index, generated, blanks).content
    ensures RowAt(params, index, generated, blanks).ValueRow? ==>
      Merge(true, params, blanks, generated).value[index] == Some(RowAt(params, index, generated, blanks).shown)
  {
  }
}

=== FILE: parameters.dfy ===
/** The parameter kinds of a command template and the errors of the
    template engine (logic/src/parameters/mod.rs and the
    `SerializableParameter` enum of logic/src/parameters/parser.rs). */
module Parameters {
  import opened Ints

  /** One recognised placeholder. `Int` carries the inclusive value range,
      `String` the inclusive length range; `Boolean` and `Blank` carry
      nothing. */
  datatype Parameter =
    | Int(min: i32, max: i32)
    | String(minLength: u32, maxLength: u32)
    | Boolean
    | Blank

  /** A parameter whose range is not inverted: what every successful
      `from_str` produces and what generation relies on. */
  predicate WellFormed(p: Parameter) {
    && (p.Int? ==> p.min <= p.max)
    && (p.String? ==> p.minLength <= p.maxLength)
  }

  /** `ParameterError`. `InvalidRegex` is left out: every pattern of the
      engine is a constant that compiles. The bounds of `InvalidMinMax` and
      the counts of `MissingBlankParamValues` are the numbers the error
      message prints. */
  datatype ParameterError =
    | TypeParsing(typeName: string, text: string)
    | InvalidParameter
    | InvalidMinMax(low: int, high: int)
    | MissingBlankParamValues(provided: nat, needed: nat)

  /** The number of Blank parameters in `ps`. */
  function CountBlanks(ps: seq<Parameter>): (n: nat)
    ensures n <= |ps|
    ensures n == 0 <==> forall i :: 0 <= i < |ps| ==> !ps[i].Blank?
  {
    if |ps| == 0 then 0
    else CountBlanks(ps[..|ps| - 1]) + (if ps[|ps| - 1].Blank? then 1 else 0)
  }

  /** Counting is additive over concatenation. */
  lemma {:induction false} CountBlanksAppend(a: seq<Parameter>, b: seq<Parameter>)
    ensures CountBlanks(a + b) == CountBlanks(a) + CountBlanks(b)
    decreases |b|
  {
    if |b| > 0 {
      CountBlanksAppend(a, b[..|b| - 1]);
      assert (a + b)[..|a + b| - 1] == a + b[..|b| - 1];
    } else {
      assert a + b == a;
    }
  }

  /** Counting from the front: the first parameter, then the rest. */
  lemma CountBlanksCons(p: Parameter, rest: seq<Parameter>)
    ensures CountBlanks([p] + rest) == (if p.Blank? then 1 else 0) + CountBlanks(rest)
  {
    CountBlanksAppend([p], rest);
    assert [p][..0] == [];
  }

  /** The number of Blank parameters strictly before position `i`: the
      ordinal a Blank at `i` has among the Blanks. */
  function BlankOrdinal(ps: seq<Parameter>, i: nat): (k: nat)
    requires i <= |ps|
    ensures k <= i
  {
    CountBlanks(ps[..i])
  }

  /** Each Blank's ordinal is one more than the previous Blank's, and a
      non-Blank leaves the count where it was. */
  lemma BlankOrdinalStep(ps: seq<Parameter>, i: nat)
    requires i < |ps|
    ensures BlankOrdinal(ps, i + 1) == BlankOrdinal(ps, i) + (if ps[i].Blank? then 1 else 0)
  {
    assert ps[..i + 1][..i] == ps[..i];
  }

  /** Distinct Blanks have distinct ordinals, all below the Blank count. */
  lemma BlankOrdinalsDistinct(ps: seq<Parameter>, i: nat, j: nat)
    requires i < j < |ps| && ps[i].Blank?
    ensures BlankOrdinal(ps, i) < BlankOrdinal(ps, j)
    ensures BlankOrdinal(ps, i) < CountBlanks(ps)
  {
    BlankOrdinalStep(ps, i);
    BlankOrdinalMonotone(ps, i + 1, j);
    BlankOrdinalMonotone(ps, j, |ps|);
    assert ps[..|ps|] == ps;
  }

  lemma {:induction false} BlankOrdinalMonotone(ps: seq<Parameter>, i: nat, j: nat)
    requires i <= j <= |ps|
    ensures BlankOrdinal(ps, i) <= BlankOrdinal(ps, j)
    decreases j - i
  {
    if i < j {
      BlankOrdinalStep(ps, i);
      BlankOrdinalMonotone(ps, i + 1, j);
    }
  }

  /** Ordinals seen from the second parameter on: dropping the first
      parameter lowers every later ordinal by its Blank count. */
  lemma BlankOrdinalTail(ps: seq<Parameter>, i: nat)
    requires 0 < i <= |ps|
    ensures BlankOrdinal(ps, i) == (if ps[0].Blank? then 1 else 0) + BlankOrdinal(ps[1..], i - 1)
  {
    assert ps[..i] == [ps[0]] + ps[1..][..i - 1];
    CountBlanksCons(ps[0], ps[1..][..i - 1]);
  }

  /** Ordinals within a prefix are the ordinals in the whole list. */
  lemma BlankOrdinalPrefix(ps: seq<Parameter>, n: nat, i: nat)
    requires i <= n <= |ps|
    ensures BlankOrdinal(ps[..n], i) == BlankOrdinal(ps, i)
  {
    assert ps[..n][..i] == ps[..i];
  }
}

=== FILE: parser.dfy ===
/** `parse_parameters` and `parse_parameter` (logic/src/parameters/parser.rs):
    the command is cut by the scanner, and each matched span is classified
    by trying the recognisers in a fixed order. */
module Parser {
  import opened Wrappers
  import opened Text
  import opened Parameters
  import opened Scanner
  import opened Recognisers
  import C = Config

  /** `parse_parameter`: Blank, then String, then Int, then Boolean; the
      first recogniser that accepts decides. The recognisers' own errors are
      discarded, so every refusal is `InvalidParameter`. UUID is not tried. */
  function ParseParameter(span: string, cfg: C.Config): (r: Result<Parameter, ParameterError>)
    ensures ContainsBlank(span) ==> r == Ok(Blank)
    ensures !ContainsBlank(span) && StringFromStr(span, cfg).Ok? ==> r == StringFromStr(span, cfg)
    ensures !ContainsBlank(span) && StringFromStr(span, cfg).Err? && IntFromStr(span, cfg).Ok? ==>
      r == IntFromStr(span, cfg)
    ensures !ContainsBlank(span) && StringFromStr(span, cfg).Err? && IntFromStr(span, cfg).Err? ==>
      (r.Ok? <==> span == BOOLEAN_TEXT) && (r.Ok? ==> r.value == Boolean)
    ensures r.Err? ==> r.error == InvalidParameter
    ensures r.Ok? ==> WellFormed(r.value)
  {
    if BlankFromStr(span).Ok? then Ok(Blank)
    else if StringFromStr(span, cfg).Ok? then StringFromStr(span, cfg)
    else if IntFromStr(span, cfg).Ok? then IntFromStr(span, cfg)
    else if BooleanFromStr(span).Ok? then Ok(Boolean)
    else Err(InvalidParameter)
  }

  /** Every span classified, left to right; the first refusal ends the
      parse (the `?` inside the Rust loop). */
  function ParseAll(spans: seq<string>, cfg: C.Config): (r: Result<seq<Parameter>, ParameterError>)
    ensures r.Ok? <==> forall i :: 0 <= i < |spans| ==> ParseParameter(spans[i], cfg).Ok?
    ensures r.Ok? ==> |r.value| == |spans|
    ensures r.Ok? ==> forall i :: 0 <= i < |spans| ==> ParseParameter(spans[i], cfg) == Ok(r.value[i])
    ensures r.Ok? ==> forall i :: 0 <= i < |spans| ==> WellFormed(r.value[i])
    ensures r.Err? ==> r.error == InvalidParameter
    decreases |spans|
  {
    if |spans| == 0 then Ok([])
    else
      match ParseParameter(spans[0], cfg)
      case Err(e) => Err(e)
      case Ok(p) =>
        var rest := ParseAll(spans[1..], cfg);
        assert forall i :: 1 <= i < |spans| ==> spans[i] == spans[1..][i - 1];
        if rest.Err? then rest else Ok([p] + rest.value)
  }

  /** `parse_parameters`: the literal segments and the classified
      placeholders of a command. */
  function ParseParameters(command: string, cfg: C.Config): (r: Result<(seq<string>, seq<Parameter>), ParameterError>)
    ensures r.Ok? ==> |r.value.0| == |r.value.1| + 1
    ensures r.Ok? <==> ParseAll(Scan(command).1, cfg).Ok?
    ensures r.Ok? ==> r.value == (Scan(command).0, ParseAll(Scan(command).1, cfg).value)
    ensures r.Err? ==> r.error == InvalidParameter
  {
    var cut := Scan(command);
    match ParseAll(cut.1, cfg)
    case Err(e) => Err(e)
    case Ok(ps) => Ok((cut.0, ps))
  }

  /** The declarative reading of a parse: some cut of the command into
      segments and placeholder spans (the only one, by
      `ScanCharacterisation`) whose spans classify to the parameters. */
  ghost predicate ParsesAs(command: string, cfg: C.Config, segs: seq<string>, ps: seq<Parameter>) {
    exists spans :: IsScanOf(command, segs, spans) && SpansClassifyAs(spans, cfg, ps)
  }

  ghost predicate SpansClassifyAs(spans: seq<string>, cfg: C.Config, ps: seq<Parameter>) {
    |spans| == |ps| && forall i :: 0 <= i < |spans| ==> ParseParameter(spans[i], cfg) == Ok(ps[i])
  }

  /** A successful parse loses no text: putting the matched spans back
      between the segments rebuilds the command. */
  lemma ParseRoundTrip(command: string, cfg: C.Config)
    requires ParseParameters(command, cfg).Ok?
    ensures Interleave(ParseParameters(command, cfg).value.0, Scan(command).1) == command
    ensures ParsesAs(command, cfg, ParseParameters(command, cfg).value.0, ParseParameters(command, cfg).value.1)
  {
    ScanIsScanOf(command);
    var spans := Scan(command).1;
    assert SpansClassifyAs(spans, cfg, ParseParameters(command, cfg).value.1);
  }

  /** The parse is exactly the declarative reading. */
  lemma ParseCharacterisation(command: string, cfg: C.Config, segs: seq<string>, ps: seq<Parameter>)
    ensures ParseParameters(command, cfg) == Ok((segs, ps)) <==> ParsesAs(command, cfg, segs, ps)
  {
    if ParseParameters(command, cfg) == Ok((segs, ps)) {
      ParseRoundTrip(command, cfg);
    }
    if ParsesAs(command, cfg, segs, ps) {
      ParsesAsIsParse(command, cfg, segs, ps);
    }
  }

  lemma ParsesAsIsParse(command: string, cfg: C.Config, segs: seq<string>, ps: seq<Parameter>)
    requires ParsesAs(command, cfg, segs, ps)
    ensures ParseParameters(command, cfg) == Ok((segs, ps))
  {
    var spans :| IsScanOf(command, segs, spans) && SpansClassifyAs(spans, cfg, ps);
    ScanOfIsUnique(command, segs, spans);
    var r := ParseAll(spans, cfg);
    assert r.Ok?;
    assert r.value == ps;
  }

  /** A parse is fixed by the scan and the classification of its spans. */
  lemma ParseFromScan(command: string, cfg: C.Config, segs: seq<string>, spans: seq<string>, ps: seq<Parameter>)
    requires Scan(command) == (segs, spans)
    requires SpansClassifyAs(spans, cfg, ps)
    ensures ParseParameters(command, cfg) == Ok((segs, ps))
  {
    var r := ParseAll(spans, cfg);
    assert r.Ok?;
    assert r.value == ps;
  }

  /** Text without a placeholder parses to itself and no parameters. */
  lemma ParseWithoutPlaceholder(command: string, cfg: C.Config)
    requires !HasPlaceholder(command)
    ensures ParseParameters(command, cfg) == Ok(([command], []))
  {
    ScanWithoutPlaceholder(command);
  }

  // ------------------------------------------------------------- examples

  /** A span whose word is neither a Blank nor a known keyword is refused:
      its third character starts no whitespace run, it differs from
      `string` at offset `i` and from `int` at offset `j`, and it is not
      `@{boolean}`. */
  lemma OtherWordRefused(s: string, cfg: C.Config, i: nat, j: nat)
    requires |s| >= 3 && !IsWhitespace(s[2]) && s[2] != '}'
    requires forall p :: 0 < p < |s| ==> s[p] != '@'
    requires i < |"string"| && 2 + i < |s| && s[2 + i] != "string"[i]
    requires j < |"int"| && 2 + j < |s| && s[2 + j] != "int"[j]
    requires s != BOOLEAN_TEXT
    ensures ParseParameter(s, cfg) == Err(InvalidParameter)
  {
    NoBlankAfterTag(s);
    NoBoundedAfterOtherTag(s, "string", false, i);
    NoBoundedAfterOtherTag(s, "int", true, j);
  }

  /** `@{uuid}` is refused, since the UUID recogniser is never tried, and
      so is `@{bool}`, which is not the Boolean keyword. */
  lemma UnknownTagExamples(cfg: C.Config)
    ensures ParseParameter("@{uuid}", cfg) == Err(InvalidParameter)
    ensures ParseParameter("@{bool}", cfg) == Err(InvalidParameter)
  {
    OtherWordRefused("@{uuid}", cfg, 0, 0);
    OtherWordRefused("@{bool}", cfg, 0, 0);
  }

  /** An inverted range is refused as an unknown span: the Int
      recogniser's `InvalidMinMax` is discarded. */
  lemma InvertedSpanRefused()
    ensures ParseParameter("@{int[1, 0]}", C.Default()) == Err(InvalidParameter)
  {
    NoBlankAfterTag("@{int[1, 0]}");
    NoBoundedAfterOtherTag("@{int[1, 0]}", "string", false, 0);
    IntInvertedRangeExample();
  }

  lemma BooleanSpan(cfg: C.Config)
    ensures ParseParameter("@{boolean}", cfg) == Ok(Boolean)
  {
    BooleanTextIsNoOtherKind(cfg);
  }

  lemma IntSpan()
    ensures ParseParameter("@{int}", C.Default()) == Ok(Int(5, 10))
  {
    NoBlankAfterTag("@{int}");
    NoBoundedAfterOtherTag("@{int}", "string", false, 0);
    IntDefaultsExample();
  }

  lemma StringSpan()
    ensures ParseParameter("@{string}", C.Default()) == Ok(String(5, 10))
  {
    NoBlankAfterTag("@{string}");
    StringDefaultsExample();
  }

  /** Text with `@` and braces but no `@{...}` span is one segment. */
  lemma NoParameterExample(cfg: C.Config)
    ensures ParseParameters("cmd @ @email @wadsf @test {} @", cfg) == Ok((["cmd @ @email @wadsf @test {} @"], []))
  {
    var s := "cmd @ @email @wadsf @test {} @";
    forall p: int, q: int ensures !(OpenAt(s, p) && p + 2 <= q && CloseAt(s, q)) {
      if 0 <= p && p + 1 < |s| && s[p] == '@' {
        assert s[p + 1] != '{';
      }
    }
    ParseWithoutPlaceholder(s, cfg);
  }

  /** `cmd @{boolean} @{int} @{string}`: four segments, the last one empty,
      and the three parameters in the order they appear. */
  lemma ThreeParameterExample(command: string)
    requires command == "cmd @{boolean} @{int} @{string}"
    ensures ParseParameters(command, C.Default())
         == Ok((["cmd ", " ", " ", ""], [Boolean, Int(5, 10), String(5, 10)]))
  {
    var cfg := C.Default();
    ThreeParameterScan(command);
    BooleanSpan(cfg);
    IntSpan();
    StringSpan();
    ClassifyThree(cfg, "@{boolean}", "@{int}", "@{string}", Boolean, Int(5, 10), String(5, 10));
    ParseFromScan(command, cfg, ["cmd ", " ", " ", ""],
      ["@{boolean}", "@{int}", "@{string}"], [Boolean, Int(5, 10), String(5, 10)]);
  }

  /** What the three-parameter test checks: a successful parse, three
      parameters and the four segments. Its `matches!` lines compute a
      boolean and drop it, so the kinds are never checked. */
  predicate ThreeParameterTestPasses(r: Result<(seq<string>, seq<Parameter>), ParameterError>)
  {
    r.Ok? && |r.value.1| == 3 && r.value.0 == ["cmd ", " ", " ", ""]
  }

  /** The test passes on the real parse, but it would pass just as well
      on a parse that got every kind wrong; `ThreeParameterExample` is
      the check it was meant to make. */
  lemma ThreeParameterTestIgnoresKinds(command: string, wrong: seq<Parameter>)
    requires command == "cmd @{boolean} @{int} @{string}"
    requires wrong == [Blank, Blank, Blank]
    ensures ThreeParameterTestPasses(ParseParameters(command, C.Default()))
    ensures ThreeParameterTestPasses(Ok((["cmd ", " ", " ", ""], wrong)))
    ensures ParseParameters(command, C.Default()) != Ok((["cmd ", " ", " ", ""], wrong))
  {
    ThreeParameterExample(command);
  }

  lemma ThreeParameterScan(command: string)
    requires command == "cmd @{boolean} @{int} @{string}"
    ensures Scan(command) == (["cmd ", " ", " ", ""], ["@{boolean}", "@{int}", "@{string}"])
  {
    NoAtNoOpen("cmd ");
    NoAtNoOpen(" ");
    TagsArePlaceholders();
    ThreeParameterPieces(command);
    ScanOfThree(command, "cmd ", " ", " ", "@{boolean}", "@{int}", "@{string}");
  }

  lemma ThreeParameterPieces(command: string)
    requires command == "cmd @{boolean} @{int} @{string}"
    ensures command == "cmd " + "@{boolean}" + " " + "@{int}" + " " + "@{string}"
  {
  }

  lemma TagsArePlaceholders()
    ensures IsPlaceholder("@{boolean}") && IsPlaceholder("@{int}") && IsPlaceholder("@{string}")
  {
  }

  /** Text without `@` has no `@{`. */
  lemma NoAtNoOpen(s: string)
    requires forall i :: 0 <= i < |s| ==> s[i] != '@'
    ensures !HasOpen(s)
  {
    forall p ensures !OpenAt(s, p) {
      if 0 <= p < |s| {
        assert s[p] != '@';
      }
    }
  }

  /** Scan of a command with three placeholders and an empty tail. */
  lemma ScanOfThree(s: string, a: string, b: string, c: string, x: string, y: string, z: string)
    requires s == a + x + b + y + c + z
    requires !HasOpen(a) && !HasOpen(b) && !HasOpen(c)
    requires IsPlaceholder(x) && IsPlaceholder(y) && IsPlaceholder(z)
    ensures Scan(s) == ([a, b, c, ""], [x, y, z])
  {
    var segs, spans := [a, b, c, ""], [x, y, z];
    assert Interleave(segs[3..], spans[3..]) == "";
    assert Interleave(segs[2..], spans[2..]) == c + z + "";
    assert Interleave(segs[1..], spans[1..]) == b + y + (c + z + "");
    assert Interleave(segs, spans) == s;
    assert !HasPlaceholder("");
    ScanOfIsUnique(s, segs, spans);
  }

  lemma ClassifyThree(cfg: C.Config, x: string, y: string, z: string, p: Parameter, q: Parameter, u: Parameter)
    requires ParseParameter(x, cfg) == Ok(p) && ParseParameter(y, cfg) == Ok(q) && ParseParameter(z, cfg) == Ok(u)
    ensures SpansClassifyAs([x, y, z], cfg, [p, q, u])
  {
    var spans, ps := [x, y, z], [p, q, u];
    forall i | 0 <= i < 3 ensures ParseParameter(spans[i], cfg) == Ok(ps[i]) {
      if i == 0 {
        assert spans[i] == x && ps[i] == p;
      } else if i == 1 {
        assert spans[i] == y && ps[i] == q;
      } else {
        assert spans[i] == z && ps[i] == u;
      }
    }
  }
}

=== FILE: populator.dfy ===
/** `populate_parameters` (logic/src/parameters/populator.rs): rebuild the
    command from its literal segments, filling each gap with the user's
    next blank value (for a Blank) or a freshly generated value. */
module Populator {
  import opened Wrappers
  import opened Parameters
  import opened Scanner
  import opened Random
  import opened Generator

  /** The draws the generators consume for the values `vs` of `ps`. */
  function DrawsAll(ps: seq<Parameter>, vs: seq<string>): nat
    requires |ps| == |vs|
    decreases |ps|
  {
    if |ps| == 0 then 0 else DrawsFor(ps[0], vs[0]) + DrawsAll(ps[1..], vs[1..])
  }

  /** The values of `ps`, left to right, with `used` blank values already
      taken and `k` draws already made; the second component is the draw
      count afterwards. A Blank without a value left ends the run with the
      error the source reports; `total` is the Blank count it prints. */
  function Fill(ps: seq<Parameter>, blanks: seq<string>, used: nat, src: Source, k: nat, total: nat)
    : (r: Result<(seq<string>, nat), ParameterError>)
    requires used <= |blanks|
    requires forall i :: 0 <= i < |ps| ==> WellFormed(ps[i])
    ensures r.Ok? <==> used + CountBlanks(ps) <= |blanks|
    ensures r.Err? ==> r.error == MissingBlankParamValues(|blanks| + 1, total)
    ensures r.Ok? ==> |r.value.0| == |ps|
    decreases |ps|
  {
    if |ps| == 0 then Ok(([], k))
    else
      CountBlanksCons(ps[0], ps[1..]);
      assert [ps[0]] + ps[1..] == ps;
      if ps[0].Blank? then
        if used < |blanks| then
          match Fill(ps[1..], blanks, used + 1, src, k, total)
          case Err(e) => Err(e)
          case Ok((vs, k')) => Ok(([blanks[used]] + vs, k'))
        else
          Err(MissingBlankParamValues(used + 1, total))
      else
        var (v, k1) := GenerateValue(ps[0], src, k);
        match Fill(ps[1..], blanks, used, src, k1, total)
        case Err(e) => Err(e)
        case Ok((vs, k')) => Ok(([v] + vs, k'))
  }

  /** The arguments `Fill` continues with after the first parameter. */
  function NextUsed(ps: seq<Parameter>, used: nat): nat
    requires |ps| > 0
  {
    if ps[0].Blank? then used + 1 else used
  }

  function NextDraw(ps: seq<Parameter>, src: Source, k: nat): nat
    requires |ps| > 0 && WellFormed(ps[0])
  {
    if ps[0].Blank? then k else GenerateValue(ps[0], src, k).1
  }

  /** One step of `Fill`: the first value, then the rest filled from the
      next blank and draw. */
  lemma FillStep(ps: seq<Parameter>, blanks: seq<string>, used: nat, src: Source, k: nat, total: nat)
    requires used <= |blanks| && |ps| > 0
    requires forall j :: 0 <= j < |ps| ==> WellFormed(ps[j])
    requires Fill(ps, blanks, used, src, k, total).Ok?
    ensures NextUsed(ps, used) <= |blanks|
    ensures Fill(ps[1..], blanks, NextUsed(ps, used), src, NextDraw(ps, src, k), total).Ok?
    ensures var r := Fill(ps, blanks, used, src, k, total).value;
            var rest := Fill(ps[1..], blanks, NextUsed(ps, used), src, NextDraw(ps, src, k), total).value;
            && r.0 == [if ps[0].Blank? then blanks[used] else GenerateValue(ps[0], src, k).0] + rest.0
            && r.1 == rest.1
  {
    CountBlanksCons(ps[0], ps[1..]);
    assert [ps[0]] + ps[1..] == ps;
  }

  /** `Fill` of a generated parameter in front of a list. */
  lemma FillConsGenerated(p: Parameter, rest: seq<Parameter>, blanks: seq<string>, used: nat, src: Source, k: nat, total: nat)
    requires used <= |blanks| && WellFormed(p) && !p.Blank?
    requires forall j :: 0 <= j < |rest| ==> WellFormed(rest[j])
    requires Fill(rest, blanks, used, src, GenerateValue(p, src, k).1, total).Ok?
    ensures forall j :: 0 <= j < |[p] + rest| ==> WellFormed(([p] + rest)[j])
    ensures var tail := Fill(rest, blanks, used, src, GenerateValue(p, src, k).1, total).value;
      Fill([p] + rest, blanks, used, src, k, total) == Ok(([GenerateValue(p, src, k).0] + tail.0, tail.1))
  {
    assert ([p] + rest)[1..] == rest;
  }

  /** `Fill` of a Blank in front of a list, with a value left for it. */
  lemma FillConsBlank(rest: seq<Parameter>, blanks: seq<string>, used: nat, src: Source, k: nat, total: nat)
    requires used < |blanks|
    requires forall j :: 0 <= j < |rest| ==> WellFormed(rest[j])
    requires Fill(rest, blanks, used + 1, src, k, total).Ok?
    ensures forall j :: 0 <= j < |[Blank] + rest| ==> WellFormed(([Blank] + rest)[j])
    ensures var tail := Fill(rest, blanks, used + 1, src, k, total).value;
      Fill([Blank] + rest, blanks, used, src, k, total) == Ok(([blanks[used]] + tail.0, tail.1))
  {
    assert ([Blank] + rest)[1..] == rest;
  }

  /** The values after the first are the fill of the rest. */
  lemma FillTail(ps: seq<Parameter>, blanks: seq<string>, used: nat, src: Source, k: nat, total: nat,
                 vs: seq<string>, kEnd: nat)
    requires used <= |blanks| && |ps| > 0
    requires forall j :: 0 <= j < |ps| ==> WellFormed(ps[j])
    requires Fill(ps, blanks, used, src, k, total) == Ok((vs, kEnd))
    ensures NextUsed(ps, used) <= |blanks| && |vs| == |ps|
    ensures Fill(ps[1..], blanks, NextUsed(ps, used), src, NextDraw(ps, src, k), total) == Ok((vs[1..], kEnd))
  {
    FillStep(ps, blanks, used, src, k, total);
  }

  /** The first value: the next blank value, or a generated one. */
  lemma FillHead(ps: seq<Parameter>, blanks: seq<string>, used: nat, src: Source, k: nat, total: nat,
                 vs: seq<string>, kEnd: nat)
    requires used <= |blanks| && |ps| > 0
    requires forall j :: 0 <= j < |ps| ==> WellFormed(ps[j])
    requires Fill(ps, blanks, used, src, k, total) == Ok((vs, kEnd))
    ensures |vs| == |ps|
    ensures ps[0].Blank? ==> used < |blanks| && vs[0] == blanks[used]
    ensures !ps[0].Blank? ==> vs[0] == GenerateValue(ps[0], src, k).0
  {
    FillStep(ps, blanks, used, src, k, total);
  }

  /** The k-th Blank, counted from the left, receives the k-th unused
      blank value. */
  lemma {:induction false} FillBlankValues(ps: seq<Parameter>, blanks: seq<string>, used: nat, src: Source, k: nat, total: nat,
                                           vs: seq<string>, kEnd: nat, i: nat)
    requires used <= |blanks|
    requires forall j :: 0 <= j < |ps| ==> WellFormed(ps[j])
    requires Fill(ps, blanks, used, src, k, total) == Ok((vs, kEnd))
    requires i < |ps| && ps[i].Blank?
    ensures used + BlankOrdinal(ps, i) < |blanks| && i < |vs|
    ensures vs[i] == blanks[used + BlankOrdinal(ps, i)]
    decreases |ps|
  {
    if i == 0 {
      FillFirstBlank(ps, blanks, used, src, k, total, vs, kEnd);
    } else {
      FillTail(ps, blanks, used, src, k, total, vs, kEnd);
      assert ps[1..][i - 1] == ps[i];
      FillBlankValues(ps[1..], blanks, NextUsed(ps, used), src, NextDraw(ps, src, k), total, vs[1..], kEnd, i - 1);
      BlankValueThroughTail(ps, blanks, used, NextUsed(ps, used), vs, i);
    }
  }

  /** A Blank in front takes the next unused value. */
  lemma FillFirstBlank(ps: seq<Parameter>, blanks: seq<string>, used: nat, src: Source, k: nat, total: nat,
                       vs: seq<string>, kEnd: nat)
    requires used <= |blanks| && |ps| > 0 && ps[0].Blank?
    requires forall j :: 0 <= j < |ps| ==> WellFormed(ps[j])
    requires Fill(ps, blanks, used, src, k, total) == Ok((vs, kEnd))
    ensures used + BlankOrdinal(ps, 0) < |blanks| && 0 < |vs|
    ensures vs[0] == blanks[used + BlankOrdinal(ps, 0)]
  {
    FillHead(ps, blanks, used, src, k, total, vs, kEnd);
    assert ps[..0] == [];
  }

  /** The step of `FillBlankValues` from the rest of the list to the
      whole: one more Blank in front shifts both the ordinal and the
      number of values used. */
  lemma BlankValueThroughTail(ps: seq<Parameter>, blanks: seq<string>, used: nat, next: nat, vs: seq<string>, i: nat)
    requires 0 < i < |ps| == |vs|
    requires next == used + (if ps[0].Blank? then 1 else 0)
    requires next + BlankOrdinal(ps[1..], i - 1) < |blanks|
    requires vs[1..][i - 1] == blanks[next + BlankOrdinal(ps[1..], i - 1)]
    ensures used + BlankOrdinal(ps, i) < |blanks|
    ensures vs[i] == blanks[used + BlankOrdinal(ps, i)]
  {
    BlankOrdinalTail(ps, i);
    assert vs[i] == vs[1..][i - 1];
  }

  /** Every other parameter receives a value its generator can produce. */
  lemma {:induction false} FillGeneratedValues(ps: seq<Parameter>, blanks: seq<string>, used: nat, src: Source, k: nat, total: nat,
                                               vs: seq<string>, kEnd: nat, i: nat)
    requires used <= |blanks|
    requires forall j :: 0 <= j < |ps| ==> WellFormed(ps[j])
    requires Fill(ps, blanks, used, src, k, total) == Ok((vs, kEnd))
    requires i < |ps| && !ps[i].Blank?
    ensures i < |vs| && Fits(ps[i], vs[i])
    decreases |ps|
  {
    if i == 0 {
      FillHead(ps, blanks, used, src, k, total, vs, kEnd);
    } else {
      FillTail(ps, blanks, used, src, k, total, vs, kEnd);
      assert ps[1..][i - 1] == ps[i];
      FillGeneratedValues(ps[1..], blanks, NextUsed(ps, used), src, NextDraw(ps, src, k), total, vs[1..], kEnd, i - 1);
      assert vs[i] == vs[1..][i - 1];
    }
  }

  /** Generation consumes exactly the draws the values account for: one
      per Int and Boolean, one plus the length per String, none for a
      Blank. */
  lemma {:induction false} FillDraws(ps: seq<Parameter>, blanks: seq<string>, used: nat, src: Source, k: nat, total: nat)
    requires used <= |blanks|
    requires forall j :: 0 <= j < |ps| ==> WellFormed(ps[j])
    requires Fill(ps, blanks, used, src, k, total).Ok?
    ensures Fill(ps, blanks, used, src, k, total).value.1
         == k + DrawsAll(ps, Fill(ps, blanks, used, src, k, total).value.0)
    decreases |ps|
  {
    if |ps| > 0 {
      var vs := Fill(ps, blanks, used, src, k, total).value.0;
      FillTail(ps, blanks, used, src, k, total, vs, Fill(ps, blanks, used, src, k, total).value.1);
      FillDraws(ps[1..], blanks, NextUsed(ps, used), src, NextDraw(ps, src, k), total);
    }
  }

  /** `populate_parameters`. The source indexes `parameters[i]` for every
      gap, so it needs at least one parameter per gap; extra parameters
      are never generated but are counted in the missing-blank error. */
  function Populate(segs: seq<string>, params: seq<Parameter>, blanks: seq<string>, src: Source)
    : (r: Result<(string, seq<string>), ParameterError>)
    requires |segs| == 0 || |segs| - 1 <= |params|
    requires forall i :: 0 <= i < |params| ==> WellFormed(params[i])
    ensures |segs| == 0 ==> r == Ok(("", []))
    ensures |segs| > 0 ==> (r.Ok? <==> CountBlanks(params[..|segs| - 1]) <= |blanks|)
    ensures r.Err? ==> r.error == MissingBlankParamValues(|blanks| + 1, CountBlanks(params))
    ensures r.Ok? && |segs| > 0 ==> |r.value.1| == |segs| - 1 && r.value.0 == Interleave(segs, r.value.1)
    ensures r.Ok? ==> forall i :: 0 <= i < |r.value.1| && params[i].Blank? ==>
      BlankOrdinal(params, i) < |blanks| && r.value.1[i] == blanks[BlankOrdinal(params, i)]
    ensures r.Ok? ==> forall i :: 0 <= i < |r.value.1| && !params[i].Blank? ==> Fits(params[i], r.value.1[i])
  {
    if |segs| == 0 then Ok(("", []))
    else
      var gaps := params[..|segs| - 1];
      match Fill(gaps, blanks, 0, src, 0, CountBlanks(params))
      case Err(e) => Err(e)
      case Ok((vs, kEnd)) =>
        forall i | 0 <= i < |vs|
          ensures params[i].Blank? ==> BlankOrdinal(params, i) < |blanks| && vs[i] == blanks[BlankOrdinal(params, i)]
          ensures !params[i].Blank? ==> Fits(params[i], vs[i])
        {
          BlankOrdinalPrefix(params, |segs| - 1, i);
          assert gaps[i] == params[i];
          if params[i].Blank? {
            FillBlankValues(gaps, blanks, 0, src, 0, CountBlanks(params), vs, kEnd, i);
          } else {
            FillGeneratedValues(gaps, blanks, 0, src, 0, CountBlanks(params), vs, kEnd, i);
          }
        }
        Ok((Interleave(segs, vs), vs))
  }

  /** Surplus blank values are ignored: more values than Blanks change
      nothing. */
  lemma {:induction false} FillIgnoresSurplus(ps: seq<Parameter>, blanks: seq<string>, extra: seq<string>, used: nat, src: Source, k: nat, total: nat)
    requires used <= |blanks|
    requires forall j :: 0 <= j < |ps| ==> WellFormed(ps[j])
    requires Fill(ps, blanks, used, src, k, total).Ok?
    ensures Fill(ps, blanks + extra, used, src, k, total) == Fill(ps, blanks, used, src, k, total)
    decreases |ps|
  {
    if |ps| > 0 {
      FillStep(ps, blanks, used, src, k, total);
      FillIgnoresSurplus(ps[1..], blanks, extra, NextUsed(ps, used), src, NextDraw(ps, src, k), total);
      FillStep(ps, blanks + extra, used, src, k, total);
      if ps[0].Blank? {
        assert (blanks + extra)[used] == blanks[used];
      }
    }
  }

  lemma PopulateIgnoresSurplus(segs: seq<string>, params: seq<Parameter>, blanks: seq<string>, extra: seq<string>, src: Source)
    requires |segs| == 0 || |segs| - 1 <= |params|
    requires forall i :: 0 <= i < |params| ==> WellFormed(params[i])
    requires Populate(segs, params, blanks, src).Ok?
    ensures Populate(segs, params, blanks + extra, src) == Populate(segs, params, blanks, src)
  {
    if |segs| > 0 {
      FillIgnoresSurplus(params[..|segs| - 1], blanks, extra, 0, src, 0, CountBlanks(params));
    }
  }

  /** A populate call with one parameter per gap is the fill of all
      parameters, interleaved with the segments. */
  lemma PopulateFromFill(segs: seq<string>, params: seq<Parameter>, blanks: seq<string>, src: Source, vs: seq<string>, kEnd: nat)
    requires |segs| == |params| + 1
    requires forall i :: 0 <= i < |params| ==> WellFormed(params[i])
    requires Fill(params, blanks, 0, src, 0, CountBlanks(params)) == Ok((vs, kEnd))
    ensures Populate(segs, params, blanks, src) == Ok((Interleave(segs, vs), vs))
  {
    assert params[..|segs| - 1] == params;
  }

  /** `Interleave` from the front. */
  lemma InterleaveCons(seg: string, segs: seq<string>, v: string, vs: seq<string>)
    requires |segs| == |vs| + 1
    ensures Interleave([seg] + segs, [v] + vs) == seg + v + Interleave(segs, vs)
  {
    assert ([seg] + segs)[1..] == segs && ([v] + vs)[1..] == vs;
  }

  lemma InterleaveOne(a: string, b: string, x: string)
    ensures Interleave([a, b], [x]) == a + x + b
  {
    assert [a, b][1..] == [b] && [x][1..] == [];
  }

  lemma InterleaveTwo(a: string, b: string, c: string, x: string, y: string)
    ensures Interleave([a, b, c], [x, y]) == a + x + b + y + c
  {
    InterleaveOne(b, c, y);
    InterleaveCons(a, [b, c], x, [y]);
    assert [a] + [b, c] == [a, b, c] && [x] + [y] == [x, y];
  }

  lemma InterleaveThree(a: string, b: string, c: string, d: string, x: string, y: string, z: string)
    ensures Interleave([a, b, c, d], [x, y, z]) == a + x + b + y + c + z + d
  {
    InterleaveTwo(b, c, d, y, z);
    InterleaveCons(a, [b, c, d], x, [y, z]);
    assert [a] + [b, c, d] == [a, b, c, d] && [x] + [y, z] == [x, y, z];
  }

  lemma InterleaveFour(a: string, b: string, c: string, d: string, e: string, x: string, y: string, z: string, w: string)
    ensures Interleave([a, b, c, d, e], [x, y, z, w]) == a + x + b + y + c + z + d + w + e
  {
    InterleaveThree(b, c, d, e, y, z, w);
    InterleaveCons(a, [b, c, d, e], x, [y, z, w]);
    assert [a] + [b, c, d, e] == [a, b, c, d, e] && [x] + [y, z, w] == [x, y, z, w];
  }

  lemma InterleaveFive(a: string, b: string, c: string, d: string, e: string, f: string,
                       x: string, y: string, z: string, w: string, u: string)
    ensures Interleave([a, b, c, d, e, f], [x, y, z, w, u]) == a + x + b + y + c + z + d + w + e + u + f
  {
    InterleaveFour(b, c, d, e, f, y, z, w, u);
    InterleaveCons(a, [b, c, d, e, f], x, [y, z, w, u]);
    assert [a] + [b, c, d, e, f] == [a, b, c, d, e, f] && [x] + [y, z, w, u] == [x, y, z, w, u];
  }
}

=== FILE: random.dfy ===
/** The `RandomNumberGenerator` trait of logic/src/parameters/populator.rs:
    `generate_range(low, high)` returns a value in the inclusive range
    `[low, high]`. The generator is modelled as its entropy, a `Source`
    giving the raw value of every draw, plus a count of the draws made so
    far; a draw maps the raw value into the range. */
module Random {

  /** The raw value behind the k-th draw. */
  type Source = nat -> nat

  /** The k-th draw of `generate_range(low, high)`. */
  function Draw(src: Source, k: nat, low: int, high: int): (v: int)
    requires low <= high
    ensures low <= v <= high
  {
    low + src(k) % (high - low + 1)
  }

  /** A source whose every draw has the raw value `raw`. */
  function Constant(raw: nat): Source {
    _ => raw
  }

  /** The contract is all a caller may rely on: every value of the range
      is the outcome of some source, so no draw result is excluded. */
  lemma EveryValueIsDrawable(k: nat, low: int, high: int, v: int)
    requires low <= v <= high
    ensures Draw(Constant(v - low), k, low, high) == v
  {
  }

  /** The test `MockRng`: it cycles through `values`, and a draw is
      `low + value % (high - low + 1)`. The raw values of the tests are small,
      so Rust's `value as i32 % length` is the remainder used here. */
  function MockSource(values: seq<nat>): Source
    requires |values| > 0
  {
    (k: nat) => values[k % |values|]
  }
}

=== FILE: recognisers.dfy ===
/** The per-kind recognisers of logic/src/parameters: `from_str` of
    BlankParameter, StringParameter, IntParameter, BooleanParameter and
    UuidParameter. Each regex of the sources is written out as a matcher at
    one position plus a leftmost search (the `regex` crate's unanchored
    `is_match` and `captures`), and each matcher is proved equal to a
    declarative description of the text it accepts. */
module Recognisers {
  import opened Wrappers
  import opened Text
  import opened Decimal
  import opened Ints
  import opened Parameters
  import C = Config

  // ---------------------------------------------------------------- Blank

  /** `@\{\s*\}` matches at `p`: `@{`, a whitespace run, then `}`. */
  predicate BlankAt(s: string, p: nat) {
    LiteralAt(s, p, "@{") && (var k := SkipWhile(s, p + 2, IsWhitespace); k < |s| && s[k] == '}')
  }

  function BlankStarts(s: string): nat -> bool { (p: nat) => BlankAt(s, p) }

  /** The text `@{` + `gap` + `}` with an all-whitespace gap starts at `p`. */
  ghost predicate BlankSpanAt(s: string, p: nat, gap: string) {
    AllWhitespace(gap) && LiteralAt(s, p, "@{" + gap + "}")
  }

  ghost predicate ContainsBlank(s: string) {
    exists p: nat, gap: string :: BlankSpanAt(s, p, gap)
  }

  lemma BlankAtSound(s: string, p: nat)
    requires BlankAt(s, p)
    ensures BlankSpanAt(s, p, s[p + 2..SkipWhile(s, p + 2, IsWhitespace)])
  {
    var k := SkipWhile(s, p + 2, IsWhitespace);
    SkipWhileKeeps(s, p + 2, IsWhitespace);
    var gap := s[p + 2..k];
    assert s[p..k + 1] == s[p..p + 2] + gap + [s[k]];
  }

  lemma BlankAtComplete(s: string, p: nat, gap: string)
    requires BlankSpanAt(s, p, gap)
    ensures BlankAt(s, p)
  {
    var t := "@{" + gap + "}";
    var k := p + 2 + |gap|;
    assert s[p..p + |t|] == t;
    assert s[p..p + 2] == t[..2] == "@{";
    forall i | p + 2 <= i < k ensures IsWhitespace(s[i]) {
      assert s[i] == t[i - p] == gap[i - p - 2];
    }
    assert s[k] == t[|t| - 1] == '}';
    SkipWhileStopsAt(s, p + 2, k, IsWhitespace);
  }

  /** `BlankParameter::from_str`: accepted exactly when the text contains
      `@{`, any whitespace (newlines included), and `}`. */
  function BlankFromStr(s: string): (r: Result<Parameter, ParameterError>)
    ensures r.Ok? <==> ContainsBlank(s)
    ensures r.Ok? ==> r.value == Blank
    ensures r.Err? ==> r.error == InvalidParameter
  {
    var first := FirstIndex(0, |s|, BlankStarts(s));
    if first.Some? then
      BlankAtSound(s, first.value);
      Ok(Blank)
    else
      assert forall p: nat, gap: string :: BlankSpanAt(s, p, gap) ==> BlankAt(s, p) by {
        forall p: nat, gap: string | BlankSpanAt(s, p, gap) ensures BlankAt(s, p) {
          BlankAtComplete(s, p, gap);
        }
      }
      assert forall p: nat :: BlankAt(s, p) ==> p < |s| && BlankStarts(s)(p);
      Err(InvalidParameter)
  }

  // ---------------------------------------------------------- Boolean, UUID

  const BOOLEAN_TEXT := "@{boolean}"
  const UUID_TEXT := "@{uuid}"

  /** `BooleanParameter::from_str`: only the exact text `@{boolean}`. */
  function BooleanFromStr(s: string): (r: Result<Parameter, ParameterError>)
    ensures r.Ok? <==> s == BOOLEAN_TEXT
    ensures r.Ok? ==> r.value == Boolean
    ensures r.Err? ==> r.error == InvalidParameter
  {
    if s == BOOLEAN_TEXT then Ok(Boolean) else Err(InvalidParameter)
  }

  /** `UuidParameter::from_str`: the unanchored pattern `@\{uuid\}`, i.e.
      the text occurs anywhere in the input, letter case respected. */
  function UuidFromStr(s: string): (r: Result<(), ParameterError>)
    ensures r.Ok? <==> Occurs(UUID_TEXT, s)
    ensures r.Err? ==> r.error == InvalidParameter
  {
    ContainsIffOccurs(s, UUID_TEXT);
    if Contains(s, UUID_TEXT) then Ok(()) else Err(InvalidParameter)
  }

  // ------------------------------------------------------- String and Int

  /** What follows the keyword: nothing, so the bounds come from the
      configuration, or the two captured numerals. */
  datatype Bounds = Defaults | Given(low: string, high: string)

  /** The end of the greedy `\d+` (or `-?\d+` when `signed`) at `i`, or `i`
      itself when no numeral starts there. */
  function NumeralEnd(s: string, i: nat, signed: bool): (r: nat)
    requires i <= |s|
    ensures i <= r <= |s|
    ensures r > i ==> IsNumeral(s[i..r], signed)
    ensures r > i && r < |s| ==> !IsDigit(s[r])
  {
    if signed && i < |s| && s[i] == '-' then
      var d := SkipWhile(s, i + 1, IsDigit);
      SkipWhileKeeps(s, i + 1, IsDigit);
      if d == i + 1 then i else d
    else
      SkipWhileKeeps(s, i, IsDigit);
      SkipWhile(s, i, IsDigit)
  }

  /** A numeral followed by a non-digit is exactly what `NumeralEnd` finds. */
  lemma NumeralEndOf(s: string, i: nat, signed: bool, a: string)
    requires LiteralAt(s, i, a) && IsNumeral(a, signed)
    requires i + |a| < |s| && !IsDigit(s[i + |a|])
    ensures NumeralEnd(s, i, signed) == i + |a|
  {
    assert s[i] == a[0];
    forall k | i <= k < i + |a| ensures s[k] == a[k - i] {
      assert s[i..i + |a|][k - i] == s[k];
    }
    if signed && a[0] == '-' {
      SkipWhileStopsAt(s, i + 1, i + |a|, IsDigit);
    } else {
      SkipWhileStopsAt(s, i, i + |a|, IsDigit);
    }
  }

  /** The pieces of a bracket group: the two numerals and the whitespace
      between the comma and the second one. */
  datatype Bracket = Bracket(low: string, gap: string, high: string)

  /** The optional group and closing brace of the bounded pattern,
      `\[(N),\s*(N)\]\}`, tried at `q`; `N` is `-?\d+` when `signed` and
      `\d+` otherwise. The regex cannot backtrack into a different match:
      every repetition in it is followed by a character the repetition
      cannot consume. */
  function BracketAt(s: string, q: nat, signed: bool): (r: Option<Bracket>)
    ensures r.Some? ==> IsNumeral(r.value.low, signed) && IsNumeral(r.value.high, signed)
    ensures r.Some? ==> AllWhitespace(r.value.gap)
  {
    if q >= |s| || s[q] != '[' then None
    else
      var e1 := NumeralEnd(s, q + 1, signed);
      if e1 == q + 1 || e1 >= |s| || s[e1] != ',' then None
      else
        var w := SkipWhile(s, e1 + 1, IsWhitespace);
        SkipWhileKeeps(s, e1 + 1, IsWhitespace);
        var e2 := NumeralEnd(s, w, signed);
        if e2 == w || e2 + 1 >= |s| || s[e2] != ']' || s[e2 + 1] != '}' then None
        else Some(Bracket(s[q + 1..e1], s[e1 + 1..w], s[w..e2]))
  }

  /** The whole pattern `@\{kw(?:\[(N),\s*(N)\])?\}` tried at `p`. */
  function BoundedAt(s: string, p: nat, kw: string, signed: bool): (r: Option<Bounds>)
    ensures r.Some? && r.value.Given? ==> IsNumeral(r.value.low, signed) && IsNumeral(r.value.high, signed)
  {
    var q := p + 2 + |kw|;
    if !LiteralAt(s, p, "@{" + kw) || q >= |s| then None
    else if s[q] == '}' then Some(Defaults)
    else
      match BracketAt(s, q, signed)
      case None => None
      case Some(m) => Some(Given(m.low, m.high))
  }

  /** The text `[low,` + gap + `high]}` laid out from `q`: each piece
      at the index the previous one ends at. */
  ghost predicate BracketLaidOut(s: string, q: nat, m: Bracket) {
    var e1 := q + 1 + |m.low|;
    var w := e1 + 1 + |m.gap|;
    var e2 := w + |m.high|;
    && e2 + 2 <= |s|
    && s[q] == '[' && s[e1] == ',' && s[e2] == ']' && s[e2 + 1] == '}'
    && s[q + 1..e1] == m.low && s[e1 + 1..w] == m.gap && s[w..e2] == m.high
  }

  /** The declarative reading of a match at `p`: `@{kw` followed either by
      `}` or by `[low,` + gap + `high]}` with numerals as bounds and only
      whitespace in the gap. */
  ghost predicate BoundedSpanAt(s: string, p: nat, kw: string, signed: bool, b: Bounds, gap: string) {
    var q := p + 2 + |kw|;
    && LiteralAt(s, p, "@{" + kw)
    && AllWhitespace(gap)
    && match b
       case Defaults => gap == "" && q < |s| && s[q] == '}'
       case Given(low, high) =>
         IsNumeral(low, signed) && IsNumeral(high, signed) && BracketLaidOut(s, q, Bracket(low, gap, high))
  }

  lemma BracketAtSound(s: string, q: nat, signed: bool)
    requires BracketAt(s, q, signed).Some?
    ensures BracketLaidOut(s, q, BracketAt(s, q, signed).value)
  {
  }

  lemma BoundedAtSound(s: string, p: nat, kw: string, signed: bool)
    requires BoundedAt(s, p, kw, signed).Some?
    ensures exists gap :: BoundedSpanAt(s, p, kw, signed, BoundedAt(s, p, kw, signed).value, gap)
  {
    var q := p + 2 + |kw|;
    var b := BoundedAt(s, p, kw, signed).value;
    if s[q] == '}' {
      assert BoundedSpanAt(s, p, kw, signed, b, "");
    } else {
      var m := BracketAt(s, q, signed).value;
      BracketAtSound(s, q, signed);
      assert BoundedSpanAt(s, p, kw, signed, b, m.gap);
    }
  }

  /** A numeral never starts with whitespace. */
  lemma NumeralStartsWithNonSpace(a: string, signed: bool)
    requires IsNumeral(a, signed)
    ensures !IsWhitespace(a[0])
  {
  }

  /** A whitespace run followed by a numeral ends where the numeral
      starts. */
  lemma GapEnd(s: string, i: nat, gap: string, next: string, signed: bool)
    requires AllWhitespace(gap) && IsNumeral(next, signed)
    requires i + |gap| + |next| <= |s|
    requires s[i..i + |gap|] == gap && s[i + |gap|..i + |gap| + |next|] == next
    ensures SkipWhile(s, i, IsWhitespace) == i + |gap|
  {
    forall k | i <= k < i + |gap| ensures IsWhitespace(s[k]) {
      assert s[k] == gap[k - i];
    }
    NumeralStartsWithNonSpace(next, signed);
    assert s[i + |gap|] == next[0];
    SkipWhileStopsAt(s, i, i + |gap|, IsWhitespace);
  }

  lemma LowEnd(s: string, q: nat, signed: bool, m: Bracket)
    requires BracketLaidOut(s, q, m) && IsNumeral(m.low, signed)
    ensures NumeralEnd(s, q + 1, signed) == q + 1 + |m.low|
  {
    NumeralEndOf(s, q + 1, signed, m.low);
  }

  lemma GapEndIn(s: string, q: nat, signed: bool, m: Bracket)
    requires BracketLaidOut(s, q, m) && AllWhitespace(m.gap) && IsNumeral(m.high, signed)
    ensures SkipWhile(s, q + 2 + |m.low|, IsWhitespace) == q + 2 + |m.low| + |m.gap|
  {
    GapEnd(s, q + 2 + |m.low|, m.gap, m.high, signed);
  }

  lemma HighEnd(s: string, q: nat, signed: bool, m: Bracket)
    requires BracketLaidOut(s, q, m) && IsNumeral(m.high, signed)
    ensures NumeralEnd(s, q + 2 + |m.low| + |m.gap|, signed) == q + 2 + |m.low| + |m.gap| + |m.high|
  {
    NumeralEndOf(s, q + 2 + |m.low| + |m.gap|, signed, m.high);
  }

  /** `BracketAt` once its three scans are known to succeed. */
  lemma BracketAtEnds(s: string, q: nat, signed: bool, e1: nat, w: nat, e2: nat)
    requires q < |s| && s[q] == '[' && e1 == NumeralEnd(s, q + 1, signed)
    requires q + 1 < e1 < |s| && s[e1] == ',' && w == SkipWhile(s, e1 + 1, IsWhitespace)
    requires e2 == NumeralEnd(s, w, signed) && w < e2 && e2 + 1 < |s| && s[e2] == ']' && s[e2 + 1] == '}'
    ensures BracketAt(s, q, signed) == Some(Bracket(s[q + 1..e1], s[e1 + 1..w], s[w..e2]))
  {
  }

  lemma BracketAtComplete(s: string, q: nat, signed: bool, m: Bracket)
    requires IsNumeral(m.low, signed) && IsNumeral(m.high, signed) && AllWhitespace(m.gap)
    requires BracketLaidOut(s, q, m)
    ensures BracketAt(s, q, signed) == Some(m)
  {
    LowEnd(s, q, signed, m);
    GapEndIn(s, q, signed, m);
    HighEnd(s, q, signed, m);
    BracketAtFromEnds(s, q, signed, m);
  }

  /** With the three greedy runs ending where the layout says, the matcher
      reads the layout back. */
  lemma BracketAtFromEnds(s: string, q: nat, signed: bool, m: Bracket)
    requires BracketLaidOut(s, q, m) && |m.low| > 0 && |m.high| > 0
    requires NumeralEnd(s, q + 1, signed) == q + 1 + |m.low|
    requires SkipWhile(s, q + 2 + |m.low|, IsWhitespace) == q + 2 + |m.low| + |m.gap|
    requires NumeralEnd(s, q + 2 + |m.low| + |m.gap|, signed) == q + 2 + |m.low| + |m.gap| + |m.high|
    ensures BracketAt(s, q, signed) == Some(m)
  {
    var e1 := q + 1 + |m.low|;
    var w := e1 + 1 + |m.gap|;
    BracketAtEnds(s, q, signed, e1, w, w + |m.high|);
    LaidOutBracket(s, q, m);
  }

  /** The layout determines the bracket. */
  lemma LaidOutBracket(s: string, q: nat, m: Bracket)
    requires BracketLaidOut(s, q, m)
    ensures var e1 := q + 1 + |m.low|; var w := e1 + 1 + |m.gap|;
      Bracket(s[q + 1..e1], s[e1 + 1..w], s[w..w + |m.high|]) == m
  {
  }

  lemma BoundedAtComplete(s: string, p: nat, kw: string, signed: bool, b: Bounds, gap: string)
    requires BoundedSpanAt(s, p, kw, signed, b, gap)
    ensures BoundedAt(s, p, kw, signed) == Some(b)
  {
    if b.Given? {
      BracketAtComplete(s, p + 2 + |kw|, signed, Bracket(b.low, gap, b.high));
    }
  }

  /** The matcher accepts at `p` exactly the texts the declarative reading
      describes, and reports their bounds. */
  lemma BoundedAtIff(s: string, p: nat, kw: string, signed: bool, b: Bounds)
    ensures BoundedAt(s, p, kw, signed) == Some(b) <==> exists gap :: BoundedSpanAt(s, p, kw, signed, b, gap)
  {
    if BoundedAt(s, p, kw, signed) == Some(b) {
      BoundedAtSound(s, p, kw, signed);
    }
    if exists gap :: BoundedSpanAt(s, p, kw, signed, b, gap) {
      var gap :| BoundedSpanAt(s, p, kw, signed, b, gap);
      BoundedAtComplete(s, p, kw, signed, b, gap);
    }
  }

  function BoundedStarts(s: string, kw: string, signed: bool): nat -> bool {
    (p: nat) => BoundedAt(s, p, kw, signed).Some?
  }

  /** The leftmost match of the bounded pattern, as `captures` returns it. */
  function FirstBounded(s: string, kw: string, signed: bool): (r: Option<(nat, Bounds)>)
    ensures r.Some? ==> BoundedAt(s, r.value.0, kw, signed) == Some(r.value.1)
    ensures r.Some? ==> forall p: nat :: p < r.value.0 ==> BoundedAt(s, p, kw, signed).None?
    ensures r.None? ==> forall p: nat :: BoundedAt(s, p, kw, signed).None?
  {
    match FirstIndex(0, |s|, BoundedStarts(s, kw, signed))
    case None =>
      assert forall p: nat :: BoundedAt(s, p, kw, signed).Some? ==> p < |s| && BoundedStarts(s, kw, signed)(p);
      None
    case Some(p) =>
      forall i: nat | i < p ensures BoundedAt(s, i, kw, signed).None? {
        assert !BoundedStarts(s, kw, signed)(i);
      }
      Some((p, BoundedAt(s, p, kw, signed).value))
  }

  /** The value range a bounded placeholder asks for before any range
      check: the captured numerals, or the configured defaults. */
  function RequestedRange(b: Bounds, signed: bool, defaultLow: int, defaultHigh: int): (r: (int, int))
    requires b.Given? ==> IsNumeral(b.low, signed) && IsNumeral(b.high, signed)
  {
    match b
    case Defaults => (defaultLow, defaultHigh)
    case Given(low, high) => (NumeralValue(low, signed), NumeralValue(high, signed))
  }

  /** `IntParameter::from_str`. The leftmost `@{int...}` decides; each
      bound must parse as an `i32` (else `TypeParsing("i32", text)`), and an
      inverted range is refused with `InvalidMinMax`, defaults included. */
  function IntFromStr(s: string, cfg: C.Config): (r: Result<Parameter, ParameterError>)
    ensures r == Err(InvalidParameter) <==> FirstBounded(s, "int", true).None?
    ensures r.Ok? ==> r.value.Int? && r.value.min <= r.value.max
    ensures FirstBounded(s, "int", true).Some? ==>
      var b := FirstBounded(s, "int", true).value.1;
      var (lo, hi) := RequestedRange(b, true, cfg.paramIntRangeMin, cfg.paramIntRangeMax);
      && (r.Ok? <==> I32_MIN <= lo <= hi <= I32_MAX)
      && (r.Ok? ==> r.value == Int(lo, hi))
      && (b.Given? && !(I32_MIN <= lo <= I32_MAX) ==> r == Err(TypeParsing("i32", b.low)))
      && (b.Given? && I32_MIN <= lo <= I32_MAX && !(I32_MIN <= hi <= I32_MAX) ==> r == Err(TypeParsing("i32", b.high)))
      && (I32_MIN <= lo <= I32_MAX && I32_MIN <= hi <= I32_MAX && lo > hi ==> r == Err(InvalidMinMax(lo, hi)))
  {
    match FirstBounded(s, "int", true)
    case None => Err(InvalidParameter)
    case Some((_, b)) =>
      var (lo, hi) := RequestedRange(b, true, cfg.paramIntRangeMin, cfg.paramIntRangeMax);
      if !(I32_MIN <= lo <= I32_MAX) then Err(TypeParsing("i32", b.low))
      else if !(I32_MIN <= hi <= I32_MAX) then Err(TypeParsing("i32", b.high))
      else if lo > hi then Err(InvalidMinMax(lo, hi))
      else Ok(Int(lo, hi))
  }

  /** `StringParameter::from_str`: as for integers, with unsigned numerals,
      `u32` bounds and the configured string lengths as defaults. */
  function StringFromStr(s: string, cfg: C.Config): (r: Result<Parameter, ParameterError>)
    ensures r == Err(InvalidParameter) <==> FirstBounded(s, "string", false).None?
    ensures r.Ok? ==> r.value.String? && r.value.minLength <= r.value.maxLength
    ensures FirstBounded(s, "string", false).Some? ==>
      var b := FirstBounded(s, "string", false).value.1;
      var (lo, hi) := RequestedRange(b, false, cfg.paramStringLengthMin, cfg.paramStringLengthMax);
      && (r.Ok? <==> 0 <= lo <= hi < U32_LIMIT)
      && (r.Ok? ==> r.value == String(lo, hi))
      && (b.Given? && lo >= U32_LIMIT ==> r == Err(TypeParsing("u32", b.low)))
      && (b.Given? && lo < U32_LIMIT && hi >= U32_LIMIT ==> r == Err(TypeParsing("u32", b.high)))
      && (lo < U32_LIMIT && hi < U32_LIMIT && lo > hi ==> r == Err(InvalidMinMax(lo, hi)))
  {
    match FirstBounded(s, "string", false)
    case None => Err(InvalidParameter)
    case Some((_, b)) =>
      var (lo, hi) := RequestedRange(b, false, cfg.paramStringLengthMin, cfg.paramStringLengthMax);
      if lo >= U32_LIMIT then Err(TypeParsing("u32", b.low))
      else if hi >= U32_LIMIT then Err(TypeParsing("u32", b.high))
      else if lo > hi then Err(InvalidMinMax(lo, hi))
      else Ok(String(lo, hi))
  }

  // ------------------------------------------------------------- examples

  /** A bounded placeholder at the very start of the text is the leftmost
      match. */
  lemma FirstBoundedAtStart(s: string, kw: string, signed: bool, b: Bounds, gap: string)
    requires BoundedSpanAt(s, 0, kw, signed, b, gap)
    ensures FirstBounded(s, kw, signed) == Some((0, b))
  {
    BoundedAtComplete(s, 0, kw, signed, b, gap);
    FirstIndexIs(0, |s|, BoundedStarts(s, kw, signed), 0);
  }

  /** When `@` occurs only at the start, the only candidate match is
      there. */
  lemma FirstBoundedOnlyAtStart(s: string, kw: string, signed: bool)
    requires forall p :: 0 < p < |s| ==> s[p] != '@'
    ensures FirstBounded(s, kw, signed)
         == if BoundedAt(s, 0, kw, signed).Some? then Some((0, BoundedAt(s, 0, kw, signed).value)) else None
  {
    forall p: nat | p > 0 ensures BoundedAt(s, p, kw, signed).None? {
      var t := "@{" + kw;
      if p + |t| <= |s| {
        assert s[p..p + |t|][0] == s[p] && t[0] == '@';
      }
    }
    if BoundedAt(s, 0, kw, signed).Some? {
      FirstIndexIs(0, |s|, BoundedStarts(s, kw, signed), 0);
    }
  }

  /** With the default configuration `@{int}` takes the range 5..10. */
  lemma IntDefaultsExample()
    ensures IntFromStr("@{int}", C.Default()) == Ok(Int(5, 10))
  {
    var s := "@{int}";
    assert LiteralAt(s, 0, "@{" + "int");
    FirstBoundedAtStart(s, "int", true, Defaults, "");
  }

  /** How `@{int[-100, -99]}` is laid out: the bounds, the one-space gap
      and the closing `]}`. */
  lemma NegativeRangeLaidOut()
    ensures BoundedSpanAt("@{int[-100, -99]}", 0, "int", true, Given("-100", "-99"), " ")
  {
    var s := "@{int[-100, -99]}";
    assert LiteralAt(s, 0, "@{" + "int");
    assert s[6..10] == "-100" && s[11..12] == " " && s[12..15] == "-99";
    assert AllWhitespace(" ") by { assert IsWhitespace(' '); }
  }

  lemma NegativeNumerals()
    ensures IsNumeral("-100", true) && NumeralValue("-100", true) == -100
    ensures IsNumeral("-99", true) && NumeralValue("-99", true) == -99
  {
    assert "-100" == RenderInt(-100) && "-99" == RenderInt(-99);
    RenderIntRoundTrip(-100);
    RenderIntRoundTrip(-99);
  }

  /** Negative bounds are accepted and kept: `@{int[-100, -99]}` is the
      range -100..-99. */
  lemma IntNegativeRangeExample()
    ensures IntFromStr("@{int[-100, -99]}", C.Default()) == Ok(Int(-100, -99))
  {
    NegativeRangeLaidOut();
    NegativeNumerals();
    FirstBoundedAtStart("@{int[-100, -99]}", "int", true, Given("-100", "-99"), " ");
  }

  lemma InvertedRangeLaidOut()
    ensures BoundedSpanAt("@{int[1, 0]}", 0, "int", true, Given("1", "0"), " ")
  {
    var s := "@{int[1, 0]}";
    assert LiteralAt(s, 0, "@{" + "int");
    assert s[6..7] == "1" by { assert s[6] == '1'; }
    assert s[8..9] == " " by { assert s[8] == ' '; }
    assert s[9..10] == "0" by { assert s[9] == '0'; }
    assert AllWhitespace(" ") by { assert IsWhitespace(' '); }
  }

  /** An inverted range is refused with both bounds in the error:
      `@{int[1, 0]}` gives `InvalidMinMax(1, 0)`. */
  lemma IntInvertedRangeExample()
    ensures IntFromStr("@{int[1, 0]}", C.Default()) == Err(InvalidMinMax(1, 0))
  {
    InvertedRangeLaidOut();
    assert "1" == RenderInt(1) && "0" == RenderInt(0);
    RenderIntRoundTrip(1);
    RenderIntRoundTrip(0);
    FirstBoundedAtStart("@{int[1, 0]}", "int", true, Given("1", "0"), " ");
  }

  /** The pattern does not match at the start of `s`, and `s` has no other
      `@`: the Int recogniser finds no placeholder. */
  lemma NoIntAtStart(s: string)
    requires forall p :: 0 < p < |s| ==> s[p] != '@'
    requires BoundedAt(s, 0, "int", true).None?
    ensures IntFromStr(s, C.Default()) == Err(InvalidParameter)
  {
    FirstBoundedOnlyAtStart(s, "int", true);
  }

  /** A bracket group missing its high bound. */
  lemma IntMissingHigh(a: string)
    requires a == "@{int[1, ]}"
    ensures IntFromStr(a, C.Default()) == Err(InvalidParameter)
  {
    assert LiteralAt(a, 0, "@{" + "int");
    assert a[6] == '1' && a[7] == ',' && a[8] == ' ' && a[9] == ']';
    assert SkipWhile(a, 7, IsDigit) == 7;
    assert SkipWhile(a, 6, IsDigit) == 7;
    assert NumeralEnd(a, 6, true) == 7;
    assert SkipWhile(a, 9, IsWhitespace) == 9;
    assert SkipWhile(a, 8, IsWhitespace) == 9;
    assert SkipWhile(a, 9, IsDigit) == 9;
    assert NumeralEnd(a, 9, true) == 9;
    NoIntAtStart(a);
  }

  /** A bracket group missing its low bound. */
  lemma IntMissingLow(a: string)
    requires a == "@{int[, 1]}" || a == "@{int[, ]}"
    ensures IntFromStr(a, C.Default()) == Err(InvalidParameter)
  {
    assert a[6] == ',';
    assert SkipWhile(a, 6, IsDigit) == 6;
    assert NumeralEnd(a, 6, true) == 6;
    NoIntAtStart(a);
  }

  /** A bracket group without its `]`. */
  lemma IntMissingBracket(a: string)
    requires a == "@{int[0, 1}"
    ensures IntFromStr(a, C.Default()) == Err(InvalidParameter)
  {
    assert LiteralAt(a, 0, "@{" + "int");
    assert a[6] == '0' && a[7] == ',' && a[8] == ' ' && a[9] == '1' && a[10] == '}';
    assert SkipWhile(a, 7, IsDigit) == 7;
    assert SkipWhile(a, 6, IsDigit) == 7;
    assert NumeralEnd(a, 6, true) == 7;
    assert SkipWhile(a, 9, IsWhitespace) == 9;
    assert SkipWhile(a, 8, IsWhitespace) == 9;
    assert SkipWhile(a, 10, IsDigit) == 10;
    assert SkipWhile(a, 9, IsDigit) == 10;
    assert NumeralEnd(a, 9, true) == 10;
    NoIntAtStart(a);
  }

  /** A bracket group missing a bound or its `]`, or another keyword, is
      no `@{int...}` placeholder at all: each is refused with
      `InvalidParameter`. */
  lemma IntMalformedExamples()
    ensures IntFromStr("@{int[1, ]}", C.Default()) == Err(InvalidParameter)
    ensures IntFromStr("@{int[, 1]}", C.Default()) == Err(InvalidParameter)
    ensures IntFromStr("@{int[, ]}", C.Default()) == Err(InvalidParameter)
    ensures IntFromStr("@{int[0, 1}", C.Default()) == Err(InvalidParameter)
    ensures IntFromStr("@{string[0, 1]}", C.Default()) == Err(InvalidParameter)
  {
    IntMissingHigh("@{int[1, ]}");
    IntMissingLow("@{int[, 1]}");
    IntMissingLow("@{int[, ]}");
    IntMissingBracket("@{int[0, 1}");
    IntOtherKeyword("@{string[0, 1]}");
  }

  /** Another keyword with a valid bracket group. */
  lemma IntOtherKeyword(a: string)
    requires a == "@{string[0, 1]}"
    ensures IntFromStr(a, C.Default()) == Err(InvalidParameter)
  {
    NoBoundedAfterOtherTag(a, "int", true, 0);
  }

  /** With the default configuration `@{string}` takes the lengths 5..10. */
  lemma StringDefaultsExample()
    ensures StringFromStr("@{string}", C.Default()) == Ok(String(5, 10))
  {
    var s := "@{string}";
    assert LiteralAt(s, 0, "@{" + "string");
    FirstBoundedAtStart(s, "string", false, Defaults, "");
  }

  /** A text whose only `@` is its first character, and whose third
      character is neither whitespace nor `}`, contains no Blank. */
  lemma NoBlankAfterTag(s: string)
    requires |s| >= 3 && !IsWhitespace(s[2]) && s[2] != '}'
    requires forall p :: 0 < p < |s| ==> s[p] != '@'
    ensures !ContainsBlank(s)
  {
    forall p: nat, gap: string ensures !BlankSpanAt(s, p, gap) {
      var t := "@{" + gap + "}";
      if p + |t| <= |s| {
        assert s[p..p + |t|][0] == s[p] && t[0] == '@';
        if p == 0 {
          assert s[..|t|][2] == s[2];
          assert t[2] == if |gap| > 0 then gap[0] else '}';
        }
      }
    }
  }

  /** A bounded pattern cannot match a text whose only `@` is its first
      character when the keyword differs from the text at some offset. */
  lemma NoBoundedAfterOtherTag(s: string, kw: string, signed: bool, i: nat)
    requires forall p :: 0 < p < |s| ==> s[p] != '@'
    requires i < |kw| && 2 + i < |s| && s[2 + i] != kw[i]
    ensures FirstBounded(s, kw, signed).None?
  {
    FirstBoundedOnlyAtStart(s, kw, signed);
    var t := "@{" + kw;
    assert !LiteralAt(s, 0, t) by {
      assert t[2 + i] == kw[i];
      if |t| <= |s| {
        assert s[..|t|][2 + i] == s[2 + i];
      }
    }
  }

  /** `@{boolean}` is refused by the Blank, String and Int recognisers. */
  lemma BooleanTextIsNoOtherKind(cfg: C.Config)
    ensures BlankFromStr(BOOLEAN_TEXT).Err?
    ensures StringFromStr(BOOLEAN_TEXT, cfg).Err? && IntFromStr(BOOLEAN_TEXT, cfg).Err?
  {
    var s := BOOLEAN_TEXT;
    NoBlankAfterTag(s);
    NoBoundedAfterOtherTag(s, "string", false, 0);
    NoBoundedAfterOtherTag(s, "int", true, 0);
  }

  /** The Boolean recogniser wants the exact text: a bracket group or
      another tag is refused. */
  lemma BooleanExamples()
    ensures BooleanFromStr("@{boolean}") == Ok(Boolean)
    ensures BooleanFromStr("@{boolean[0, 1]}").Err? && BooleanFromStr("@{int}").Err?
  {
  }

  /** The UUID pattern is unanchored and case-sensitive. */
  lemma UuidExamples()
    ensures UuidFromStr("@{uuid}").Ok? && UuidFromStr("x@{uuid}y").Ok?
    ensures UuidFromStr("@{UUID}").Err? && UuidFromStr("@{uuid[3,4]}").Err?
  {
    assert OccursAt(UUID_TEXT, "@{uuid}", 0);
    assert OccursAt(UUID_TEXT, "x@{uuid}y", 1);
    AbsentAfterTag("@{UUID}", UUID_TEXT, 2);
    AbsentAfterTag("@{uuid[3,4]}", UUID_TEXT, 6);
  }

  /** A needle starting with `@` does not occur in a text whose only `@`
      is its first character, when the two differ at offset `i`. */
  lemma AbsentAfterTag(hay: string, needle: string, i: nat)
    requires |needle| > 0 && needle[0] == '@'
    requires forall p :: 0 < p < |hay| ==> hay[p] != '@'
    requires i < |needle| && i < |hay| && hay[i] != needle[i]
    ensures !Occurs(needle, hay)
  {
    forall k ensures !OccursAt(needle, hay, k) {
      if 0 <= k && k + |needle| <= |hay| {
        assert hay[k..k + |needle|][0] == hay[k];
        assert hay[k..k + |needle|][i] == hay[k + i];
      }
    }
  }
}

=== FILE: scanner.dfy ===
/** The segmenting half of `parse_parameters`
    (logic/src/parameters/parser.rs): every match of the pattern
    `@\{[^}]*\}`, taken leftmost-first and without overlap, is cut out of
    the command; what lies between the matches is kept as literal segments.
    There is no nesting: a placeholder ends at the first `}` after its `@{`. */
module Scanner {
  import opened Wrappers
  import opened Text

  /** `s[p..p+2] == "@{"`. */
  predicate OpenAt(s: string, p: int) {
    0 <= p && p + 1 < |s| && s[p] == '@' && s[p + 1] == '{'
  }

  predicate CloseAt(s: string, q: int) {
    0 <= q < |s| && s[q] == '}'
  }

  /** `OpenAt` and `CloseAt` as search predicates. */
  function Opens(s: string): nat -> bool { p => OpenAt(s, p) }

  function Closes(s: string): nat -> bool { q => CloseAt(s, q) }

  /** The text of one placeholder: `@{`, then no `}`, then `}`. */
  predicate IsPlaceholder(t: string) {
    && |t| >= 3
    && t[0] == '@' && t[1] == '{' && t[|t| - 1] == '}'
    && forall k :: 2 <= k < |t| - 1 ==> t[k] != '}'
  }

  /** `t` contains an opening `@{`. */
  ghost predicate HasOpen(t: string) {
    exists p :: OpenAt(t, p)
  }

  /** `t` contains a match of `@\{[^}]*\}`: an `@{` with a `}` after it. */
  ghost predicate HasPlaceholder(t: string) {
    exists p, q :: OpenAt(t, p) && p + 2 <= q && CloseAt(t, q)
  }

  /** The next match at or after `from`, as [start, end) indices. */
  function NextMatch(s: string, from: nat): (r: Option<(nat, nat)>)
    ensures r.Some? ==> from <= r.value.0 && r.value.0 + 3 <= r.value.1 <= |s|
    ensures r.Some? ==> OpenAt(s, r.value.0) && CloseAt(s, r.value.1 - 1)
  {
    match FirstIndex(from, |s|, Opens(s))
    case None => None
    case Some(p) =>
      match FirstIndex(p + 2, |s|, Closes(s))
      case None => None
      case Some(q) => Some((p, q + 1))
  }

  /** `segs[0] ++ vals[0] ++ segs[1] ++ ... ++ vals[n-1] ++ segs[n]`. */
  function Interleave(segs: seq<string>, vals: seq<string>): string
    requires |segs| == |vals| + 1
    decreases |vals|
  {
    if |vals| == 0 then segs[0]
    else segs[0] + vals[0] + Interleave(segs[1..], vals[1..])
  }

  /** The segments and matched spans of `s`, left to right. The Rust loop
      resumes the search at the end of the previous match; searching the
      remaining suffix is the same, since the pattern has no anchors. */
  function Scan(s: string): (r: (seq<string>, seq<string>))
    ensures |r.0| == |r.1| + 1
    decreases |s|
  {
    match NextMatch(s, 0)
    case None => ([s], [])
    case Some((p, e)) =>
      var (segs, spans) := Scan(s[e..]);
      ([s[..p]] + segs, [s[p..e]] + spans)
  }

  /** The declarative reading of a scan: the pieces rebuild the input, every
      span is a placeholder, no segment before a span contains `@{` (so each
      span starts at the leftmost possible place), and the final segment
      contains no placeholder. */
  ghost predicate IsScanOf(s: string, segs: seq<string>, spans: seq<string>) {
    && |segs| == |spans| + 1
    && Interleave(segs, spans) == s
    && (forall i :: 0 <= i < |spans| ==> IsPlaceholder(spans[i]))
    && (forall i :: 0 <= i < |spans| ==> !HasOpen(segs[i]))
    && !HasPlaceholder(segs[|spans|])
  }

  lemma NoOpenBefore(s: string, p: nat)
    requires forall i :: 0 <= i < p ==> !OpenAt(s, i)
    requires p <= |s|
    ensures !HasOpen(s[..p])
  {
    if HasOpen(s[..p]) {
      var i :| OpenAt(s[..p], i);
      assert OpenAt(s, i);
    }
  }

  /** An `@{` with a later `}` guarantees a match. */
  lemma PlaceholderGivesMatch(s: string, p: nat, q: nat)
    requires OpenAt(s, p) && p + 2 <= q && CloseAt(s, q)
    ensures NextMatch(s, 0).Some?
  {
    assert Opens(s)(p);
    var first := FirstIndex(0, |s|, Opens(s));
    assert first.Some? && first.value <= p;
    assert Closes(s)(q);
    var close := FirstIndex(first.value + 2, |s|, Closes(s));
    assert close.Some?;
  }

  lemma NoMatchMeansNoPlaceholder(s: string)
    ensures NextMatch(s, 0).None? ==> !HasPlaceholder(s)
  {
    forall p: nat, q: nat | OpenAt(s, p) && p + 2 <= q && CloseAt(s, q)
      ensures NextMatch(s, 0).Some?
    {
      PlaceholderGivesMatch(s, p, q);
    }
  }

  /** The leftmost match of a text that starts with a segment free of `@{`
      followed by a placeholder is that placeholder. */
  lemma MatchAfterSegment(s: string, seg: string, span: string, rest: string)
    requires s == seg + span + rest
    requires !HasOpen(seg) && IsPlaceholder(span)
    ensures NextMatch(s, 0) == Some((|seg|, |seg| + |span|))
  {
    var p := |seg|;
    var e := p + |span|;
    assert OpenAt(s, p) by {
      assert s[p] == span[0] && s[p + 1] == span[1];
    }
    forall i | 0 <= i < p ensures !Opens(s)(i) {
      if i + 1 < p {
        assert !OpenAt(seg, i);
        assert s[i] == seg[i] && s[i + 1] == seg[i + 1];
      } else {
        assert s[i + 1] == span[0];
      }
    }
    FirstIndexIs(0, |s|, Opens(s), p);
    forall k | p + 2 <= k < e - 1 ensures !Closes(s)(k) {
      assert s[k] == span[k - p];
    }
    assert Closes(s)(e - 1) by {
      assert s[e - 1] == span[|span| - 1];
    }
    FirstIndexIs(p + 2, |s|, Closes(s), e - 1);
  }

  /** A match always has a placeholder behind it. */
  lemma MatchGivesPlaceholder(s: string)
    ensures NextMatch(s, 0).Some? ==> HasPlaceholder(s)
  {
    if NextMatch(s, 0).Some? {
      var (p, e) := NextMatch(s, 0).value;
      assert OpenAt(s, p) && p + 2 <= e - 1 && CloseAt(s, e - 1);
    }
  }

  /** What the leftmost match cuts off: a segment without `@{` and a
      placeholder. */
  lemma MatchPieces(s: string, p: nat, e: nat)
    requires NextMatch(s, 0) == Some((p, e))
    ensures IsPlaceholder(s[p..e]) && !HasOpen(s[..p])
  {
    assert FirstIndex(0, |s|, Opens(s)) == Some(p);
    assert FirstIndex(p + 2, |s|, Closes(s)) == Some(e - 1);
    var span := s[p..e];
    forall k | 2 <= k < |span| - 1 ensures span[k] != '}' {
      assert span[k] == s[p + k];
      assert !Closes(s)(p + k);
    }
    forall i | 0 <= i < p ensures !OpenAt(s, i) {
      assert !Opens(s)(i);
    }
    NoOpenBefore(s, p);
  }

  /** Putting a segment free of `@{` and a placeholder in front of a scan
      gives a scan of the longer text. */
  lemma IsScanOfCons(rest: string, seg: string, span: string, segs: seq<string>, spans: seq<string>)
    requires IsScanOf(rest, segs, spans) && !HasOpen(seg) && IsPlaceholder(span)
    ensures IsScanOf(seg + span + rest, [seg] + segs, [span] + spans)
  {
    var segs', spans' := [seg] + segs, [span] + spans;
    assert segs'[1..] == segs && spans'[1..] == spans;
    forall i | 1 <= i < |spans'| ensures !HasOpen(segs'[i]) && IsPlaceholder(spans'[i]) {
      assert spans'[i] == spans[i - 1] && segs'[i] == segs[i - 1];
    }
    assert segs'[|spans'|] == segs[|spans|];
  }

  /** The three pieces of `x + y + z` are its slices at `|x|` and
      `|x| + |y|`. */
  lemma SlicesOfConcat(x: string, y: string, z: string)
    ensures (x + y + z)[..|x|] == x
    ensures (x + y + z)[|x|..|x| + |y|] == y
    ensures (x + y + z)[|x| + |y|..] == z
  {
  }

  /** The scan satisfies its declarative reading. */
  lemma {:induction false} ScanIsScanOf(s: string)
    ensures IsScanOf(s, Scan(s).0, Scan(s).1)
    decreases |s|
  {
    match NextMatch(s, 0)
    case None =>
      NoMatchMeansNoPlaceholder(s);
    case Some((p, e)) =>
      ScanIsScanOf(s[e..]);
      MatchPieces(s, p, e);
      var (segs, spans) := Scan(s[e..]);
      assert s == s[..p] + s[p..e] + s[e..];
      IsScanOfCons(s[e..], s[..p], s[p..e], segs, spans);
  }

  /** Dropping the first segment and span of a scan leaves a scan of the
      rest of the text. */
  lemma IsScanOfTail(s: string, segs: seq<string>, spans: seq<string>)
    requires IsScanOf(s, segs, spans) && |spans| > 0
    ensures s == segs[0] + spans[0] + Interleave(segs[1..], spans[1..])
    ensures IsScanOf(Interleave(segs[1..], spans[1..]), segs[1..], spans[1..])
    ensures !HasOpen(segs[0]) && IsPlaceholder(spans[0])
  {
    forall i | 0 <= i < |spans[1..]| ensures !HasOpen(segs[1..][i]) && IsPlaceholder(spans[1..][i]) {
      assert segs[1..][i] == segs[i + 1];
      assert spans[1..][i] == spans[i + 1];
    }
    assert segs[1..][|spans[1..]|] == segs[|spans|];
  }

  /** Text without a placeholder scans to itself and nothing else. */
  lemma ScanWithoutPlaceholder(s: string)
    requires !HasPlaceholder(s)
    ensures Scan(s) == ([s], [])
  {
    MatchGivesPlaceholder(s);
  }

  /** A segment free of `@{` followed by a placeholder is cut off first. */
  lemma ScanCons(seg: string, span: string, rest: string)
    requires !HasOpen(seg) && IsPlaceholder(span)
    ensures Scan(seg + span + rest) == ([seg] + Scan(rest).0, [span] + Scan(rest).1)
  {
    var s := seg + span + rest;
    MatchAfterSegment(s, seg, span, rest);
    SlicesOfConcat(seg, span, rest);
  }

  /** Only one cut satisfies the declarative reading: it is the scan. */
  lemma {:induction false} ScanOfIsUnique(s: string, segs: seq<string>, spans: seq<string>)
    requires IsScanOf(s, segs, spans)
    ensures Scan(s) == (segs, spans)
    decreases |s|
  {
    if |spans| == 0 {
      assert segs == [s];
      ScanWithoutPlaceholder(s);
    } else {
      IsScanOfTail(s, segs, spans);
      var rest := Interleave(segs[1..], spans[1..]);
      ScanCons(segs[0], spans[0], rest);
      ScanOfIsUnique(rest, segs[1..], spans[1..]);
      assert segs == [segs[0]] + segs[1..];
      assert spans == [spans[0]] + spans[1..];
    }
  }

  /** The scan is exactly the cut the declarative reading describes. */
  lemma ScanCharacterisation(s: string, segs: seq<string>, spans: seq<string>)
    ensures Scan(s) == (segs, spans) <==> IsScanOf(s, segs, spans)
  {
    ScanIsScanOf(s);
    if IsScanOf(s, segs, spans) {
      ScanOfIsUnique(s, segs, spans);
    }
  }
}

=== FILE: sequences.dfy ===
/** Order-preserving selection over sequences: the element filter both
    the Rust search handler and the Go command filter perform, and an
    independent description of what it keeps. */
module Sequences {

  /** Keeps the elements of `xs` that satisfy `keep`, in order (Rust
      `into_iter().filter(..).collect()`). */
  function Filter<T>(xs: seq<T>, keep: T -> bool): (r: seq<T>)
    ensures |r| <= |xs|
    ensures forall j :: 0 <= j < |r| ==> r[j] in xs && keep(r[j])
    ensures forall i :: 0 <= i < |xs| && keep(xs[i]) ==> xs[i] in r
    ensures |r| == 0 <==> forall i :: 0 <= i < |xs| ==> !keep(xs[i])
    decreases |xs|
  {
    if |xs| == 0 then []
    else
      var rest := Filter(xs[1..], keep);
      assert forall i :: 1 <= i < |xs| ==> xs[i] == xs[1..][i - 1];
      if keep(xs[0]) then [xs[0]] + rest else rest
  }

  /** The positions in `[from, |xs|)` that `keep` accepts, ascending: an
      independent statement of which elements survive a filter. */
  function KeptFrom<T>(xs: seq<T>, keep: T -> bool, from: nat): (idx: seq<nat>)
    requires from <= |xs|
    ensures forall j :: 0 <= j < |idx| ==> from <= idx[j] < |xs| && keep(xs[idx[j]])
    ensures forall j, j' :: 0 <= j < j' < |idx| ==> idx[j] < idx[j']
    ensures forall i :: from <= i < |xs| && keep(xs[i]) ==> i in idx
    decreases |xs| - from
  {
    if from == |xs| then []
    else if keep(xs[from]) then [from] + KeptFrom(xs, keep, from + 1)
    else KeptFrom(xs, keep, from + 1)
  }

  /** Filtering a suffix from its first element. */
  lemma FilterSuffix<T>(xs: seq<T>, keep: T -> bool, from: nat)
    requires from < |xs|
    ensures Filter(xs[from..], keep) == (if keep(xs[from]) then [xs[from]] else []) + Filter(xs[from + 1..], keep)
  {
    var tail := xs[from..];
    assert tail[1..] == xs[from + 1..] && tail[0] == xs[from];
  }

  /** The kept positions from `from` on: `from` itself when it is kept,
      then those after it. */
  lemma KeptFromStep<T>(xs: seq<T>, keep: T -> bool, from: nat)
    requires from < |xs|
    ensures KeptFrom(xs, keep, from) == (if keep(xs[from]) then [from] else []) + KeptFrom(xs, keep, from + 1)
  {
  }

  /** Putting one element in front of a selection keeps it a selection. */
  lemma SelectionCons<T>(xs: seq<T>, i: nat, found: seq<T>, later: seq<nat>)
    requires i < |xs| && |found| == |later|
    requires forall j :: 0 <= j < |later| ==> later[j] < |xs| && found[j] == xs[later[j]]
    ensures forall j :: 0 <= j < |later| + 1 ==> ([xs[i]] + found)[j] == xs[([i] + later)[j]]
  {
    forall j | 0 <= j < |later| + 1 ensures ([xs[i]] + found)[j] == xs[([i] + later)[j]] {
      if j > 0 {
        assert ([xs[i]] + found)[j] == found[j - 1] && ([i] + later)[j] == later[j - 1];
      }
    }
  }

  /** A filter is the input restricted to the kept positions: a
      subsequence, in the original order, holding every accepted element. */
  lemma {:induction false} FilterSelectsKeptPositions<T>(xs: seq<T>, keep: T -> bool, from: nat)
    requires from <= |xs|
    ensures |Filter(xs[from..], keep)| == |KeptFrom(xs, keep, from)|
    ensures forall j :: 0 <= j < |KeptFrom(xs, keep, from)| ==>
      Filter(xs[from..], keep)[j] == xs[KeptFrom(xs, keep, from)[j]]
    decreases |xs| - from
  {
    if from < |xs| {
      FilterSelectsKeptPositions(xs, keep, from + 1);
      FilterSuffix(xs, keep, from);
      KeptFromStep(xs, keep, from);
      if keep(xs[from]) {
        SelectionCons(xs, from, Filter(xs[from + 1..], keep), KeptFrom(xs, keep, from + 1));
      }
    }
  }

  /** When every element is accepted the filter returns its input. */
  lemma {:induction false} FilterKeepsAll<T>(xs: seq<T>, keep: T -> bool)
    requires forall i :: 0 <= i < |xs| ==> keep(xs[i])
    ensures Filter(xs, keep) == xs
    decreases |xs|
  {
    if |xs| > 0 {
      assert forall i :: 0 <= i < |xs[1..]| ==> xs[1..][i] == xs[i + 1];
      FilterKeepsAll(xs[1..], keep);
      assert [xs[0]] + xs[1..] == xs;
    }
  }
}

=== FILE: tag_tree.dfy ===
/** The tag tree of the UI side bar (ui/src/components/tag-tree.tsx). Each
    command tag is split on '/', and every prefix of the resulting path
    becomes a node. The nested `Record<string, TagNode>` objects form a
    trie; here the trie is one map from a node's path (its segments from
    the root) to the node, which holds the same information: the node's
    children are the paths one segment longer. */
module TagTree {
  import opened Wrappers
  import opened Text

  datatype TagNode = TagNode(id: string, name: string)

  type Tree = map<seq<string>, TagNode>

  /** What every node of a built tree satisfies: its id is its path joined
      with '/', its name is its last segment, and its parent is in the
      tree too. */
  ghost predicate WellFormed(t: Tree) {
    forall k :: k in t ==>
      && |k| >= 1
      && t[k] == TagNode(Join(k, '/'), k[|k| - 1])
      && (|k| > 1 ==> k[..|k| - 1] in t)
  }

  /** One step of the insertion: the node for `path[..index + 1]`, created
      if missing. */
  function Step(t: Tree, path: seq<string>, index: nat): (r: Tree)
    requires index < |path|
    ensures path[..index + 1] in r
    ensures forall k :: k in t ==> k in r && r[k] == t[k]
    ensures forall k :: k in r ==> k in t || k == path[..index + 1]
  {
    var key := path[..index + 1];
    if key in t then t else t[key := TagNode(Join(key, '/'), path[index])]
  }

  /** The inner `forEach` from segment `index` on, with `current` at the
      node for `path[..index]`: a missing node is created, an existing one
      is kept. */
  function InsertPath(t: Tree, path: seq<string>, index: nat): (r: Tree)
    requires index <= |path|
    decreases |path| - index
  {
    if index == |path| then t
    else
      InsertPath(Step(t, path, index), path, index + 1)
  }

  /** The step keeps a well-formed tree well formed when the parent of the
      new node is already there. */
  lemma StepWellFormed(t: Tree, path: seq<string>, index: nat)
    requires index < |path| && WellFormed(t)
    requires index > 0 ==> path[..index] in t
    ensures WellFormed(Step(t, path, index))
  {
    var key := path[..index + 1];
    assert key[..|key| - 1] == path[..index];
    assert key[|key| - 1] == path[index];
  }

  /** Inserting keeps the tree well formed. */
  lemma {:induction false} InsertPathWellFormed(t: Tree, path: seq<string>, index: nat)
    requires index <= |path| && WellFormed(t)
    requires index > 0 ==> path[..index] in t
    ensures WellFormed(InsertPath(t, path, index))
    decreases |path| - index
  {
    if index < |path| {
      StepWellFormed(t, path, index);
      InsertPathWellFormed(Step(t, path, index), path, index + 1);
    }
  }

  /** Inserting never replaces a node: create-if-absent. */
  lemma {:induction false} InsertPathKeeps(t: Tree, path: seq<string>, index: nat)
    requires index <= |path|
    ensures forall k :: k in t ==> k in InsertPath(t, path, index) && InsertPath(t, path, index)[k] == t[k]
    decreases |path| - index
  {
    if index < |path| {
      InsertPathKeeps(Step(t, path, index), path, index + 1);
    }
  }

  /** Every prefix of the path past `index` ends up in the tree. */
  lemma {:induction false} InsertPathAdds(t: Tree, path: seq<string>, index: nat)
    requires index <= |path|
    ensures forall n :: index < n <= |path| ==> path[..n] in InsertPath(t, path, index)
    decreases |path| - index
  {
    if index < |path| {
      InsertPathAdds(Step(t, path, index), path, index + 1);
      InsertPathKeeps(Step(t, path, index), path, index + 1);
    }
  }

  /** Nothing but those prefixes is added. */
  lemma {:induction false} InsertPathOnlyPrefixes(t: Tree, path: seq<string>, index: nat, k: seq<string>)
    requires index <= |path|
    requires k in InsertPath(t, path, index) && k !in t
    ensures exists n :: index < n <= |path| && k == path[..n]
    decreases |path| - index
  {
    var s := Step(t, path, index);
    if k in s {
      assert k == path[..index + 1];
    } else {
      InsertPathOnlyPrefixes(s, path, index + 1, k);
    }
  }

  /** What one command adds: nothing for a missing or empty tag. */
  function AddTag(t: Tree, tag: Option<string>): Tree {
    if tag.None? || tag.value == "" then t
    else InsertPath(t, Split(tag.value, '/'), 0)
  }

  /** `buildTagTree` up to the conversion into items: the commands' tags
      inserted in order, starting from the empty root. */
  function BuildTagTree(tags: seq<Option<string>>): Tree
    decreases |tags|
  {
    if |tags| == 0 then map[]
    else AddTag(BuildTagTree(tags[..|tags| - 1]), tags[|tags| - 1])
  }

  /** `k` is the path of the first `n >= 1` segments of the `i`-th tag. */
  ghost predicate IsTagPrefix(tags: seq<Option<string>>, k: seq<string>) {
    exists i, n :: 0 <= i < |tags| && tags[i].Some? && tags[i].value != ""
      && 1 <= n <= |Split(tags[i].value, '/')| && k == Split(tags[i].value, '/')[..n]
  }

  /** The built tree is well formed. */
  lemma {:induction false} BuildTagTreeWellFormed(tags: seq<Option<string>>)
    ensures WellFormed(BuildTagTree(tags))
    decreases |tags|
  {
    if |tags| > 0 {
      var tag := tags[|tags| - 1];
      BuildTagTreeWellFormed(tags[..|tags| - 1]);
      if tag.Some? && tag.value != "" {
        InsertPathWellFormed(BuildTagTree(tags[..|tags| - 1]), Split(tag.value, '/'), 0);
      }
    }
  }

  /** The built tree holds exactly one node per distinct non-empty prefix
      of a tag path: every prefix is a node, and every node is a prefix. */
  lemma {:induction false} BuildTagTreeNodes(tags: seq<Option<string>>)
    ensures forall k :: k in BuildTagTree(tags) <==> IsTagPrefix(tags, k)
    decreases |tags|
  {
    if |tags| > 0 {
      var front := tags[..|tags| - 1];
      var tag := tags[|tags| - 1];
      BuildTagTreeNodes(front);
      var t := BuildTagTree(front);
      var r := BuildTagTree(tags);
      forall k | IsTagPrefix(front, k) ensures IsTagPrefix(tags, k) {
        var i, n :| 0 <= i < |front| && front[i].Some? && front[i].value != ""
          && 1 <= n <= |Split(front[i].value, '/')| && k == Split(front[i].value, '/')[..n];
        assert tags[i] == front[i];
      }
      if tag.Some? && tag.value != "" {
        var path := Split(tag.value, '/');
        InsertPathKeeps(t, path, 0);
        InsertPathAdds(t, path, 0);
        forall k | k in r ensures IsTagPrefix(tags, k) {
          if k !in t {
            InsertPathOnlyPrefixes(t, path, 0, k);
            var n :| 0 < n <= |path| && k == path[..n];
            assert tags[|tags| - 1] == tag;
          }
        }
        forall k | IsTagPrefix(tags, k) ensures k in r {
          var i, n :| 0 <= i < |tags| && tags[i].Some? && tags[i].value != ""
            && 1 <= n <= |Split(tags[i].value, '/')| && k == Split(tags[i].value, '/')[..n];
          if i < |tags| - 1 {
            assert front[i] == tags[i];
            assert IsTagPrefix(front, k);
          }
        }
      } else {
        forall k | IsTagPrefix(tags, k) ensures k in r {
          var i, n :| 0 <= i < |tags| && tags[i].Some? && tags[i].value != ""
            && 1 <= n <= |Split(tags[i].value, '/')| && k == Split(tags[i].value, '/')[..n];
          assert front[i] == tags[i];
          assert IsTagPrefix(front, k);
        }
      }
    }
  }

  /** `BuildTagTreeNodes` for one path. */
  lemma NodeIffTagPrefix(tags: seq<Option<string>>, k: seq<string>)
    ensures k in BuildTagTree(tags) <==> IsTagPrefix(tags, k)
  {
    BuildTagTreeNodes(tags);
  }

  /** Commands without a tag, or with an empty one, add no node. */
  lemma UntaggedAddsNothing(tags: seq<Option<string>>, tag: Option<string>)
    requires tag.None? || tag == Some("")
    ensures BuildTagTree(tags + [tag]) == BuildTagTree(tags)
  {
    assert (tags + [tag])[..|tags|] == tags;
  }

  /** One item of `toTreeDataItems`: the node's id and name, and whether
      the item gets a `children` field, which it does exactly when the
      node has a child node. */
  datatype TreeItem = TreeItem(id: string, name: string, hasChildren: bool)

  /** A node of `t` one segment below `k`. */
  predicate IsChildOf(t: Tree, c: seq<string>, k: seq<string>) {
    c in t && |c| == |k| + 1 && c[..|k|] == k
  }

  function ItemOf(t: Tree, k: seq<string>): (r: TreeItem)
    requires k in t
  {
    TreeItem(t[k].id, t[k].name, exists c | c in t :: IsChildOf(t, c, k))
  }

  /** `k` is a proper prefix of the `i`-th tag's path. */
  predicate ProperPrefixOf(tags: seq<Option<string>>, i: int, k: seq<string>) {
    && 0 <= i < |tags| && tags[i].Some? && tags[i].value != ""
    && |k| < |Split(tags[i].value, '/')| && Split(tags[i].value, '/')[..|k|] == k
  }

  lemma ChildGivesProperPrefix(tags: seq<Option<string>>, k: seq<string>, c: seq<string>)
    requires IsChildOf(BuildTagTree(tags), c, k)
    ensures exists i :: ProperPrefixOf(tags, i, k)
  {
    NodeIffTagPrefix(tags, c);
    var i, n :| 0 <= i < |tags| && tags[i].Some? && tags[i].value != ""
      && 1 <= n <= |Split(tags[i].value, '/')| && c == Split(tags[i].value, '/')[..n];
    assert Split(tags[i].value, '/')[..|k|] == c[..|k|];
    assert ProperPrefixOf(tags, i, k);
  }

  lemma ProperPrefixGivesChild(tags: seq<Option<string>>, k: seq<string>, i: int)
    requires ProperPrefixOf(tags, i, k)
    ensures IsChildOf(BuildTagTree(tags), Split(tags[i].value, '/')[..|k| + 1], k)
  {
    var c := Split(tags[i].value, '/')[..|k| + 1];
    assert IsTagPrefix(tags, c);
    NodeIffTagPrefix(tags, c);
    assert c[..|k|] == k;
  }

  /** In a built tree, an item carries a `children` field exactly when its
      path is a proper prefix of some tag's path; its id and name come
      from its path. */
  lemma ItemHasChildrenIffProperPrefix(tags: seq<Option<string>>, k: seq<string>)
    requires k in BuildTagTree(tags)
    ensures |k| >= 1
    ensures ItemOf(BuildTagTree(tags), k).hasChildren <==> exists i :: ProperPrefixOf(tags, i, k)
    ensures ItemOf(BuildTagTree(tags), k).id == Join(k, '/')
    ensures ItemOf(BuildTagTree(tags), k).name == k[|k| - 1]
  {
    var t := BuildTagTree(tags);
    BuildTagTreeWellFormed(tags);
    if ItemOf(t, k).hasChildren {
      var c :| IsChildOf(t, c, k);
      ChildGivesProperPrefix(tags, k, c);
    }
    if exists i :: ProperPrefixOf(tags, i, k) {
      var i :| ProperPrefixOf(tags, i, k);
      ProperPrefixGivesChild(tags, k, i);
    }
  }
}

=== FILE: text.dfy ===
/** Character classes and string helpers shared by the recognisers, the
    validators and the display code. Strings are `seq<char>`; a Dafny
    `char` is a Unicode scalar value, so `|s|` is Rust's `s.chars().count()`. */
module Text {
  import opened Wrappers

  /** The Unicode White_Space property: what the `regex` crate's `\s` and
      Rust's `str::trim` treat as whitespace. */
  predicate IsWhitespace(c: char) {
    || ('\U{0009}' <= c <= '\U{000D}')
    || c == ' '
    || c == '\U{0085}'
    || c == '\U{00A0}'
    || c == '\U{1680}'
    || ('\U{2000}' <= c <= '\U{200A}')
    || c == '\U{2028}'
    || c == '\U{2029}'
    || c == '\U{202F}'
    || c == '\U{205F}'
    || c == '\U{3000}'
  }

  /** An ASCII decimal digit. */
  predicate IsDigit(c: char) {
    '0' <= c <= '9'
  }

  predicate AllWhitespace(s: string) {
    forall i :: 0 <= i < |s| ==> IsWhitespace(s[i])
  }

  predicate AllDigits(s: string) {
    forall i :: 0 <= i < |s| ==> IsDigit(s[i])
  }

  /** True when `lit` occurs in `s` starting at index `p`. */
  predicate LiteralAt(s: string, p: nat, lit: string) {
    p + |lit| <= |s| && s[p..p + |lit|] == lit
  }

  /** A literal occurs at `p` exactly when its two halves occur one after
      the other. */
  lemma LiteralConcat(s: string, p: nat, x: string, y: string)
    ensures LiteralAt(s, p, x + y) <==> LiteralAt(s, p, x) && LiteralAt(s, p + |x|, y)
  {
    if LiteralAt(s, p, x) && LiteralAt(s, p + |x|, y) {
      assert s[p..p + |x + y|] == s[p..p + |x|] + s[p + |x|..p + |x| + |y|];
    }
    if LiteralAt(s, p, x + y) {
      assert s[p..p + |x|] == s[p..p + |x + y|][..|x|];
      assert s[p + |x|..p + |x| + |y|] == s[p..p + |x + y|][|x|..];
    }
  }

  lemma LiteralChar(s: string, p: nat, c: char)
    ensures LiteralAt(s, p, [c]) <==> p < |s| && s[p] == c
  {
    if p < |s| && s[p] == c {
      assert s[p..p + 1] == [c];
    }
  }

  /** The first index at or after `k` whose character does not satisfy
      `keep` (or `|s|`): the end of a greedy `keep*` run. */
  function SkipWhile(s: string, k: nat, keep: char -> bool): (r: nat)
    requires k <= |s|
    ensures k <= r <= |s|
    ensures r < |s| ==> !keep(s[r])
    decreases |s| - k
  {
    if k == |s| || !keep(s[k]) then k else SkipWhile(s, k + 1, keep)
  }

  /** Every character the run passes over is kept. (A lemma rather than a
      postcondition of `SkipWhile`, so that the quantifier is in scope only
      where a proof asks for it.) */
  lemma {:induction false} SkipWhileKeeps(s: string, k: nat, keep: char -> bool)
    requires k <= |s|
    ensures forall i :: k <= i < SkipWhile(s, k, keep) ==> keep(s[i])
    decreases |s| - k
  {
    if k < |s| && keep(s[k]) {
      SkipWhileKeeps(s, k + 1, keep);
    }
  }

  /** A greedy run is determined by where it stops: if every character of
      `[k, q)` is kept and `s[q]` is not, the run from `k` ends at `q`. */
  lemma SkipWhileStopsAt(s: string, k: nat, q: nat, keep: char -> bool)
    requires k <= q < |s|
    requires forall i :: k <= i < q ==> keep(s[i])
    requires !keep(s[q])
    ensures SkipWhile(s, k, keep) == q
  {
    var r := SkipWhile(s, k, keep);
    SkipWhileKeeps(s, k, keep);
  }

  /** `str::trim_start`: drops the leading whitespace run. */
  function TrimStart(s: string): string {
    s[SkipWhile(s, 0, IsWhitespace)..]
  }

  /** Where the trailing whitespace run of `s` begins. */
  function TrailingStart(s: string): (r: nat)
    ensures r <= |s|
    ensures forall i :: r <= i < |s| ==> IsWhitespace(s[i])
    ensures r > 0 ==> !IsWhitespace(s[r - 1])
  {
    if |s| > 0 && IsWhitespace(s[|s| - 1]) then TrailingStart(s[..|s| - 1]) else |s|
  }

  /** `str::trim_end`: drops the trailing whitespace run. */
  function TrimEnd(s: string): string {
    s[..TrailingStart(s)]
  }

  /** `str::trim`: both ends stripped of whitespace. */
  function Trim(s: string): string {
    TrimEnd(TrimStart(s))
  }

  /** `s.trim().is_empty()` holds exactly when every character of `s` is
      whitespace. */
  lemma TrimEmptyIffAllWhitespace(s: string)
    ensures |Trim(s)| == 0 <==> AllWhitespace(s)
  {
    var a := SkipWhile(s, 0, IsWhitespace);
    SkipWhileKeeps(s, 0, IsWhitespace);
    var t := s[a..];
    var b := TrailingStart(t);
    if |Trim(s)| == 0 {
      assert b == 0;
      assert a == |s|;
    } else {
      assert b > 0 && !IsWhitespace(t[b - 1]);
      assert t[b - 1] == s[a + b - 1];
    }
  }

  /** ASCII lower-casing of one character; other characters are unchanged. */
  function LowerChar(c: char): char {
    if 'A' <= c <= 'Z' then (c as int + 32) as char else c
  }

  /** `str::to_lowercase`, restricted to the ASCII letters (see README). */
  function ToLower(s: string): (r: string)
    ensures |r| == |s|
    ensures forall i :: 0 <= i < |s| ==> r[i] == LowerChar(s[i])
  {
    seq(|s|, i requires 0 <= i < |s| => LowerChar(s[i]))
  }

  /** Case-insensitive equality with a lower-case word, character by
      character: the reference reading of `to_lowercase(s) == word`. */
  predicate EqualsIgnoringCase(s: string, word: string) {
    |s| == |word| && forall i :: 0 <= i < |s| ==> LowerChar(s[i]) == word[i]
  }

  lemma ToLowerEqualsIff(s: string, word: string)
    ensures ToLower(s) == word <==> EqualsIgnoringCase(s, word)
  {
    if EqualsIgnoringCase(s, word) {
      assert ToLower(s) == word;
    }
  }

  /** JavaScript `s.split(sep)` for a one-character separator: the maximal
      separator-free pieces, empty pieces included ("a//b" gives
      ["a", "", "b"]; "" gives [""]). */
  function Split(s: string, sep: char): (parts: seq<string>)
    ensures |parts| >= 1
    ensures forall j :: 0 <= j < |parts| ==> sep !in parts[j]
    decreases |s|
  {
    if |s| == 0 then [""]
    else
      var rest := Split(s[1..], sep);
      if s[0] == sep then [""] + rest
      else [[s[0]] + rest[0]] + rest[1..]
  }

  /** A text without the separator is one piece. */
  lemma {:induction false} SplitWithoutSep(s: string, sep: char)
    requires sep !in s
    ensures Split(s, sep) == [s]
    decreases |s|
  {
    if |s| > 0 {
      SplitWithoutSep(s[1..], sep);
      assert [s[0]] + s[1..] == s;
    }
  }

  /** A separator-free head followed by the separator is the first piece. */
  lemma {:induction false} SplitAfterSep(x: string, y: string, sep: char)
    requires sep !in x
    ensures Split(x + [sep] + y, sep) == [x] + Split(y, sep)
    decreases |x|
  {
    var s := x + [sep] + y;
    if |x| == 0 {
      assert s[1..] == y;
    } else {
      SplitAfterSep(x[1..], y, sep);
      assert s[1..] == x[1..] + [sep] + y;
      assert [x[0]] + x[1..] == x;
    }
  }

  /** JavaScript `parts.join(sep)`. */
  function Join(parts: seq<string>, sep: char): string
    decreases |parts|
  {
    if |parts| == 0 then ""
    else if |parts| == 1 then parts[0]
    else parts[0] + [sep] + Join(parts[1..], sep)
  }

  /** Splitting loses nothing: joining the pieces back gives the input. */
  lemma {:induction false} JoinSplit(s: string, sep: char)
    ensures Join(Split(s, sep), sep) == s
    decreases |s|
  {
    if |s| > 0 {
      JoinSplit(s[1..], sep);
      var rest := Split(s[1..], sep);
      if s[0] == sep {
        assert ([""] + rest)[1..] == rest;
        assert s == [sep] + s[1..];
      } else {
        var parts := [[s[0]] + rest[0]] + rest[1..];
        if |rest| == 1 {
          assert rest == [rest[0]];
          assert Join(rest, sep) == rest[0];
        } else {
          assert parts[1..] == rest[1..];
          assert Join(rest, sep) == rest[0] + [sep] + Join(rest[1..], sep);
        }
        assert s == [s[0]] + s[1..];
      }
    }
  }

  /** Go `strings.Contains(hay, needle)` / a substring test on any
      sequence: `needle` occurs at some offset of `hay`. */
  ghost predicate Occurs<T>(needle: seq<T>, hay: seq<T>) {
    exists i :: OccursAt(needle, hay, i)
  }

  /** `needle` occurs in `hay` at offset `i`. */
  ghost predicate OccursAt<T>(needle: seq<T>, hay: seq<T>, i: int) {
    0 <= i && i + |needle| <= |hay| && hay[i..i + |needle|] == needle
  }

  /** The executable substring search used by the Go filter. */
  function Contains<T(==)>(hay: seq<T>, needle: seq<T>): bool
    decreases |hay|
  {
    if |needle| <= |hay| && hay[..|needle|] == needle then true
    else if |hay| == 0 then false
    else Contains(hay[1..], needle)
  }

  /** The search finds the needle exactly when it occurs somewhere. */
  lemma {:induction false} ContainsIffOccurs<T>(hay: seq<T>, needle: seq<T>)
    ensures Contains(hay, needle) <==> Occurs(needle, hay)
    decreases |hay|
  {
    if |needle| <= |hay| && hay[..|needle|] == needle {
      assert OccursAt(needle, hay, 0);
    } else if |hay| == 0 {
    } else {
      ContainsIffOccurs(hay[1..], needle);
      if Contains(hay[1..], needle) {
        var i :| OccursAt(needle, hay[1..], i);
        assert hay[i + 1..i + 1 + |needle|] == hay[1..][i..i + |needle|];
        assert OccursAt(needle, hay, i + 1);
      } else if Occurs(needle, hay) {
        var i :| OccursAt(needle, hay, i);
        if i > 0 {
          assert hay[1..][i - 1..i - 1 + |needle|] == hay[i..i + |needle|];
          assert OccursAt(needle, hay[1..], i - 1);
        }
      }
    }
  }

  /** The least index in `[from, to)` satisfying `pred`: the leftmost-match
      search every regex in the sources performs. */
  function FirstIndex(from: nat, to: nat, pred: nat -> bool): (r: Option<nat>)
    ensures r.Some? ==> from <= r.value < to && pred(r.value)
    ensures r.Some? ==> forall i :: from <= i < r.value ==> !pred(i)
    ensures r.None? ==> (forall i :: from <= i < to ==> !pred(i))
    decreases (to as int) - (from as int)
  {
    if from >= to then None
    else if pred(from) then Some(from)
    else FirstIndex(from + 1, to, pred)
  }

  /** The leftmost index is determined by the first hit. */
  lemma FirstIndexIs(from: nat, to: nat, pred: nat -> bool, k: nat)
    requires from <= k < to && pred(k)
    requires forall i :: from <= i < k ==> !pred(i)
    ensures FirstIndex(from, to, pred) == Some(k)
  {
    var r := FirstIndex(from, to, pred);
  }

  /** `n` copies of `c` (Go `strings.Repeat` of a one-character string). */
  function Repeat<T>(c: T, n: nat): (r: seq<T>)
    ensures |r| == n
    ensures forall i :: 0 <= i < n ==> r[i] == c
  {
    seq(n, _ => c)
  }
}

=== FILE: truncate.dfy ===
/** `truncate_string` (cli/src/utils.rs): shortens a string to a column
    width, marking the cut with "...". Lengths count chars (Unicode scalar
    values), as `chars().count()` does. */
module Truncate {

  const ELLIPSIS: string := "..."

  /** `truncate_string(s, width)`. */
  function TruncateString(s: string, width: nat): (r: string)
    // A string that fits is returned unchanged.
    ensures |s| <= width ==> r == s
    // A cut string ends in "..." after a prefix of the input, and never
    // exceeds the width unless the width is below 3.
    ensures |s| > width ==> |r| >= 3 && r[|r| - 3..] == ELLIPSIS && r[..|r| - 3] <= s
    ensures |s| > width && width >= 3 ==> |r| == width
    ensures |s| > width && width < 3 ==> r == ELLIPSIS
  {
    if |s| > width then
      if width < 3 then ELLIPSIS
      else s[..width - 3] + ELLIPSIS
    else s
  }

  /** The result is never longer than the width, or than 3 when the width
      is below 3. */
  lemma TruncateBound(s: string, width: nat)
    ensures |TruncateString(s, width)| <= if width < 3 then 3 else width
  {
  }

  /** Truncating an already truncated string changes nothing. */
  lemma TruncateIdempotent(s: string, width: nat)
    ensures TruncateString(TruncateString(s, width), width) == TruncateString(s, width)
  {
  }

  /** The unit tests `must_truncate` and `fits`. */
  lemma TruncateExamples()
    ensures TruncateString("abc", 2) == "..."
    ensures TruncateString("abcd", 3) == "..."
    ensures TruncateString("abcde", 4) == "a..."
    ensures TruncateString("ab", 2) == "ab" && TruncateString("ab", 3) == "ab"
    ensures TruncateString("abc", 3) == "abc" && TruncateString("abcd", 7) == "abcd"
  {
  }
}

=== FILE: wrappers.dfy ===
/** Failure-compatible datatypes shared by every module of the model:
    Option for values that may be absent (JavaScript `undefined`, Rust
    `Option`), Result for operations that report an error value. */
module Wrappers {

  datatype Option<+T> = None | Some(value: T) {

    /** Returns the value held in Some, or the given default for None. */
    function GetOr(default: T): T {
      match this
      case Some(v) => v
      case None => default
    }
  }

  datatype Result<+R, +E> = Ok(value: R) | Err(error: E)

  /** `xs[i]` in JavaScript: the element when the index is in range, and
      `undefined` (None) otherwise. */
  function Lookup<T>(xs: seq<T>, i: int): (r: Option<T>)
    ensures r.Some? <==> 0 <= i < |xs|
    ensures r.Some? ==> r.value == xs[i]
  {
    if 0 <= i < |xs| then Some(xs[i]) else None
  }
}
